=== FILE: README.md ===
# Truck Game Demo — a verified model of its core

Truck Game Demo is a browser game. The player reverses a truck with a trailer
into a loading bay. The truck is steered by the arrow keys (or WASD). It must
not hit an obstacle or leave the yard, and it must not jackknife.

Levels come from three places:
- a built-in table of six yards;
- a DXF drawing, where layer names decide what each shape becomes;
- an OpenStreetMap area. Its buildings become walls, its barriers become
  barriers, and its first car park holds the bay. In free-roam mode the area
  is a large world with no bay.

This project models the game's logic in Dafny and proves properties of it:
- **Geometry.** Collision geometry: point in polygon, segment and polygon
  intersection, turned rectangle corners, the obstacle, boundary and parking
  checks.
- **Trucks.** Both truck implementations: the single-class `Truck`, and the
  component version where a `TruckCab` tows a `Trailer`. Both share the
  per-tick steering, throttle and movement rules, which are proved once.
- **Game.** The game's state machine, the level table, the keyboard state,
  the persisted guide-line settings, the effects trail and jackknife warning,
  and the follow camera.
- **Loaders.** The DXF and OSM map loaders, from parsed entities or elements
  to a level.

Numbers are modelled as reals. `Math.sin`, `Math.cos`, `Math.atan2` and
`Math.sqrt` are a `JsMath.MathLib` value passed in as a parameter. Proofs that
need them assume only the laws in `JsMath.Lawful`:
- sin² + cos² = 1;
- sin 0 = 0 and cos 0 = 1;
- sqrt is non-negative and squares back for non-negative arguments.

`Math.PI` is the constant 3.141592653589793.

Where the source changes state step by step, the model does too: classes with
`modifies` clauses and loops with invariants. Each such method is proved equal
to a pure function, and the properties are proved about that function.

Modules, one per file:
- `JsMath`: min, max, rounding, and the angle-normalising loops.
- `World`: points, poses, rectangles, obstacles, levels.
- `Boxes`: bounding boxes of point lists.
- `Collision`: `js/collision.js`.
- `Vehicle`: `js/entities/Vehicle.js` and the towing geometry.
- `Kinematics`: the per-tick steering, throttle and move rules.
- `Truck`: `js/truck.js`.
- `Entities`: `js/entities/Trailer.js` and `js/entities/TruckCab.js`.
- `Levels`: `js/levels.js`.
- `Input`: `js/input.js`.
- `Game`: `js/game.js`.
- `Settings`: `js/managers/SettingsManager.js`.
- `Effects`: the state of `js/renderers/EffectsRenderer.js`.
- `View`: the camera of `js/renderers/GameRenderer.js`.
- `DxfLoader`: `js/loaders/DXFMapLoader.js`.
- `OsmLoader`: `js/loaders/OSMMapLoader.js`.

## Model

| member | source | states |
|---|---|---|
| JsMath.Min | js/entities/TruckCab.js:129 | the result is at most both arguments and equal to one of them |
| JsMath.Max | js/entities/TruckCab.js:106 | the result is at least both arguments and equal to one of them |
| JsMath.Abs | js/entities/TruckCab.js:111 | the result is non-negative and equals the argument or its negation |
| JsMath.Round | js/loaders/OSMMapLoader.js:107 | `Math.round` lands within half a unit of its argument (ties round up) |
| JsMath.SqrtOfSquare | js/entities/Trailer.js:31 | with a lawful `Math`, the root of t·t is t for t ≥ 0 |
| JsMath.WrapDownBounds | js/truck.js:87 | the first normalising loop subtracts whole turns and ends at or below π, above −π when it ran |
| JsMath.WrapUpBounds | js/truck.js:88 | the second loop adds whole turns and ends at or above −π, at or below π when started there |
| JsMath.WrapRange | js/truck.js:83-91 | the two loops land in [−π, π], by whole turns in one direction only, and leave angles already in range unchanged |
| JsMath.NormalizeAngle | js/truck.js:83-91 | the two while loops compute the normalised angle, which lies in [−π, π] |
| World.Block | js/levels.js:21-27 | an unturned obstacle of the given kind, position and size |
| Boxes.Grow | js/loaders/DXFMapLoader.js:117-122 | the grown box contains the new point |
| Boxes.BoxOfMeaning | js/loaders/DXFMapLoader.js:111-126 | no box exactly for no points; otherwise every point lies in the box and each side is attained by a point |
| Collision.PrevIndex | js/collision.js:8 | the ray-casting loop's `j` is the previous vertex, wrapping from the first to the last |
| Collision.NoStraddleNoCrossing | js/collision.js:14-15 | an edge not straddling the ray's height never toggles the parity |
| Collision.ParityWithoutStraddle | js/collision.js:6-21 | if no edge straddles the point's height the parity stays false |
| Collision.PointInPolygonOutsideBand | js/collision.js:6-21 | a point above or below every vertex is outside |
| Collision.CrossingBetweenEnds | js/collision.js:15 | the crossing abscissa lies at or left of the edge's right end |
| Collision.NoCrossingLeftOf | js/collision.js:15 | an edge entirely left of the point is never crossed |
| Collision.ParityRightOfAll | js/collision.js:6-21 | with every vertex at or left of the point the parity stays false |
| Collision.PointInPolygonRightOfAll | js/collision.js:6-21 | a point right of every vertex is outside |
| Collision.RectCornersParity | js/collision.js:6-21 | on a rectangle's plain corners the even-odd rule holds exactly when the point is within the rectangle's vertical span (ray straddles the side edges) and the ray crosses exactly one of the left and right sides |
| Collision.InsideUnturnedRect | js/collision.js:6-21 | a rectangle of positive size contains exactly the points of its half-open box: left and top edges inside, right and bottom edges outside |
| Collision.LineIntersectsSymmetric | js/collision.js:24-41 | swapping the two segments gives the same answer |
| Collision.EndpointOnOwnSegment | js/collision.js:43-50 | a segment's ends are collinear with it and on it |
| Collision.SharedEndpointIntersects | js/collision.js:24-41 | segments sharing an endpoint intersect, in every orientation |
| Collision.PolygonsIntersectSymmetric | js/collision.js:53-84 | polygon intersection does not depend on the argument order |
| Collision.PolygonsIntersectSelf | js/collision.js:53-84 | a non-empty polygon intersects itself |
| Collision.RectCorners | js/collision.js:87-94 | four corners clockwise from the top-left, on the rectangle's edges |
| Collision.TurnedCornersCentred | js/collision.js:97-112 | the turned corners average to the centre and opposite corners mirror through it, whatever sin and cos are |
| Collision.TurnedCornersAtZero | js/collision.js:97-112 | unturned, the corners are the centre ± half the size, clockwise from the top-left |
| Collision.RotatedRectCornersProperties | js/collision.js:97-112 | at angle 0 the turned corners are the plain corners; the corners always average to the rectangle's centre |
| Collision.ObstacleCollisionExists | js/collision.js:115-123 | the early-exit scan reports a collision exactly when some obstacle's corners intersect the vehicle; none with no obstacles |
| Collision.BoundaryCollisionExists | js/collision.js:126-134 | the scan reports exactly when some corner is outside [0, width] × [0, height] |
| Collision.AllInsideForall | js/collision.js:137-149 | the early-exit scan is true exactly when every corner is inside the zone polygon |
| Collision.ParkingSuccessMeaning | js/collision.js:137-149 | parking succeeds exactly when every corner is inside the turned zone; `maxAngleDiff` makes no difference |
| Collision.ParkingInUnturnedZone | js/collision.js:137-149 | in an unturned zone of positive size, parking succeeds exactly when every vehicle corner lies in the zone's half-open box |
| Vehicle.Or | js/entities/Vehicle.js:4-8 | the configured value unless it is absent or 0, else the fallback |
| Vehicle.FromConfig | js/entities/Vehicle.js:3-9 | each of x, y and angle is the configured value when present and 0 when missing; width is the configured width when present and non-zero, else 40; height likewise, else 60; neither size is ever 0 |
| Vehicle.DirectionUnit | js/entities/Vehicle.js:12-17 | the direction is a unit vector; heading 0 points up the screen |
| Vehicle.Distance | js/entities/Trailer.js:29-31 | the distance is non-negative and squares to the squared gap |
| Vehicle.SquaredGap | js/entities/Trailer.js:31 | the squared gap is non-negative |
| Vehicle.AheadDistance | js/truck.js:153-156 | moving `dist` along a heading ends exactly `dist` away |
| Vehicle.BehindDistance | js/entities/TruckCab.js:63-69 | moving `dist` backwards ends exactly `dist` away |
| Vehicle.PullToDistance | js/entities/Trailer.js:53-59 | the correction leaves the point exactly `target` from the hitch, on the same line |
| Vehicle.HeadingError | js/entities/Trailer.js:36-43 | the heading error is normalised to [−π, π] |
| Vehicle.Turned | js/entities/Trailer.js:46-50 | the new heading is normalised; with no damping it is the old heading normalised |
| Vehicle.RootBelowTenth | js/entities/Trailer.js:33 | the distance is below (above) 0.1 exactly when its square is below (above) 0.01 |
| Vehicle.PulledPoint | js/entities/Trailer.js:53-59 | pulling both coordinates leaves the point `targetDist` from the hitch, on the line through its old position |
| Vehicle.PullAlongLine | js/entities/Trailer.js:53-59 | for any positive distance to the hitch, the pulled point is `targetDist` from the hitch and on the line through its old position |
| Vehicle.PulledTowards | js/entities/Trailer.js:53-59 | the pulled point keeps the direction to the hitch: its offset from the hitch is the old offset scaled by `targetDist / dist`, and it moved exactly `dist - targetDist` |
| Vehicle.PulledTowardsHitch | js/entities/Trailer.js:53-59 | the same pull at the measured distance to the hitch |
| Vehicle.Corners | js/entities/Vehicle.js:20-24 | a body has four corners |
| Vehicle.CornersAroundCentre | js/entities/Vehicle.js:27-39 | opposite corners mirror through the centre; unturned they are the centre ± half the size |
| Kinematics.TowardZeroMeaning | js/truck.js:112-119 | return to centre and coasting never cross zero, lose exactly one step, or snap to 0 within a step |
| Kinematics.SteerStepBounded | js/truck.js:107-120 | a wheel within its lock stays within it, whatever is held |
| Kinematics.SteerStepPrecedence | js/truck.js:107-120 | left overrides right; left never turns right of before unless at the lock (and vice versa); with neither the wheel recentres without crossing |
| Kinematics.ClampThenStep | js/truck.js:107-110 | clamping before or after a non-negative step gives the same wheel |
| Kinematics.SteerSweep | js/truck.js:107-110 | n ticks of one direction from the centre turn the wheel by n·rate, capped at the lock |
| Kinematics.SteerFromCentre | js/entities/TruckCab.js:102-119 | from the centre, holding a direction turns the wheel by `rate` per tick up to the lock |
| Kinematics.SpeedStepInBand | js/truck.js:123-145 | a speed between full reverse (60% of top) and top speed stays there |
| Kinematics.SpeedStepGuards | js/entities/TruckCab.js:121-149 | braking when jackknifed and stopped or reversing gives 0; reversing near a jackknife is held to 30%; coasting never reverses; acceleration ignores the angle |
| Kinematics.AdvanceMeaning | js/truck.js:148-157 | at rest nothing moves; otherwise the cab travels exactly the absolute speed and turns by steering·speed·0.02 |
| Kinematics.AdvanceMoving | js/truck.js:148-157 | a moving cab turns its heading first and then moves along the new heading |
| Kinematics.JackknifeStop | js/truck.js:125-157 | jackknifed, stopped or reversing and braking: speed 0 and the cab stays put |
| Kinematics.RestIsFixed | js/truck.js:136-157 | at rest with nothing held the truck stays where it is |
| Truck.SquareBetween | js/truck.js:189 | squaring keeps the order of non-negative numbers |
| Truck.TrailerStepSnaps | js/truck.js:186-198 | when off by more than 0.1 the trailer ends exactly the link length from the hitch, on the line through its old position and the hitch |
| Truck.TrailerStepTowards | js/truck.js:186-198 | when off by more than 0.1 the correction moves the trailer towards the hitch, on its own side: its offset from the hitch is the old one scaled by `link / dist`, and it moves by exactly `dist - link` |
| Truck.TrailerStepMeaning | js/truck.js:163-204 | the heading ends normalised; within 0.1 of the hitch the trailer stays put; otherwise it ends within 0.1 of the link length, on the line to the hitch; it stays put when already within 0.1 of the link length, and is otherwise pulled towards the hitch by exactly `dist - link` |
| Truck.Truck.HitchPoint | js/truck.js:61-69 | the hitch is exactly 45 from the cab's centre |
| Truck.Truck.TrailerFrontPoint | js/truck.js:72-80 | the trailer front is half the trailer's length from its centre |
| Truck.Truck.JackknifeAngle | js/truck.js:83-91 | the cab–trailer angle is normalised and 0 when they are aligned |
| Truck.Truck.TruckCorners | js/truck.js:207-211 | four corners; both diagonal pairs (0 and 2, 1 and 3) mirror each other through the cab's centre |
| Truck.Truck.TrailerCorners | js/truck.js:214-220 | four corners; both diagonal pairs (0 and 2, 1 and 3) mirror each other through the trailer's centre |
| Truck.Truck.constructor | js/truck.js:3-37 | at rest, wheel centred, trailer aligned 70 behind the hitch, within the limits |
| Truck.Truck.InitTrailerPosition | js/truck.js:48-58 | the trailer's centre is 70 behind the hitch along the trailer's heading |
| Truck.Truck.GetJacknifeAngle | js/truck.js:83-91 | the loops compute the normalised cab–trailer angle |
| Truck.Truck.IsJackknifed | js/truck.js:94-97 | true exactly beyond 72 degrees |
| Truck.Truck.Update | js/truck.js:99-161 | steer, set the speed using the angle from before the move, move, then the trailer step; the wheel and speed limits are preserved |
| Truck.Truck.Steer | js/truck.js:107-120 | the wheel after the steering block |
| Truck.Truck.Accelerate | js/truck.js:123-145 | the speed after the throttle block, including the jackknife guards |
| Truck.Truck.Move | js/truck.js:148-157 | the pose after turning and moving |
| Truck.Truck.UpdateTrailerPhysics | js/truck.js:163-204 | the trailer pose after one physics step |
| Truck.Truck.Reset | js/truck.js:238-246 | the given pose at rest, wheel centred, trailer aligned behind the hitch, jackknife angle 0 |
| Entities.FollowMeaning | js/entities/Trailer.js:27-60 | within 0.1 of the hitch nothing moves; otherwise the trailer ends exactly `targetDist` from the hitch, on the line to it, heading normalised; its offset from the hitch is the old offset scaled by `targetDist / dist`, so it moves towards the hitch by exactly `dist - targetDist` |
| Entities.Trailer.constructor | js/entities/Trailer.js:5-15 | 50 × 120 with the pivot 60 from the centre unless configured |
| Entities.Trailer.FrontPoint | js/entities/Trailer.js:18-24 | the front pivot is half the trailer's length from its centre |
| Entities.Trailer.Corners | js/entities/TruckCab.js:75-77 | four corners mirroring through the trailer's centre |
| Entities.Trailer.FollowHitch | js/entities/Trailer.js:27-60 | the new pose is the follow step of the old one |
| Entities.TruckCab.HitchPoint | js/entities/TruckCab.js:63-69 | the hitch is exactly `hitchDistance` from the cab's centre |
| Entities.TruckCab.JackknifeAngle | js/entities/TruckCab.js:84-89 | the cab–trailer angle is normalised |
| Entities.TruckCab.CabCorners | js/entities/TruckCab.js:79-81 | four corners mirroring through the cab's centre |
| Entities.TruckCab.constructor | js/entities/TruckCab.js:6-43 | configured or default sizes and constants, at rest, a fresh trailer aligned behind the hitch |
| Entities.TruckCab.InitTrailerPosition | js/entities/TruckCab.js:56-61 | the trailer's centre `pivotDistance` behind the hitch |
| Entities.TruckCab.GetJacknifeAngle | js/entities/TruckCab.js:84-89 | the loops compute the normalised angle |
| Entities.TruckCab.IsJackknifed | js/entities/TruckCab.js:91-93 | true exactly beyond 72 degrees |
| Entities.TruckCab.UpdateSteering | js/entities/TruckCab.js:102-119 | the wheel after one steering step |
| Entities.TruckCab.UpdateSpeed | js/entities/TruckCab.js:121-149 | the speed after one throttle step, guarded by the current jackknife angle |
| Entities.TruckCab.UpdatePosition | js/entities/TruckCab.js:151-161 | the pose after turning and moving |
| Entities.TruckCab.Update | js/entities/TruckCab.js:95-100 | steer, speed, move, then the trailer follows the new hitch with damping 0.15; limits preserved |
| Entities.TruckCab.Reset | js/entities/TruckCab.js:163-171 | the given pose at rest, trailer aligned behind the hitch, jackknife angle 0 |
| Levels.TableShape | js/levels.js:11-182 | six levels numbered from 1, each with an unturned 56 × 170 bay at y = 50 and a start inside the yard |
| Levels.LevelLoader.constructor | js/levels.js:3-6 | the table, at level 0 |
| Levels.LevelLoader.GetLevel | js/levels.js:184-189 | nothing exactly for an index out of range, otherwise that level |
| Levels.LevelLoader.GetCurrentLevel | js/levels.js:191-193 | the current level, present exactly while the index is valid |
| Levels.LevelLoader.GetTotalLevels | js/levels.js:211-213 | the number of levels |
| Levels.LevelLoader.SetCurrentLevel | js/levels.js:195-201 | moves exactly when the index is in range, else stays; validity is kept |
| Levels.LevelLoader.NextLevel | js/levels.js:203-209 | advances by one exactly when not at the last level; refusal means the last level |
| Input.FlagOf | js/input.js:19-46 | each flag is driven exactly by its arrow key and both cases of its letter |
| Input.Controls | js/input.js:74-81 | up accelerates, down brakes, left and right steer; released keys give no input |
| Input.PressMeaning | js/input.js:19-46 | a press sets exactly its key's flag; other keys change nothing |
| Input.PressThenRelease | js/input.js:48-71 | press then release clears that flag and restores the others |
| Input.InputHandler.constructor | js/input.js:3-12 | all flags clear |
| Input.InputHandler.HandleKeyDown | js/input.js:19-46 | the key's flag set |
| Input.InputHandler.HandleKeyUp | js/input.js:48-71 | the key's flag cleared |
| Input.InputHandler.Reset | js/input.js:84-91 | all flags clear |
| Game.CooldownStep | js/game.js:92-94 | the cooldown drops by one while positive and never goes negative |
| Game.OutcomeMeaning | js/game.js:104-155 | a tick loses exactly on a hit outside the cooldown unless it ends parked and nearly stopped; it wins exactly when parked below speed 0.5; otherwise the state is kept |
| Game.Game.constructor | js/game.js:9-22 | at the menu with no truck, no level, cooldown 0, loader at level 0, keys released |
| Game.Game.LoadLevel | js/game.js:29-51 | selects the level when given; a level loaded gives a fresh truck at its start pose; the state is unchanged |
| Game.Game.Start | js/game.js:53-59 | the given in-range index becomes the current level (an out-of-range one keeps it); a loaded level means playing with keys released, a fresh truck at rest at that level's start pose and cooldown 0 |
| Game.Game.Restart | js/game.js:61-65 | the same level reloaded, playing, keys released |
| Game.Game.NextLevel | js/game.js:67-73 | at the last level nothing changes; otherwise the next level is played |
| Game.Game.HandleCollision | js/game.js:140-143 | the game is lost |
| Game.Game.CheckCollisions | js/game.js:110-138 | loses exactly on a cab or trailer hit or a corner out of bounds outside the cooldown |
| Game.Game.CheckWinCondition | js/game.js:145-155 | wins exactly when the trailer is inside the zone and the absolute speed is below 0.5 |
| Game.Game.Update | js/game.js:90-108 | cooldown step; the truck's tick with the current keys: steering, speed, cab pose and the trailer pulled after the new hitch; then the outcome judged on those new corners; validity kept |
| Game.Game.GameLoop | js/game.js:75-88 | while playing, the same tick as `Update`: cooldown step, steering, speed, cab and trailer poses, outcome, same truck and level; nothing otherwise |
| Game.Game.SetState | js/game.js:186-192 | the state is replaced and read back by `getState`; a valid game stays valid, provided Playing is entered only with a truck and a level |
| Settings.Pick | js/managers/SettingsManager.js:32-39 | the saved flag when present, else the default |
| Settings.MergeDefaultsMeaning | js/managers/SettingsManager.js:32-39 | every flag is the saved one where saved and the default otherwise |
| Settings.SaveThenLoad | js/managers/SettingsManager.js:19-48 | loading what was saved gives back exactly the saved settings |
| Settings.Load | js/managers/SettingsManager.js:19-29 | the defaults with nothing stored, else the stored settings over the defaults |
| Settings.Deliveries | js/managers/SettingsManager.js:71-73 | every listener called once, in order, with the key and value |
| Settings.Without | js/managers/SettingsManager.js:65-67 | exactly the other listeners remain |
| Settings.WithoutKeepsOrder | js/managers/SettingsManager.js:65-67 | filtering distributes over concatenation and removes every copy of the callback |
| Settings.SettingsManager.constructor | js/managers/SettingsManager.js:3-16 | the loaded settings, no listeners |
| Settings.SettingsManager.Save | js/managers/SettingsManager.js:42-48 | storage holds the current settings |
| Settings.SettingsManager.NotifyListeners | js/managers/SettingsManager.js:71-73 | one delivery per listener appended |
| Settings.SettingsManager.SetGuideLineSettings | js/managers/SettingsManager.js:56-60 | the guide lines replaced, saved and announced, and read back |
| Settings.SettingsManager.Subscribe | js/managers/SettingsManager.js:63-64 | the callback appended |
| Settings.SettingsManager.Unsubscribe | js/managers/SettingsManager.js:65-67 | every registration of the callback removed, the rest in order |
| Settings.SettingsManager.Reset | js/managers/SettingsManager.js:76-80 | the defaults, saved and announced as "reset" |
| Effects.AddPointMeaning | js/renderers/EffectsRenderer.js:35-40 | the new point is last, the trail stays within capacity and keeps the most recent points in order |
| Effects.Merge | js/renderers/EffectsRenderer.js:27-29 | a key present in the patch replaces the old group, else it is kept |
| Effects.MergeIdempotent | js/renderers/EffectsRenderer.js:27-29 | merging twice equals merging once; an empty patch changes nothing |
| Effects.WarningMatchesTruck | js/renderers/EffectsRenderer.js:197-224 | the warning shows exactly when the truck is near a jackknife; jackknifed shows the locked variant, which also shows at exactly the limit |
| Effects.EffectsRenderer.constructor | js/renderers/EffectsRenderer.js:5-24 | an empty trail and the default guide lines |
| Effects.EffectsRenderer.SetGuideSettings | js/renderers/EffectsRenderer.js:27-29 | the settings merged with the patch |
| Effects.EffectsRenderer.AddTrailPoint | js/renderers/EffectsRenderer.js:35-40 | the point appended, the trail capped at 500 |
| Effects.EffectsRenderer.ClearTrail | js/renderers/EffectsRenderer.js:42-44 | an empty trail |
| View.TargetRange | js/renderers/GameRenderer.js:58-64 | the camera target is within [0, max(0, world − canvas)] and centred when that fits |
| View.EaseBetween | js/renderers/GameRenderer.js:66-68 | one easing step lands between the camera and its target and shrinks the gap by the factor 1 − s |
| View.EaseTimesGap | js/renderers/GameRenderer.js:66-68 | after n steps towards a still target the gap is (1 − s)ⁿ times the first gap |
| View.Camera.constructor | js/renderers/GameRenderer.js:19-25 | the camera at the origin |
| View.GameRenderer.constructor | js/renderers/GameRenderer.js:8-35 | a 1200 × 800 world and canvas, camera at the origin, not following |
| View.GameRenderer.Resize | js/renderers/GameRenderer.js:37-40 | the canvas is 1200 × 800 |
| View.GameRenderer.SetWorldSize | js/renderers/GameRenderer.js:42-45 | the world size set |
| View.GameRenderer.SetFollowMode | js/renderers/GameRenderer.js:47-49 | follow mode set |
| View.GameRenderer.UpdateCamera | js/renderers/GameRenderer.js:51-69 | not following: back to the origin; following: a clamped target and one easing step that lands between the old position and the target |
| DxfLoader.NoPointsAnywhere | js/loaders/DXFMapLoader.js:115-122 | the drawing has no points exactly when no entity contributes one |
| DxfLoader.ToUpper | js/loaders/DXFMapLoader.js:191 | the same length, each letter upper-cased |
| DxfLoader.KindOfLayer | js/loaders/DXFMapLoader.js:199-208 | barrier/hazard before car/vehicle before cone before trailer, else wall, each exactly when its words match |
| DxfLoader.TransformMeaning | js/loaders/DXFMapLoader.js:152-157 | the minimum corner goes to the offsets; differences scale uniformly |
| DxfLoader.FittedAsWritten | js/loaders/DXFMapLoader.js:128-150 | `autoScale` as written; see Findings |
| DxfLoader.Fitted | js/loaders/DXFMapLoader.js:128-150 | the corrected fit always stores the drawing's minimum corner |
| DxfLoader.FittedAgrees | js/loaders/DXFMapLoader.js:139-149 | for a drawing with both sides non-zero the correction changes nothing |
| DxfLoader.DegenerateFitted | js/loaders/DXFMapLoader.js:132-137 | a drawing with a zero side keeps its units, with its corner at (50, 50) |
| DxfLoader.FittedScale | js/loaders/DXFMapLoader.js:139-145 | the scale is positive, neither side exceeds its target, and one side fills it |
| DxfLoader.FittedOffsets | js/loaders/DXFMapLoader.js:144-145 | the offsets centre the scaled drawing in the target, after the 50-unit margin |
| DxfLoader.FitsTarget | js/loaders/DXFMapLoader.js:139-157 | every point of the drawing lands in [50, 50 + width] × [50, 50 + height], and the drawing is centred |
| DxfLoader.FlatDrawingAsWritten | js/loaders/DXFMapLoader.js:132-137 | for a flat line (0, 0)–(length, 0), the fit as written leaves the corner unset on a fresh loader, and with a stale corner of (−1000, −1000) it sends the origin to (1050, 1050) |
| DxfLoader.FlatDrawingFitted | js/loaders/DXFMapLoader.js:132-137 | the corrected fit places the same line at (50, 50)–(length + 50, 50) |
| DxfLoader.LineToWall | js/loaders/DXFMapLoader.js:225-249 | a wall exactly when two vertices exist; its top-left corner is the smaller of the ends' coordinates; a span of 5 or more is the box's exact size along that axis, a shorter one is widened to the kind's thickness; it covers both ends |
| DxfLoader.TransformAll | js/loaders/DXFMapLoader.js:258-259 | every vertex transformed, in order |
| DxfLoader.OutlineBox | js/loaders/DXFMapLoader.js:255-264 | the smallest box around the transformed vertices: it contains every one, and a vertex lies on each of its four sides |
| DxfLoader.PolylineWallMeaning | js/loaders/DXFMapLoader.js:251-284 | an obstacle exactly for two vertices and closed or both sides over 10; at least 10 × 10, covering every vertex |
| DxfLoader.CircleToObstacle | js/loaders/DXFMapLoader.js:286-302 | a cone exactly when the radius is non-zero, a square of side 2·r·scale centred on the centre |
| DxfLoader.BlockToObstacle | js/loaders/DXFMapLoader.js:304-335 | a trailer-named block is a 50 × 150 parked trailer, a car-named one a 50 × 90 car, else 50 × 90 of the layer's kind; centred on the insertion point |
| DxfLoader.EntityObstacle | js/loaders/DXFMapLoader.js:190-223 | annotation layers and arcs give nothing; circles are cones; lines and polylines take the layer's kind |
| DxfLoader.ZoneRect | js/loaders/DXFMapLoader.js:337-361 | a zone exactly for a polyline of at least four vertices; unturned, it is the tightest rectangle around them: it covers every vertex and a vertex touches each side |
| DxfLoader.EntityToPoint | js/loaders/DXFMapLoader.js:363-377 | a block insert gives its position and rotation in radians; a circle its centre facing down |
| DxfLoader.Assemble | js/loaders/DXFMapLoader.js:90-108 | the first zone or a default bay at (550, 50); the last start or (600, 600) facing down |
| DxfLoader.AppendedEntities | js/loaders/DXFMapLoader.js:64-88 | the passes distribute over concatenated entity lists; a later start wins |
| DxfLoader.FirstZoneLastStart | js/loaders/DXFMapLoader.js:64-98 | drawing more never moves the first zone; a later start replaces an earlier one |
| DxfLoader.ParkingOutlineIsBoth | js/loaders/DXFMapLoader.js:64-88 | a closed four-vertex outline on a parking layer is both an obstacle and the zone, with the same top-left |
| DxfLoader.DxfMapLoader.constructor | js/loaders/DXFMapLoader.js:5-10 | scale 1, no offsets, no corner |
| DxfLoader.DxfMapLoader.CalculateBounds | js/loaders/DXFMapLoader.js:111-126 | the nested loops compute the box of all entity points |
| DxfLoader.DxfMapLoader.GrowBy | js/loaders/DXFMapLoader.js:116-123 | the inner loop grows the box to cover one more entity's points, in order |
| DxfLoader.DxfMapLoader.AutoScale | js/loaders/DXFMapLoader.js:128-150 | the frame becomes the corrected fit of the box; with no box nothing changes |
| DxfLoader.DxfMapLoader.TransformedBox | js/loaders/DXFMapLoader.js:255-264 | the loop computes the box of the transformed vertices |
| DxfLoader.DxfMapLoader.PolylineToWalls | js/loaders/DXFMapLoader.js:251-284 | the polyline's obstacle |
| DxfLoader.DxfMapLoader.EntityToRect | js/loaders/DXFMapLoader.js:337-361 | the entity's zone |
| DxfLoader.DxfMapLoader.ProcessEntity | js/loaders/DXFMapLoader.js:190-223 | the entity's obstacle |
| DxfLoader.DxfMapLoader.CollectObstacles | js/loaders/DXFMapLoader.js:63-75 | the first pass yields, in order, the obstacle of every entity that has one |
| DxfLoader.DxfMapLoader.CollectByLayer | js/loaders/DXFMapLoader.js:77-88 | the second pass yields the zones of the parking layers and the last start point, by layer name |
| DxfLoader.DxfMapLoader.Parse | js/loaders/DXFMapLoader.js:48-109 | fits the drawing into 1100 × 700, then the level assembled from both passes over the fitted frame |
| OsmLoader.GetBoundingBox | js/loaders/OSMMapLoader.js:28-42 | a box symmetric around the centre, `radius` metres each way, the longitude span widened by 1/cos(lat) |
| OsmLoader.NodeIndexMeaning | js/loaders/OSMMapLoader.js:91-95 | every node is indexed, and an id only with the position of a node that has it |
| OsmLoader.Resolve | js/loaders/OSMMapLoader.js:127-129 | no more positions than ids, each of an indexed node; every id with a node has its position kept, and when every id resolves there is one position per id |
| OsmLoader.WorldWidth | js/loaders/OSMMapLoader.js:99-106 | 2000 to 60000 wide; 2000 outside free roam |
| OsmLoader.WorldHeight | js/loaders/OSMMapLoader.js:107 | seven tenths of the width, rounded |
| OsmLoader.FixedWorld | js/loaders/OSMMapLoader.js:103-107 | outside free roam the world is exactly 2000 × 1400 |
| OsmLoader.ToGameCorners | js/loaders/OSMMapLoader.js:111-115 | the area's north-west corner lands at (50, 50), its south-east at (width + 50, height + 50) |
| OsmLoader.ToGameAll | js/loaders/OSMMapLoader.js:134 | every position converted, in order |
| OsmLoader.BayIn | js/loaders/OSMMapLoader.js:152-158 | a 56 × 170 bay centred across the car park, 10 below its top |
| OsmLoader.WayStepMeaning | js/loaders/OSMMapLoader.js:121-191 | short, tiny or huge ways change nothing; car parks and roads add no obstacle; the first bay is kept; at most one obstacle, a wall ≥ 15 × 15 for a building else a barrier ≥ 10 × 10 |
| OsmLoader.WayStepByTag | js/loaders/OSMMapLoader.js:143-191 | for a way whose box passes the size filters: a car park makes the bay over its box when it is the first over 40 × 40 and otherwise changes nothing; a road appends its points, kind and name; a building appends a wall over its box at least 15 × 15; a barrier a barrier at least 10 × 10; anything else changes nothing; only a road ever adds a road |
| OsmLoader.WaysOfSound | js/loaders/OSMMapLoader.js:121-191 | whatever the elements, every obstacle made is such a wall or barrier and the bay is 56 × 170 |
| OsmLoader.FirstBayKept | js/loaders/OSMMapLoader.js:150 | a later way never replaces the first bay |
| OsmLoader.IsPositionClear | js/loaders/OSMMapLoader.js:317-340 | clear exactly when neither the cab's point nor the point 200 above it is inside any grown obstacle |
| OsmLoader.MinDistance | js/loaders/OSMMapLoader.js:342-351 | infinite exactly when there are no obstacles |
| OsmLoader.MinDistanceMeaning | js/loaders/OSMMapLoader.js:342-351 | the minimum is no farther than any obstacle centre and attained by one |
| OsmLoader.FirstClearInRowMeaning | js/loaders/OSMMapLoader.js:293-297 | the row scan returns the first clear scan point, every earlier one blocked; none only when all are blocked |
| OsmLoader.AtLeastTransitive | js/loaders/OSMMapLoader.js:307 | "at least as far" is transitive, infinity included |
| OsmLoader.BestInRowMeaning | js/loaders/OSMMapLoader.js:305-311 | the row's best is at least as far as the candidate and every scan point, and is the candidate or a point at its own distance |
| OsmLoader.BestInGridMeaning | js/loaders/OSMMapLoader.js:301-312 | the same over every row of the grid |
| OsmLoader.SpiralPointAt | js/loaders/OSMMapLoader.js:266-267 | the point at the loop's running radius `50·n` and angle `0.5·k` around the world centre is the spiral's `k`-th point on ring `n` |
| OsmLoader.SpiralStep | js/loaders/OSMMapLoader.js:265-280 | past an unacceptable point within radius 1000, the search goes on with the next angle, or with angle 0 on the next ring once the angle would pass 2π |
| OsmLoader.SpiralFromMeaning | js/loaders/OSMMapLoader.js:260-281 | a spiral point found faces down, is clear by 200 and more than 100 inside the world |
| OsmLoader.StartMeaning | js/loaders/OSMMapLoader.js:250-315 | both searches face down; the centre search returns the centre or a point clear by 200 and inside the world, and takes a clear centre; the grid search returns a point clear by 250 when its first phase finds one |
| OsmLoader.FirstClearFound | js/loaders/OSMMapLoader.js:292-298 | a point found by the first phase is a scan point at or above the first row, facing down and clear by 250, with every earlier point of its row blocked |
| OsmLoader.FirstClearEarlierRows | js/loaders/OSMMapLoader.js:292-298 | before a point found by the first phase, every scan point of an earlier row is blocked |
| OsmLoader.FirstClearMeaning | js/loaders/OSMMapLoader.js:292-298 | the first phase returns the first clear point of its scan (rows upwards in steps of 80 while above 300, columns from 200 in steps of 80): a scan point facing down and clear by 250, with every point of an earlier row and every earlier point of its row blocked |
| OsmLoader.FirstClearExhausted | js/loaders/OSMMapLoader.js:292-298 | when the first phase returns nothing, every point of its scan is blocked |
| OsmLoader.FindStartMeaning | js/loaders/OSMMapLoader.js:287-315 | the grid search returns the first phase's point when there is one; otherwise a point whose nearest obstacle centre is at least as far as that of every point of the finer grid, or the bottom-middle fallback, which is kept only when no grid point is more than 0 from its nearest obstacle centre |
| OsmLoader.Docks | js/loaders/OSMMapLoader.js:210-233 | three obstacles: barriers either side of the bay and a wall across it |
| OsmLoader.ConvertedMeaning | js/loaders/OSMMapLoader.js:85-248 | world size bounds; a bay exactly outside free roam, 56 × 170; the docks appended exactly outside free roam with fewer than three obstacles; sound obstacles; the truck faces down |
| OsmLoader.OsmMapLoader.constructor | js/loaders/OSMMapLoader.js:3-5 | the Overpass endpoint, not free roam |
| OsmLoader.OsmMapLoader.LoadArea | js/loaders/OSMMapLoader.js:15-26 | the mode recorded and the level converted from the fetched elements of the area's box |
| OsmLoader.OsmMapLoader.ConvertToLevel | js/loaders/OSMMapLoader.js:85-248 | the two loops compute the converted level |
| OsmLoader.OsmMapLoader.CollectWays | js/loaders/OSMMapLoader.js:120-191 | the way loop computes the same obstacles, roads and bay as the way-by-way fold |
| OsmLoader.OsmMapLoader.GetMinDistanceToObstacle | js/loaders/OSMMapLoader.js:342-351 | the loop computes the minimum centre distance |
| OsmLoader.OsmMapLoader.FindStartPosition | js/loaders/OSMMapLoader.js:287-315 | the two nested scans compute the grid search's start: the first clear point of the first phase when there is one, otherwise the maximiser of the distance to the nearest obstacle centre over the finer grid, or the fallback when no grid point beats distance 0 |
| OsmLoader.OsmMapLoader.FindCenterStartPosition | js/loaders/OSMMapLoader.js:250-285 | the spiral loop computes the centre search's start |

## Left out

- Drawing: canvas rendering, trails, guides, obstacles, effects, and the camera transform. The model keeps only the state these read.
- DOM and UI: key listeners and `preventDefault`, the frame loop's `requestAnimationFrame` pacing, and the `onUpdate`, `onGameWin` and `onGameLose` callbacks.
- I/O and network: `DXFMapLoader.load` and `readFile`, and `OSMMapLoader.buildQuery` and `fetchOSMData`. The DXF model starts from the parsed entity list; `LoadArea` takes the fetched elements as a parameter. The DXF text parser (`parseSync`) is outside the model.
- Browser storage: `localStorage` is an optional stored value, and a parse failure reads as nothing stored. JSON values are limited to the boolean guide-line flags.
- IEEE floating point: NaN, rounding and overflow are not modelled; numbers are reals. Infinity appears only as the distance of no obstacle.
- DxfLoader.DxfMapLoader.AutoScale: with no points in the drawing the loader is left unchanged. The source instead computes infinite and NaN values that no entity then uses.
- DxfLoader.EntityPoints: every circle has a centre and every insert a position. The source throws on a missing one. A missing circle radius reads as 0.
- DxfLoader.ToUpper: only ASCII letters are upper-cased.
- OsmLoader.Converted: the description text, the centre formatted with `toFixed(4)`, is left empty.
- OsmLoader.GetBoundingBox: requires a non-zero cosine of the latitude; the poles divide by zero.
- OsmLoader.OsmMapLoader.ConvertToLevel: requires a box with non-zero spans, which `LoadArea` guarantees for a non-zero radius.
- OsmLoader.OsmMapLoader.LoadArea: the default radius (100) and mode (not free roam) are not modelled; callers pass both.
- The `parkingTarget: 'trailer'` field is not modelled; every level parks the trailer.
- `processEntity`'s `parkingZone` and `truckStart` result kinds are not modelled: the entity converters never produce them.
- The physics sub-object of `TruckCab` is flattened into `Steering` and `Throttle` fields.
- `Truck.getDirection` is `Vehicle.Direction`. The delegating getters of `game.js` (`getCurrentLevelInfo`, `getLevelCount`, `isLastLevel`) read the level loader, which is modelled.
- Game.Game.GetState, Input.InputHandler.GetInput, Settings.SettingsManager.GetGuideLineSettings and Effects.EffectsRenderer.GetGuideSettings are plain reads. Their meaning is stated by the setters' contracts.
- Settings.SettingsManager.SetGuideLineSettings: stores the value; the source keeps the caller's object, so later changes to it would alias the settings.
- Entities.TruckCab.Reset: it does not claim the trailer then sits at `followHitch`'s link length, which differs from `pivotDistance`. Likewise no bound is claimed on the cab's own heading, which the source never normalises.
- Game.Parked: a level without a parking zone never counts as parked.

## Findings

| source | as written | input that shows it | evidently intended | confidence | as-written member | corrected member |
|---|---|---|---|---|---|---|
| js/loaders/DXFMapLoader.js:132-137 | `autoScale` returns early for a drawing with zero width or height, before storing the drawing's minimum corner. `transformPoint` then subtracts an undefined or stale corner. | One horizontal LINE from (0, 0) to (500, 0). On a fresh loader the corner is undefined and every point becomes NaN. With a stale corner of (−1000, −1000) the origin lands at (1050, 1050). | Store the corner on both branches, so the line lands at (50, 50)–(550, 50). | not executed | DxfLoader.FittedAsWritten, DxfLoader.FlatDrawingAsWritten | DxfLoader.Fitted, DxfLoader.FlatDrawingFitted, DxfLoader.DxfMapLoader.AutoScale |

=== FILE: boxes.dfy ===
/** Axis-aligned bounding boxes of point lists, grown one point at a time as
    the map loaders' min/max scans do. A list with no points has no box: the
    scans' starting values of plus and minus infinity survive. */
module Boxes {
  import opened JsMath
  import opened World

  datatype Box = Box(minX: real, minY: real, maxX: real, maxY: real)

  /** The box after one more point. */
  function Grow(b: Option<Box>, p: Point): (r: Box)
    ensures r.minX <= p.x <= r.maxX && r.minY <= p.y <= r.maxY
  {
    if b.None? then Box(p.x, p.y, p.x, p.y)
    else Box(Min(b.value.minX, p.x), Min(b.value.minY, p.y), Max(b.value.maxX, p.x), Max(b.value.maxY, p.y))
  }

  /** The box of a list, folded from the front. */
  function BoxOf(ps: seq<Point>): Option<Box> {
    if ps == [] then None else Some(Grow(BoxOf(ps[..|ps| - 1]), ps[|ps| - 1]))
  }

  predicate InBox(p: Point, b: Box) {
    b.minX <= p.x <= b.maxX && b.minY <= p.y <= b.maxY
  }

  /** A list has a box exactly when it has points; the box holds every point,
      and each of its four sides is touched by some point. */
  lemma {:induction false} BoxOfMeaning(ps: seq<Point>)
    ensures BoxOf(ps).None? <==> ps == []
    ensures BoxOf(ps).Some? ==>
      var b := BoxOf(ps).value;
      && (forall i :: 0 <= i < |ps| ==> InBox(ps[i], b))
      && (exists i :: 0 <= i < |ps| && ps[i].x == b.minX)
      && (exists i :: 0 <= i < |ps| && ps[i].x == b.maxX)
      && (exists i :: 0 <= i < |ps| && ps[i].y == b.minY)
      && (exists i :: 0 <= i < |ps| && ps[i].y == b.maxY)
  {
    if ps != [] {
      var init, last := ps[..|ps| - 1], ps[|ps| - 1];
      BoxOfMeaning(init);
      var b := BoxOf(ps).value;
      assert b == Grow(BoxOf(init), last);
      if init != [] {
        var a := BoxOf(init).value;
        assert forall i :: 0 <= i < |init| ==> ps[i] == init[i];
        var i0 :| 0 <= i0 < |init| && init[i0].x == a.minX;
        var i1 :| 0 <= i1 < |init| && init[i1].x == a.maxX;
        var i2 :| 0 <= i2 < |init| && init[i2].y == a.minY;
        var i3 :| 0 <= i3 < |init| && init[i3].y == a.maxY;
        assert ps[if b.minX == a.minX then i0 else |ps| - 1].x == b.minX;
        assert ps[if b.maxX == a.maxX then i1 else |ps| - 1].x == b.maxX;
        assert ps[if b.minY == a.minY then i2 else |ps| - 1].y == b.minY;
        assert ps[if b.maxY == a.maxY then i3 else |ps| - 1].y == b.maxY;
      } else {
        assert ps[0] == last;
      }
    }
  }
}

=== FILE: collision.dfy ===
/** The collision toolkit of `CollisionDetector`: even-odd point-in-polygon,
    segment intersection by orientation signs, polygon overlap, rectangle
    corners, and the obstacle, boundary and parking tests built from them.
    Every test is a total predicate over point sequences. */
module Collision {
  import opened JsMath
  import opened World

  // ---------------------------------------------------------------------------
  // Point in polygon

  /** Whether the horizontal ray from `p` crosses the edge from `vi` to `vj`.
      The straddle test comes first, so the division only happens when
      `vi.y != vj.y`. */
  predicate EdgeCrosses(p: Point, vi: Point, vj: Point) {
    ((vi.y > p.y) != (vj.y > p.y)) && p.x < CrossingX(p, vi, vj)
  }

  /** Where the line through `vi` and `vj` meets the horizontal line through `p`. */
  function CrossingX(p: Point, vi: Point, vj: Point): real
    requires vi.y != vj.y
  {
    (vj.x - vi.x) * (p.y - vi.y) / (vj.y - vi.y) + vi.x
  }

  /** The index `j` that pairs with `i` in the loop `for (i = 0, j = n - 1; i < n; j = i++)`. */
  function PrevIndex(n: nat, i: nat): (j: nat)
    requires i < n
    ensures j < n
    ensures i == 0 ==> j == n - 1
    ensures i > 0 ==> j + 1 == i
  {
    if i == 0 then n - 1 else i - 1
  }

  /** The `inside` flag after the first `k` iterations of the ray-casting loop. */
  function Parity(p: Point, poly: seq<Point>, k: nat): bool
    requires k <= |poly|
  {
    if k == 0 then false
    else Parity(p, poly, k - 1) != EdgeCrosses(p, poly[k - 1], poly[PrevIndex(|poly|, k - 1)])
  }

  /** `pointInPolygon`: the even-odd rule over the closed vertex ring. */
  predicate PointInPolygon(p: Point, poly: seq<Point>) {
    Parity(p, poly, |poly|)
  }

  /** An edge that lies wholly on one side of the ray never counts. */
  lemma NoStraddleNoCrossing(p: Point, vi: Point, vj: Point)
    requires (vi.y > p.y) == (vj.y > p.y)
    ensures !EdgeCrosses(p, vi, vj)
  {
  }

  lemma {:induction false} ParityWithoutStraddle(p: Point, poly: seq<Point>, k: nat)
    requires k <= |poly|
    requires forall i :: 0 <= i < |poly| ==> (poly[i].y > p.y) == (poly[0].y > p.y)
    ensures !Parity(p, poly, k)
  {
    if k > 0 {
      ParityWithoutStraddle(p, poly, k - 1);
      var j := PrevIndex(|poly|, k - 1);
      assert (poly[k - 1].y > p.y) == (poly[j].y > p.y);
    }
  }

  /** The empty polygon contains nothing, and neither does any polygon whose
      vertices all lie strictly below the point's y, or all at or above it. */
  lemma PointInPolygonOutsideBand(p: Point, poly: seq<Point>)
    requires (forall i :: 0 <= i < |poly| ==> poly[i].y > p.y)
          || (forall i :: 0 <= i < |poly| ==> poly[i].y <= p.y)
    ensures !PointInPolygon(p, poly)
  {
    ParityWithoutStraddle(p, poly, |poly|);
  }

  /** Where a straddling edge meets the horizontal line through `p`: never to
      the right of both of its ends. */
  lemma CrossingBetweenEnds(p: Point, vi: Point, vj: Point)
    requires (vi.y > p.y) != (vj.y > p.y)
    ensures CrossingX(p, vi, vj) <= Max(vi.x, vj.x)
  {
    var num, den := p.y - vi.y, vj.y - vi.y;
    var t := num / den;
    assert t * den == num;
    assert (1.0 - t) * den == den - num;
    assert 0.0 <= t <= 1.0 by {
      if den > 0.0 {
        assert num >= 0.0 && den - num > 0.0;
      } else {
        assert num <= 0.0 && den - num <= 0.0;
      }
    }
    var w := vj.x - vi.x;
    assert w * num / den == w * t;
    if w >= 0.0 {
      MulNonNegative(w, 1.0 - t);
      assert w * t == w - w * (1.0 - t);
    } else {
      MulNonNegative(-w, t);
      assert w * t == -((-w) * t);
    }
  }

  lemma NoCrossingLeftOf(p: Point, vi: Point, vj: Point)
    requires vi.x <= p.x && vj.x <= p.x
    ensures !EdgeCrosses(p, vi, vj)
  {
    if (vi.y > p.y) != (vj.y > p.y) {
      CrossingBetweenEnds(p, vi, vj);
      assert Max(vi.x, vj.x) <= p.x;
    }
  }

  lemma {:induction false} ParityRightOfAll(p: Point, poly: seq<Point>, k: nat)
    requires k <= |poly|
    requires forall i :: 0 <= i < |poly| ==> poly[i].x <= p.x
    ensures !Parity(p, poly, k)
  {
    if k > 0 {
      ParityRightOfAll(p, poly, k - 1);
      NoCrossingLeftOf(p, poly[k - 1], poly[PrevIndex(|poly|, k - 1)]);
    }
  }

  /** A point at or right of every vertex is outside: the ray meets no edge. */
  lemma PointInPolygonRightOfAll(p: Point, poly: seq<Point>)
    requires forall i :: 0 <= i < |poly| ==> poly[i].x <= p.x
    ensures !PointInPolygon(p, poly)
  {
    ParityRightOfAll(p, poly, |poly|);
  }

  // ---------------------------------------------------------------------------
  // Segments

  /** `direction(p1, p2, p3)`: the cross product (p3 - p1) x (p2 - p1). */
  function Direction(p1: Point, p2: Point, p3: Point): real {
    (p3.x - p1.x) * (p2.y - p1.y) - (p2.x - p1.x) * (p3.y - p1.y)
  }

  /** `onSegment(p1, p2, p)`: `p` lies in the closed bounding box of the segment. */
  predicate OnSegment(p1: Point, p2: Point, p: Point) {
    Min(p1.x, p2.x) <= p.x <= Max(p1.x, p2.x) &&
    Min(p1.y, p2.y) <= p.y <= Max(p1.y, p2.y)
  }

  /** `lineIntersects`: a proper crossing by opposite orientation signs, or one
      of the four collinear end-on-segment cases. */
  predicate LineIntersects(p1: Point, p2: Point, p3: Point, p4: Point) {
    var d1 := Direction(p3, p4, p1);
    var d2 := Direction(p3, p4, p2);
    var d3 := Direction(p1, p2, p3);
    var d4 := Direction(p1, p2, p4);
    (((d1 > 0.0 && d2 < 0.0) || (d1 < 0.0 && d2 > 0.0)) &&
     ((d3 > 0.0 && d4 < 0.0) || (d3 < 0.0 && d4 > 0.0)))
    || (d1 == 0.0 && OnSegment(p3, p4, p1))
    || (d2 == 0.0 && OnSegment(p3, p4, p2))
    || (d3 == 0.0 && OnSegment(p1, p2, p3))
    || (d4 == 0.0 && OnSegment(p1, p2, p4))
  }

  /** Swapping the two segments swaps d1 with d3 and d2 with d4. */
  lemma LineIntersectsSymmetric(p1: Point, p2: Point, p3: Point, p4: Point)
    ensures LineIntersects(p1, p2, p3, p4) == LineIntersects(p3, p4, p1, p2)
  {
  }

  /** An endpoint is collinear with, and on, its own segment. */
  lemma EndpointOnOwnSegment(p: Point, q: Point)
    ensures Direction(p, q, p) == 0.0 && Direction(p, q, q) == 0.0
    ensures OnSegment(p, q, p) && OnSegment(p, q, q)
  {
  }

  /** Segments that share an endpoint always intersect, whichever ends are shared. */
  lemma SharedEndpointIntersects(p: Point, q: Point, r: Point)
    ensures LineIntersects(p, q, p, r) && LineIntersects(p, q, r, p)
    ensures LineIntersects(q, p, p, r) && LineIntersects(q, p, r, p)
  {
    EndpointOnOwnSegment(p, r);
    EndpointOnOwnSegment(r, p);
  }

  // ---------------------------------------------------------------------------
  // Polygons

  /** The far end of edge `i` of the closed ring: `poly[(i + 1) % poly.length]`. */
  function NextVertex(poly: seq<Point>, i: nat): Point
    requires i < |poly|
  {
    poly[(i + 1) % |poly|]
  }

  predicate EdgesCross(a: seq<Point>, i: nat, b: seq<Point>, j: nat)
    requires i < |a| && j < |b|
  {
    LineIntersects(a[i], NextVertex(a, i), b[j], NextVertex(b, j))
  }

  /** `polygonsIntersect`: some vertex of either polygon lies inside the other,
      or some edge of the first crosses some edge of the second. The three
      early-exit loops of the source return true exactly when one of these
      witnesses exists. */
  predicate PolygonsIntersect(a: seq<Point>, b: seq<Point>) {
    (exists i :: 0 <= i < |a| && PointInPolygon(a[i], b))
    || (exists j :: 0 <= j < |b| && PointInPolygon(b[j], a))
    || (exists i, j :: 0 <= i < |a| && 0 <= j < |b| && EdgesCross(a, i, b, j))
  }

  /** The overlap test does not depend on which polygon comes first. */
  lemma PolygonsIntersectSymmetric(a: seq<Point>, b: seq<Point>)
    ensures PolygonsIntersect(a, b) == PolygonsIntersect(b, a)
  {
    if exists i, j :: 0 <= i < |a| && 0 <= j < |b| && EdgesCross(a, i, b, j) {
      var i, j :| 0 <= i < |a| && 0 <= j < |b| && EdgesCross(a, i, b, j);
      LineIntersectsSymmetric(a[i], NextVertex(a, i), b[j], NextVertex(b, j));
      assert EdgesCross(b, j, a, i);
    }
    if exists j, i :: 0 <= j < |b| && 0 <= i < |a| && EdgesCross(b, j, a, i) {
      var j, i :| 0 <= j < |b| && 0 <= i < |a| && EdgesCross(b, j, a, i);
      LineIntersectsSymmetric(b[j], NextVertex(b, j), a[i], NextVertex(a, i));
      assert EdgesCross(a, i, b, j);
    }
  }

  /** Every non-empty polygon overlaps itself: its first edge shares its ends
      with itself. */
  lemma PolygonsIntersectSelf(a: seq<Point>)
    requires |a| > 0
    ensures PolygonsIntersect(a, a)
  {
    SharedEndpointIntersects(a[0], NextVertex(a, 0), NextVertex(a, 0));
    assert EdgesCross(a, 0, a, 0);
  }

  // ---------------------------------------------------------------------------
  // Rectangles

  /** `getRectCorners`: the axis-aligned corners, clockwise from top-left. */
  function RectCorners(r: Rect): (c: seq<Point>)
    ensures |c| == 4
    ensures c[0].x == c[3].x == r.x && c[1].x == c[2].x == r.x + r.width
    ensures c[0].y == c[1].y == r.y && c[2].y == c[3].y == r.y + r.height
  {
    [Point(r.x, r.y), Point(r.x + r.width, r.y),
     Point(r.x + r.width, r.y + r.height), Point(r.x, r.y + r.height)]
  }

  /** The corners of a `width` x `height` box centred on (cx, cy) and turned by
      `angle`, in the source's order: (-hw,-hh), (hw,-hh), (hw,hh), (-hw,hh). */
  function TurnedCorners(m: MathLib, cx: real, cy: real, width: real, height: real, angle: real): seq<Point> {
    var cos, sin := m.cos(angle), m.sin(angle);
    var hw, hh := width / 2.0, height / 2.0;
    [Point(cx + (-hw * cos - -hh * sin), cy + (-hw * sin + -hh * cos)),
     Point(cx + (hw * cos - -hh * sin), cy + (hw * sin + -hh * cos)),
     Point(cx + (hw * cos - hh * sin), cy + (hw * sin + hh * cos)),
     Point(cx + (-hw * cos - hh * sin), cy + (-hw * sin + hh * cos))]
  }

  /** The four corners average to the centre and opposite corners mirror each
      other through it, whatever `sin` and `cos` return. */
  lemma TurnedCornersCentred(m: MathLib, cx: real, cy: real, width: real, height: real, angle: real)
    ensures var c := TurnedCorners(m, cx, cy, width, height, angle);
      && |c| == 4
      && (c[0].x + c[1].x + c[2].x + c[3].x) / 4.0 == cx
      && (c[0].y + c[1].y + c[2].y + c[3].y) / 4.0 == cy
      && c[0].x + c[2].x == 2.0 * cx && c[0].y + c[2].y == 2.0 * cy
      && c[1].x + c[3].x == 2.0 * cx && c[1].y + c[3].y == 2.0 * cy
  {
  }

  /** Unturned, the corners run from top-left clockwise. */
  lemma TurnedCornersAtZero(m: MathLib, cx: real, cy: real, width: real, height: real)
    requires Lawful(m)
    ensures var hw, hh := width / 2.0, height / 2.0;
      TurnedCorners(m, cx, cy, width, height, 0.0)
        == [Point(cx - hw, cy - hh), Point(cx + hw, cy - hh),
            Point(cx + hw, cy + hh), Point(cx - hw, cy + hh)]
  {
  }

  /** The even-odd rule on a rectangle's plain corners: of its four edges only
      the left one (corner 0 to corner 3) and the right one (corner 2 to
      corner 1) can straddle the ray, and they do so together; the point is
      inside when the ray then crosses exactly one of them. */
  lemma RectCornersParity(p: Point, r: Rect)
    ensures PointInPolygon(p, RectCorners(r))
        <==> ((r.y > p.y) != (r.y + r.height > p.y)) && ((p.x < r.x) != (p.x < r.x + r.width))
  {
    var c := RectCorners(r);
    if (r.y > p.y) != (r.y + r.height > p.y) {
      assert CrossingX(p, c[0], c[3]) == r.x;
      assert CrossingX(p, c[2], c[1]) == r.x + r.width;
    }
    assert Parity(p, c, 1) == EdgeCrosses(p, c[0], c[3]);
    assert Parity(p, c, 2) == (Parity(p, c, 1) != EdgeCrosses(p, c[1], c[0]));
    assert Parity(p, c, 3) == (Parity(p, c, 2) != EdgeCrosses(p, c[2], c[1]));
    assert Parity(p, c, 4) == (Parity(p, c, 3) != EdgeCrosses(p, c[3], c[2]));
  }

  /** A rectangle of positive size contains exactly the points of its
      half-open box: its left and top edges count as inside, its right and
      bottom edges as outside. */
  lemma InsideUnturnedRect(p: Point, r: Rect)
    requires r.width > 0.0 && r.height > 0.0
    ensures PointInPolygon(p, RectCorners(r))
        <==> r.x <= p.x < r.x + r.width && r.y <= p.y < r.y + r.height
  {
    RectCornersParity(p, r);
  }

  /** `getRotatedRectCorners(obstacle)` of `CollisionDetector`: turned about the
      rectangle's centre. */
  function RotatedRectCorners(m: MathLib, r: Rect): seq<Point> {
    TurnedCorners(m, r.x + r.width / 2.0, r.y + r.height / 2.0, r.width, r.height, r.angle)
  }

  /** With no angle the turned corners are the plain corners; in general they
      average to the rectangle's centre. */
  lemma RotatedRectCornersProperties(m: MathLib, r: Rect)
    requires Lawful(m)
    ensures r.angle == 0.0 ==> RotatedRectCorners(m, r) == RectCorners(r)
    ensures var c := RotatedRectCorners(m, r);
      && (c[0].x + c[1].x + c[2].x + c[3].x) / 4.0 == r.x + r.width / 2.0
      && (c[0].y + c[1].y + c[2].y + c[3].y) / 4.0 == r.y + r.height / 2.0
  {
    var cx, cy := r.x + r.width / 2.0, r.y + r.height / 2.0;
    TurnedCornersCentred(m, cx, cy, r.width, r.height, r.angle);
    if r.angle == 0.0 {
      TurnedCornersAtZero(m, cx, cy, r.width, r.height);
    }
  }

  // ---------------------------------------------------------------------------
  // The game's checks, each an early-exit loop over a list

  /** `checkObstacleCollision`: the first obstacle whose corners overlap the
      vehicle ends the scan with true. */
  predicate ObstacleCollision(m: MathLib, corners: seq<Point>, obstacles: seq<Obstacle>) {
    if obstacles == [] then false
    else PolygonsIntersect(corners, RotatedRectCorners(m, obstacles[0].box))
         || ObstacleCollision(m, corners, obstacles[1..])
  }

  lemma {:induction false} ObstacleCollisionExists(m: MathLib, corners: seq<Point>, obstacles: seq<Obstacle>)
    ensures obstacles == [] ==> !ObstacleCollision(m, corners, obstacles)
    ensures ObstacleCollision(m, corners, obstacles)
        <==> exists k :: 0 <= k < |obstacles| && PolygonsIntersect(corners, RotatedRectCorners(m, obstacles[k].box))
  {
    if obstacles != [] {
      ObstacleCollisionExists(m, corners, obstacles[1..]);
      if ObstacleCollision(m, corners, obstacles[1..]) {
        var k :| 0 <= k < |obstacles[1..]| && PolygonsIntersect(corners, RotatedRectCorners(m, obstacles[1..][k].box));
        assert obstacles[k + 1] == obstacles[1..][k];
      }
      if exists k :: 0 <= k < |obstacles| && PolygonsIntersect(corners, RotatedRectCorners(m, obstacles[k].box)) {
        var k :| 0 <= k < |obstacles| && PolygonsIntersect(corners, RotatedRectCorners(m, obstacles[k].box));
        if k > 0 {
          assert obstacles[1..][k - 1] == obstacles[k];
        }
      }
    }
  }

  /** A corner outside the closed box [0, width] x [0, height]. */
  predicate OutOfBounds(c: Point, width: real, height: real) {
    c.x < 0.0 || c.x > width || c.y < 0.0 || c.y > height
  }

  /** `checkBoundaryCollision`: the first corner outside the box ends the scan. */
  predicate BoundaryCollision(corners: seq<Point>, width: real, height: real) {
    if corners == [] then false
    else OutOfBounds(corners[0], width, height) || BoundaryCollision(corners[1..], width, height)
  }

  lemma {:induction false} BoundaryCollisionExists(corners: seq<Point>, width: real, height: real)
    ensures BoundaryCollision(corners, width, height)
        <==> exists k :: 0 <= k < |corners| && OutOfBounds(corners[k], width, height)
  {
    if corners != [] {
      BoundaryCollisionExists(corners[1..], width, height);
      if BoundaryCollision(corners[1..], width, height) {
        var k :| 0 <= k < |corners[1..]| && OutOfBounds(corners[1..][k], width, height);
        assert corners[k + 1] == corners[1..][k];
      }
      if exists k :: 0 <= k < |corners| && OutOfBounds(corners[k], width, height) {
        var k :| 0 <= k < |corners| && OutOfBounds(corners[k], width, height);
        if k > 0 {
          assert corners[1..][k - 1] == corners[k];
        }
      }
    }
  }

  /** All corners inside `zone` (its turned corners taken as a polygon). */
  predicate AllInside(corners: seq<Point>, zone: seq<Point>) {
    if corners == [] then true
    else PointInPolygon(corners[0], zone) && AllInside(corners[1..], zone)
  }

  /** `checkParkingSuccess`: the first corner outside the zone ends the scan
      with false. `maxAngleDiff` is accepted and never read. */
  predicate ParkingSuccess(m: MathLib, corners: seq<Point>, parkingZone: Rect, maxAngleDiff: real) {
    AllInside(corners, RotatedRectCorners(m, parkingZone))
  }

  lemma {:induction false} AllInsideForall(corners: seq<Point>, zone: seq<Point>)
    ensures AllInside(corners, zone) <==> forall k :: 0 <= k < |corners| ==> PointInPolygon(corners[k], zone)
  {
    if corners != [] {
      AllInsideForall(corners[1..], zone);
      if AllInside(corners, zone) {
        forall k | 0 <= k < |corners| ensures PointInPolygon(corners[k], zone) {
          if k > 0 {
            assert corners[k] == corners[1..][k - 1];
          }
        }
      }
      if forall k :: 0 <= k < |corners| ==> PointInPolygon(corners[k], zone) {
        forall k | 0 <= k < |corners[1..]| ensures PointInPolygon(corners[1..][k], zone) {
          assert corners[1..][k] == corners[k + 1];
        }
      }
    }
  }

  /** Parking succeeds exactly when every corner is inside the zone polygon,
      and the tolerance argument makes no difference. */
  lemma ParkingSuccessMeaning(m: MathLib, corners: seq<Point>, parkingZone: Rect, a1: real, a2: real)
    ensures ParkingSuccess(m, corners, parkingZone, a1)
        <==> forall k :: 0 <= k < |corners| ==> PointInPolygon(corners[k], RotatedRectCorners(m, parkingZone))
    ensures ParkingSuccess(m, corners, parkingZone, a1) == ParkingSuccess(m, corners, parkingZone, a2)
  {
    AllInsideForall(corners, RotatedRectCorners(m, parkingZone));
  }

  /** In an unturned zone of positive size, parking succeeds exactly when
      every corner of the vehicle lies in the zone's half-open box. */
  lemma ParkingInUnturnedZone(m: MathLib, corners: seq<Point>, zone: Rect, maxAngleDiff: real)
    requires Lawful(m) && zone.angle == 0.0 && zone.width > 0.0 && zone.height > 0.0
    ensures ParkingSuccess(m, corners, zone, maxAngleDiff)
        <==> forall k :: 0 <= k < |corners| ==>
               zone.x <= corners[k].x < zone.x + zone.width && zone.y <= corners[k].y < zone.y + zone.height
  {
    RotatedRectCornersProperties(m, zone);
    ParkingSuccessMeaning(m, corners, zone, maxAngleDiff, maxAngleDiff);
    forall k | 0 <= k < |corners|
      ensures PointInPolygon(corners[k], RectCorners(zone))
          <==> zone.x <= corners[k].x < zone.x + zone.width && zone.y <= corners[k].y < zone.y + zone.height
    {
      InsideUnturnedRect(corners[k], zone);
    }
  }
}

=== FILE: dxf_loader.dfy ===
/** The DXF map loader: turns the entities of a CAD drawing into a level.
    The drawing is first fitted into the 1100 x 700 play area with a 50-unit
    margin (`calculateBounds`, `autoScale`); then every entity is converted
    by its type and layer name into an obstacle, a parking zone or the
    truck's start. The parser that reads DXF text into entities is not part of
    this model: `Parse` starts from the entity list. */
module DxfLoader {
  import opened JsMath
  import opened World
  import opened Boxes

  // ---------------------------------------------------------------------------
  // Entities

  datatype EntityType = Line | Polyline | LwPolyline | Circle | Arc | Insert | OtherType

  /** One parsed DXF entity. A field its type does not use is ignored; an
      absent value reads as no vertices, radius 0, the empty name or layer,
      and rotation 0. */
  datatype Entity = Entity(
    etype: EntityType, layer: string,
    vertices: seq<Point>, shape: bool,
    center: Point, radius: real,
    position: Point, name: string, rotation: real)

  /** `getEntityPoints`: the points an entity contributes to the drawing's
      extent. A circle gives its centre and its left and right extremes. */
  function EntityPoints(e: Entity): seq<Point> {
    match e.etype
    case Line => e.vertices
    case Polyline => e.vertices
    case LwPolyline => e.vertices
    case Circle => [e.center, Point(e.center.x + e.radius, e.center.y), Point(e.center.x - e.radius, e.center.y)]
    case Arc => [e.center]
    case Insert => [e.position]
    case OtherType => []
  }

  /** The points of a list of entities, in order. */
  function AllPoints(es: seq<Entity>): seq<Point> {
    if es == [] then [] else AllPoints(es[..|es| - 1]) + EntityPoints(es[|es| - 1])
  }

  lemma {:induction false} NoPointsAnywhere(es: seq<Entity>)
    ensures AllPoints(es) == [] <==> forall e :: e in es ==> EntityPoints(e) == []
  {
    if es != [] {
      var init := es[..|es| - 1];
      NoPointsAnywhere(init);
      assert es == init + [es[|es| - 1]];
    }
  }

  // ---------------------------------------------------------------------------
  // Layer names

  /** Upper case for ASCII letters. */
  function UpperChar(c: char): char {
    if 'a' <= c <= 'z' then (c as int - 32) as char else c
  }

  /** `toUpperCase` on the ASCII letters of a string. */
  function ToUpper(s: string): (u: string)
    ensures |u| == |s|
    ensures forall i :: 0 <= i < |s| ==> u[i] == UpperChar(s[i])
  {
    seq(|s|, i requires 0 <= i < |s| => UpperChar(s[i]))
  }

  /** `includes`: `part` occurs somewhere in `s`. */
  predicate Contains(s: string, part: string)
    decreases |s|
  {
    part <= s || (|s| > 0 && Contains(s[1..], part))
  }

  /** The upper-cased layer name; a missing layer is the empty name. */
  function LayerOf(e: Entity): string {
    ToUpper(e.layer)
  }

  /** Layers that hold annotations rather than geometry. */
  predicate SkippedLayer(layer: string) {
    Contains(layer, "TEXT") || Contains(layer, "DIM") || Contains(layer, "ANNOTATION")
  }

  /** The obstacle type a layer name asks for, first match wins; anything
      else is a wall. */
  function KindOfLayer(layer: string): (k: ObstacleKind)
    ensures k == Barrier <==> Contains(layer, "BARRIER") || Contains(layer, "HAZARD")
    ensures k == Car <==> k != Barrier && (Contains(layer, "CAR") || Contains(layer, "VEHICLE"))
    ensures k == Cone <==> k !in {Barrier, Car} && Contains(layer, "CONE")
    ensures k == ParkedTrailer <==> k !in {Barrier, Car, Cone} && Contains(layer, "TRAILER")
    ensures k == Wall <==>
      !Contains(layer, "BARRIER") && !Contains(layer, "HAZARD") && !Contains(layer, "CAR") &&
      !Contains(layer, "VEHICLE") && !Contains(layer, "CONE") && !Contains(layer, "TRAILER")
  {
    if Contains(layer, "BARRIER") || Contains(layer, "HAZARD") then Barrier
    else if Contains(layer, "CAR") || Contains(layer, "VEHICLE") then Car
    else if Contains(layer, "CONE") then Cone
    else if Contains(layer, "TRAILER") then ParkedTrailer
    else Wall
  }

  // ---------------------------------------------------------------------------
  // Fitting the drawing into the play area

  /** The loader's scale and offsets and the drawing's minimum corner; the
      corner is absent until `autoScale` stores one. */
  datatype Frame = Frame(scale: real, offsetX: real, offsetY: real, boundsMin: Option<Point>)

  /** `transformPoint`: drawing units to game units. */
  function Transform(f: Frame, p: Point): (q: Point)
    requires f.boundsMin.Some?
  {
    Point((p.x - f.boundsMin.value.x) * f.scale + f.offsetX, (p.y - f.boundsMin.value.y) * f.scale + f.offsetY)
  }

  /** The transform is a uniform scaling followed by a shift: it sends the
      stored corner to the offsets and scales every difference by `scale`. */
  lemma TransformMeaning(f: Frame, p: Point, q: Point)
    requires f.boundsMin.Some?
    ensures Transform(f, f.boundsMin.value) == Point(f.offsetX, f.offsetY)
    ensures Transform(f, p).x - Transform(f, q).x == (p.x - q.x) * f.scale
    ensures Transform(f, p).y - Transform(f, q).y == (p.y - q.y) * f.scale
  {
  }

  /** `autoScale` as written: a drawing with zero width or height gets scale 1
      and offsets 50 but returns before storing its minimum corner, so the
      corner of the previous drawing (or none at all) stays in place. */
  function FittedAsWritten(prev: Frame, b: Box, targetWidth: real, targetHeight: real): Frame {
    var width, height := b.maxX - b.minX, b.maxY - b.minY;
    if width == 0.0 || height == 0.0 then Frame(1.0, 50.0, 50.0, prev.boundsMin)
    else
      var scale := Min(targetWidth / width, targetHeight / height);
      Frame(scale, (targetWidth - width * scale) / 2.0 + 50.0, (targetHeight - height * scale) / 2.0 + 50.0,
            Some(Point(b.minX, b.minY)))
  }

  /** `autoScale` with the minimum corner stored on both branches. */
  function Fitted(b: Box, targetWidth: real, targetHeight: real): (f: Frame)
    ensures f.boundsMin == Some(Point(b.minX, b.minY))
  {
    FittedAsWritten(Frame(1.0, 0.0, 0.0, None), b, targetWidth, targetHeight).(boundsMin := Some(Point(b.minX, b.minY)))
  }

  /** The correction only touches the degenerate branch. */
  lemma FittedAgrees(prev: Frame, b: Box, targetWidth: real, targetHeight: real)
    requires b.maxX - b.minX != 0.0 && b.maxY - b.minY != 0.0
    ensures Fitted(b, targetWidth, targetHeight) == FittedAsWritten(prev, b, targetWidth, targetHeight)
  {
  }

  /** A drawing with a zero side keeps its units and has its corner placed at
      (50, 50). */
  lemma DegenerateFitted(b: Box, targetWidth: real, targetHeight: real, p: Point)
    requires b.maxX - b.minX == 0.0 || b.maxY - b.minY == 0.0
    ensures Transform(Fitted(b, targetWidth, targetHeight), p) == Point(p.x - b.minX + 50.0, p.y - b.minY + 50.0)
  {
  }

  /** The scale of a proper drawing is positive and makes neither side
      longer than its target. */
  lemma FittedScale(b: Box, targetWidth: real, targetHeight: real)
    requires targetWidth > 0.0 && targetHeight > 0.0
    requires b.minX < b.maxX && b.minY < b.maxY
    ensures var s := Fitted(b, targetWidth, targetHeight).scale;
      && s > 0.0
      && (b.maxX - b.minX) * s <= targetWidth && (b.maxY - b.minY) * s <= targetHeight
      && ((b.maxX - b.minX) * s == targetWidth || (b.maxY - b.minY) * s == targetHeight)
  {
    var w, h := b.maxX - b.minX, b.maxY - b.minY;
    var sx, sy := targetWidth / w, targetHeight / h;
    assert w * sx == targetWidth && h * sy == targetHeight;
    var s := Min(sx, sy);
    assert s == Fitted(b, targetWidth, targetHeight).scale;
    MulNonNegative(w, sx - s);
    MulNonNegative(h, sy - s);
  }

  /** One axis of the fit: a coordinate between the box's ends lands within
      the target shifted by the margin, and the two ends land symmetrically
      about the target's middle. */
  lemma FitAxis(lo: real, v: real, hi: real, s: real, target: real)
    requires lo <= v <= hi && s > 0.0 && (hi - lo) * s <= target
    ensures var off := (target - (hi - lo) * s) / 2.0 + 50.0;
      && 50.0 <= (v - lo) * s + off <= 50.0 + target
      && (lo - lo) * s + off + ((hi - lo) * s + off) == target + 100.0
  {
    MulNonNegative(v - lo, s);
    MulNonNegative(hi - v, s);
    assert (v - lo) * s + (hi - v) * s == (hi - lo) * s;
  }

  /** The offsets of a proper drawing's fit centre its scaled box. */
  lemma FittedOffsets(b: Box, targetWidth: real, targetHeight: real)
    requires b.minX < b.maxX && b.minY < b.maxY
    ensures var f := Fitted(b, targetWidth, targetHeight);
      && f.offsetX == (targetWidth - (b.maxX - b.minX) * f.scale) / 2.0 + 50.0
      && f.offsetY == (targetHeight - (b.maxY - b.minY) * f.scale) / 2.0 + 50.0
  {
  }

  /** Both axes of the fit, for any frame shaped like a fit of `b`. */
  lemma FitsFrame(f: Frame, b: Box, targetWidth: real, targetHeight: real, p: Point)
    requires f.boundsMin == Some(Point(b.minX, b.minY)) && InBox(p, b) && f.scale > 0.0
    requires (b.maxX - b.minX) * f.scale <= targetWidth && (b.maxY - b.minY) * f.scale <= targetHeight
    requires f.offsetX == (targetWidth - (b.maxX - b.minX) * f.scale) / 2.0 + 50.0
    requires f.offsetY == (targetHeight - (b.maxY - b.minY) * f.scale) / 2.0 + 50.0
    ensures var q := Transform(f, p);
      50.0 <= q.x <= 50.0 + targetWidth && 50.0 <= q.y <= 50.0 + targetHeight
    ensures Transform(f, Point(b.minX, b.minY)).x + Transform(f, Point(b.maxX, b.maxY)).x == targetWidth + 100.0
    ensures Transform(f, Point(b.minX, b.minY)).y + Transform(f, Point(b.maxX, b.maxY)).y == targetHeight + 100.0
  {
    var s := f.scale;
    FitAxis(b.minX, p.x, b.maxX, s, targetWidth);
    FitAxis(b.minY, p.y, b.maxY, s, targetHeight);
    assert Transform(f, p) == Point((p.x - b.minX) * s + f.offsetX, (p.y - b.minY) * s + f.offsetY);
    assert Transform(f, Point(b.minX, b.minY)) == Point((b.minX - b.minX) * s + f.offsetX, (b.minY - b.minY) * s + f.offsetY);
    assert Transform(f, Point(b.maxX, b.maxY)) == Point((b.maxX - b.minX) * s + f.offsetX, (b.maxY - b.minY) * s + f.offsetY);
  }

  /** Fitting a proper drawing (both sides positive) places every point of its
      box inside the target area shifted by the 50-unit margin, and centres
      the box in that area. */
  lemma FitsTarget(b: Box, targetWidth: real, targetHeight: real, p: Point)
    requires targetWidth > 0.0 && targetHeight > 0.0
    requires b.minX < b.maxX && b.minY < b.maxY
    requires InBox(p, b)
    ensures var q := Transform(Fitted(b, targetWidth, targetHeight), p);
      50.0 <= q.x <= 50.0 + targetWidth && 50.0 <= q.y <= 50.0 + targetHeight
    ensures var f := Fitted(b, targetWidth, targetHeight);
      && Transform(f, Point(b.minX, b.minY)).x + Transform(f, Point(b.maxX, b.maxY)).x == targetWidth + 100.0
      && Transform(f, Point(b.minX, b.minY)).y + Transform(f, Point(b.maxX, b.maxY)).y == targetHeight + 100.0
  {
    FittedScale(b, targetWidth, targetHeight);
    FittedOffsets(b, targetWidth, targetHeight);
    FitsFrame(Fitted(b, targetWidth, targetHeight), b, targetWidth, targetHeight, p);
  }

  /** The example drawing: one horizontal line from (0, 0) to (length, 0). */
  function FlatLine(length: real): Entity {
    Entity(Line, "", [Point(0.0, 0.0), Point(length, 0.0)], false, Point(0.0, 0.0), 0.0, Point(0.0, 0.0), "", 0.0)
  }

  /** Its bounding box has zero height. */
  lemma FlatLineBox(length: real)
    requires length > 0.0
    ensures BoxOf(AllPoints([FlatLine(length)])) == Some(Box(0.0, 0.0, length, 0.0))
  {
    assert [FlatLine(length)][..0] == [];
    assert AllPoints([FlatLine(length)]) == [Point(0.0, 0.0), Point(length, 0.0)];
    assert [Point(0.0, 0.0), Point(length, 0.0)][..1] == [Point(0.0, 0.0)];
    assert [Point(0.0, 0.0)][..0] == [];
  }

  /** A drawing that is one horizontal line, from (0, 0) to (length, 0), has
      zero height. As written, a fresh loader then has no corner to transform
      with (the source computes NaN coordinates), and a loader that loaded a
      drawing with corner (-1000, -1000) before moves the origin to
      (1050, 1050), below the 800-unit world. */
  lemma FlatDrawingAsWritten(length: real)
    requires length > 0.0
    ensures BoxOf(AllPoints([FlatLine(length)])) == Some(Box(0.0, 0.0, length, 0.0))
    ensures FittedAsWritten(Frame(1.0, 0.0, 0.0, None), Box(0.0, 0.0, length, 0.0), 1100.0, 700.0).boundsMin.None?
    ensures var stale := FittedAsWritten(Frame(0.5, 10.0, 10.0, Some(Point(-1000.0, -1000.0))),
                                         Box(0.0, 0.0, length, 0.0), 1100.0, 700.0);
      Transform(stale, Point(0.0, 0.0)) == Point(1050.0, 1050.0)
  {
    FlatLineBox(length);
  }

  /** The corrected fit places the same line at (50, 50)-(length + 50, 50). */
  lemma FlatDrawingFitted(length: real)
    requires length > 0.0
    ensures var f := Fitted(Box(0.0, 0.0, length, 0.0), 1100.0, 700.0);
      Transform(f, Point(0.0, 0.0)) == Point(50.0, 50.0) && Transform(f, Point(length, 0.0)) == Point(length + 50.0, 50.0)
  {
    var f := Fitted(Box(0.0, 0.0, length, 0.0), 1100.0, 700.0);
    assert f == Frame(1.0, 50.0, 50.0, Some(Point(0.0, 0.0)));
  }

  // ---------------------------------------------------------------------------
  // Converting entities

  /** The frame can transform every point the entity has. */
  predicate CanTransform(f: Frame, e: Entity) {
    f.boundsMin.Some? || EntityPoints(e) == []
  }

  /** The rectangle contains the point. */
  predicate Covers(r: Rect, p: Point) {
    r.x <= p.x <= r.x + r.width && r.y <= p.y <= r.y + r.height
  }

  /** Walls drawn as thin lines are widened to this thickness. */
  function Thickness(kind: ObstacleKind): real {
    if kind == Barrier then 10.0 else 15.0
  }

  /** `lineToWall`: the box spanned by a line's first two vertices, widened
      to the wall thickness along an axis where it is thinner than 5. */
  function LineToWall(f: Frame, e: Entity, kind: ObstacleKind): (r: Option<Obstacle>)
    requires e.etype == Line && CanTransform(f, e)
    ensures r.Some? <==> |e.vertices| >= 2
    ensures r.Some? ==>
      var s, t := Transform(f, e.vertices[0]), Transform(f, e.vertices[1]);
      && r.value.kind == kind && r.value.box.angle == 0.0
      && Covers(r.value.box, s) && Covers(r.value.box, t)
      && r.value.box.x == Min(s.x, t.x) && r.value.box.y == Min(s.y, t.y)
      && (Abs(t.x - s.x) >= 5.0 ==> r.value.box.width == Abs(t.x - s.x))
      && (Abs(t.y - s.y) >= 5.0 ==> r.value.box.height == Abs(t.y - s.y))
      && (Abs(t.x - s.x) >= 5.0 ==> r.value.box.x + r.value.box.width == Max(s.x, t.x))
      && (Abs(t.y - s.y) >= 5.0 ==> r.value.box.y + r.value.box.height == Max(s.y, t.y))
      && (Abs(t.x - s.x) < 5.0 ==> r.value.box.width == Thickness(kind))
      && (Abs(t.y - s.y) < 5.0 ==> r.value.box.height == Thickness(kind))
  {
    if |e.vertices| < 2 then None
    else
      var start, end := Transform(f, e.vertices[0]), Transform(f, e.vertices[1]);
      var dx, dy := end.x - start.x, end.y - start.y;
      Some(Block(kind, Min(start.x, end.x), Min(start.y, end.y),
                 if Abs(dx) < 5.0 then Thickness(kind) else Abs(dx),
                 if Abs(dy) < 5.0 then Thickness(kind) else Abs(dy)))
  }

  /** Every vertex, transformed. */
  function TransformAll(f: Frame, vs: seq<Point>): (ts: seq<Point>)
    requires f.boundsMin.Some?
    ensures |ts| == |vs| && forall i :: 0 <= i < |vs| ==> ts[i] == Transform(f, vs[i])
  {
    seq(|vs|, i requires 0 <= i < |vs| => Transform(f, vs[i]))
  }

  /** The box of a polyline's transformed vertices; every polyline with a
      vertex has one, and a vertex lies on each of its four sides. */
  function OutlineBox(f: Frame, vs: seq<Point>): (b: Box)
    requires f.boundsMin.Some? && vs != []
    ensures forall i :: 0 <= i < |vs| ==> InBox(Transform(f, vs[i]), b)
    ensures exists i :: 0 <= i < |vs| && Transform(f, vs[i]).x == b.minX
    ensures exists i :: 0 <= i < |vs| && Transform(f, vs[i]).x == b.maxX
    ensures exists i :: 0 <= i < |vs| && Transform(f, vs[i]).y == b.minY
    ensures exists i :: 0 <= i < |vs| && Transform(f, vs[i]).y == b.maxY
  {
    BoxOfMeaning(TransformAll(f, vs));
    BoxOf(TransformAll(f, vs)).value
  }

  /** `polylineToWalls`: the box around the outline, kept when the outline is
      closed or extends more than 10 both ways, and never thinner than 10. */
  function PolylineWall(f: Frame, e: Entity, kind: ObstacleKind): Option<Obstacle>
    requires e.etype in {Polyline, LwPolyline} && CanTransform(f, e)
  {
    if |e.vertices| < 2 then None
    else
      var b := OutlineBox(f, e.vertices);
      var width, height := b.maxX - b.minX, b.maxY - b.minY;
      if e.shape || (width > 10.0 && height > 10.0)
      then Some(Block(kind, b.minX, b.minY, Max(width, 10.0), Max(height, 10.0)))
      else None
  }

  /** A polyline becomes an obstacle exactly when it has two vertices and is
      closed or large both ways; the obstacle is at least 10 by 10, takes the
      layer's type and covers every vertex. */
  lemma PolylineWallMeaning(f: Frame, e: Entity, kind: ObstacleKind)
    requires e.etype in {Polyline, LwPolyline} && CanTransform(f, e)
    ensures var r := PolylineWall(f, e, kind);
      && (r.Some? <==>
            && |e.vertices| >= 2
            && (e.shape || (var b := OutlineBox(f, e.vertices); b.maxX - b.minX > 10.0 && b.maxY - b.minY > 10.0)))
      && (r.Some? ==>
           && r.value.kind == kind && r.value.box.angle == 0.0
           && r.value.box.width >= 10.0 && r.value.box.height >= 10.0
           && forall i :: 0 <= i < |e.vertices| ==> Covers(r.value.box, Transform(f, e.vertices[i])))
  {
  }

  /** `circleToObstacle`: a circle with a radius becomes a cone whose square
      is centred on the circle and is one scaled diameter wide. */
  function CircleToObstacle(f: Frame, e: Entity): (r: Option<Obstacle>)
    requires e.etype == Circle && CanTransform(f, e)
    ensures r.Some? <==> e.radius != 0.0
    ensures r.Some? ==>
      var c := Transform(f, e.center);
      && r.value.kind == Cone
      && r.value.box.width == r.value.box.height == 2.0 * e.radius * f.scale
      && r.value.box.x + r.value.box.width / 2.0 == c.x && r.value.box.y + r.value.box.height / 2.0 == c.y
  {
    if e.radius == 0.0 then None
    else
      var center := Transform(f, e.center);
      var radius := e.radius * f.scale;
      Some(Block(Cone, center.x - radius, center.y - radius, radius * 2.0, radius * 2.0))
  }

  /** `blockToObstacle`: a block insert named like a trailer is a 50 x 150
      parked trailer, one named like a car a 50 x 90 car, anything else a
      50 x 90 obstacle of the layer's type; each is centred on the insertion
      point. */
  function BlockToObstacle(f: Frame, e: Entity, kind: ObstacleKind): (r: Obstacle)
    requires e.etype == Insert && CanTransform(f, e)
    ensures var name := ToUpper(e.name);
      && (Contains(name, "TRAILER") ==> r.kind == ParkedTrailer && r.box.height == 150.0)
      && (!Contains(name, "TRAILER") && Contains(name, "CAR") ==> r.kind == Car && r.box.height == 90.0)
      && (!Contains(name, "TRAILER") && !Contains(name, "CAR") ==> r.kind == kind && r.box.height == 90.0)
    ensures r.box.width == 50.0 && r.box.angle == 0.0
    ensures r.box.x + r.box.width / 2.0 == Transform(f, e.position).x
    ensures r.box.y + r.box.height / 2.0 == Transform(f, e.position).y
  {
    var pos := Transform(f, e.position);
    var name := ToUpper(e.name);
    var k := if Contains(name, "TRAILER") then ParkedTrailer else if Contains(name, "CAR") then Car else kind;
    var height := if Contains(name, "TRAILER") then 150.0 else 90.0;
    Block(k, pos.x - 50.0 / 2.0, pos.y - height / 2.0, 50.0, height)
  }

  /** `processEntity`: the obstacle an entity stands for, if any. */
  function EntityObstacle(f: Frame, e: Entity): (r: Option<Obstacle>)
    requires CanTransform(f, e)
    ensures SkippedLayer(LayerOf(e)) ==> r.None?
    ensures e.etype in {Arc, OtherType} ==> r.None?
    ensures r.Some? && e.etype == Circle ==> r.value.kind == Cone
    ensures r.Some? && e.etype in {Line, Polyline, LwPolyline} ==> r.value.kind == KindOfLayer(LayerOf(e))
  {
    var layer := LayerOf(e);
    if SkippedLayer(layer) then None
    else
      var kind := KindOfLayer(layer);
      match e.etype
      case Line => LineToWall(f, e, kind)
      case Polyline => PolylineWall(f, e, kind)
      case LwPolyline => PolylineWall(f, e, kind)
      case Circle => CircleToObstacle(f, e)
      case Insert => Some(BlockToObstacle(f, e, kind))
      case Arc => None
      case OtherType => None
  }

  /** `entityToRect`: a polyline with at least four vertices outlines the
      smallest rectangle around them: every vertex is in it and a vertex
      touches each of its sides. */
  function ZoneRect(f: Frame, e: Entity): (r: Option<Rect>)
    requires CanTransform(f, e)
    ensures r.Some? <==> e.etype in {Polyline, LwPolyline} && |e.vertices| >= 4
    ensures r.Some? ==> r.value.angle == 0.0 && r.value.width >= 0.0 && r.value.height >= 0.0
    ensures r.Some? ==> forall i :: 0 <= i < |e.vertices| ==> Covers(r.value, Transform(f, e.vertices[i]))
    ensures r.Some? ==>
      && (exists i :: 0 <= i < |e.vertices| && Transform(f, e.vertices[i]).x == r.value.x)
      && (exists i :: 0 <= i < |e.vertices| && Transform(f, e.vertices[i]).x == r.value.x + r.value.width)
      && (exists i :: 0 <= i < |e.vertices| && Transform(f, e.vertices[i]).y == r.value.y)
      && (exists i :: 0 <= i < |e.vertices| && Transform(f, e.vertices[i]).y == r.value.y + r.value.height)
  {
    if e.etype in {Polyline, LwPolyline} && |e.vertices| >= 4 then
      var b := OutlineBox(f, e.vertices);
      Some(Rect(b.minX, b.minY, b.maxX - b.minX, b.maxY - b.minY, 0.0))
    else None
  }

  /** `entityToPoint`: a block insert starts the truck at its insertion point
      with its rotation turned from degrees to radians; a circle starts it at
      its centre facing down (angle PI). */
  function EntityToPoint(f: Frame, e: Entity): (r: Option<Pose>)
    requires CanTransform(f, e)
    ensures r.Some? <==> e.etype in {Insert, Circle}
    ensures e.etype == Insert ==> r == Some(Pose(Transform(f, e.position).x, Transform(f, e.position).y, e.rotation * PI / 180.0))
    ensures e.etype == Circle ==> r == Some(Pose(Transform(f, e.center).x, Transform(f, e.center).y, PI))
  {
    if e.etype == Insert then
      var p := Transform(f, e.position);
      Some(Pose(p.x, p.y, (e.rotation * PI) / 180.0))
    else if e.etype == Circle then
      var p := Transform(f, e.center);
      Some(Pose(p.x, p.y, PI))
    else None
  }

  // ---------------------------------------------------------------------------
  // The level a drawing makes

  /** The frame can transform every entity of the list. */
  predicate Ready(f: Frame, es: seq<Entity>) {
    f.boundsMin.Some? || forall e :: e in es ==> EntityPoints(e) == []
  }

  predicate ZoneLayer(layer: string) {
    Contains(layer, "PARKING") || Contains(layer, "TARGET")
  }

  predicate StartLayer(layer: string) {
    !ZoneLayer(layer) && (Contains(layer, "TRUCK") || Contains(layer, "START"))
  }

  /** The obstacles of the first pass, in drawing order. */
  function ObstaclesOf(f: Frame, es: seq<Entity>): seq<Obstacle>
    requires Ready(f, es)
  {
    if es == [] then []
    else
      var e := es[|es| - 1];
      var r := EntityObstacle(f, e);
      ObstaclesOf(f, es[..|es| - 1]) + (if r.Some? then [r.value] else [])
  }

  /** The parking zones of the second pass, in drawing order. */
  function ZonesOf(f: Frame, es: seq<Entity>): seq<Rect>
    requires Ready(f, es)
  {
    if es == [] then []
    else
      var e := es[|es| - 1];
      var r := ZoneRect(f, e);
      ZonesOf(f, es[..|es| - 1]) + (if ZoneLayer(LayerOf(e)) && r.Some? then [r.value] else [])
  }

  /** The start of the second pass: the last one found. */
  function StartOf(f: Frame, es: seq<Entity>): Option<Pose>
    requires Ready(f, es)
  {
    if es == [] then None
    else
      var e := es[|es| - 1];
      var r := EntityToPoint(f, e);
      if StartLayer(LayerOf(e)) && r.Some? then r else StartOf(f, es[..|es| - 1])
  }

  /** The level record: the first zone, or a default bay at (550, 50); the
      start found, or (600, 600) facing down. */
  function Assemble(obstacles: seq<Obstacle>, zones: seq<Rect>, start: Option<Pose>): (level: Level)
    ensures level.id == Named("custom") && level.obstacles == obstacles
    ensures level.parkingZone == Some(if zones == [] then Rect(550.0, 50.0, 56.0, 170.0, 0.0) else zones[0])
    ensures level.truck == if start.None? then Pose(600.0, 600.0, PI) else start.value
  {
    Level(Named("custom"), "Custom Map", "Loaded from DXF file",
          if start.None? then Pose(600.0, 600.0, PI) else start.value,
          Some(if zones == [] then Rect(550.0, 50.0, 56.0, 170.0, 0.0) else zones[0]),
          obstacles)
  }

  /** The passes read the drawing entity by entity: appending entities
      appends their obstacles and zones, and a start among them replaces any
      earlier one. */
  lemma {:induction false} AppendedEntities(f: Frame, a: seq<Entity>, b: seq<Entity>)
    requires Ready(f, a + b)
    ensures Ready(f, a) && Ready(f, b)
    ensures ObstaclesOf(f, a + b) == ObstaclesOf(f, a) + ObstaclesOf(f, b)
    ensures ZonesOf(f, a + b) == ZonesOf(f, a) + ZonesOf(f, b)
    ensures StartOf(f, a + b) == if StartOf(f, b).Some? then StartOf(f, b) else StartOf(f, a)
  {
    assert forall e :: e in a ==> e in a + b;
    assert forall e :: e in b ==> e in a + b;
    if b == [] {
      assert a + b == a;
    } else {
      var init := b[..|b| - 1];
      assert (a + b)[..|a + b| - 1] == a + init;
      assert (a + b)[|a + b| - 1] == b[|b| - 1];
      assert forall e :: e in init ==> e in b;
      AppendedEntities(f, a, init);
    }
  }

  /** Drawing more after a zone never moves the zone; drawing a start after
      another moves the truck there. */
  lemma FirstZoneLastStart(f: Frame, a: seq<Entity>, b: seq<Entity>)
    requires Ready(f, a + b)
    ensures Ready(f, a) && Ready(f, b)
    ensures ZonesOf(f, a) != [] ==>
      Assemble([], ZonesOf(f, a + b), None).parkingZone == Some(ZonesOf(f, a)[0])
    ensures StartOf(f, b).Some? ==>
      Assemble([], [], StartOf(f, a + b)).truck == StartOf(f, b).value
  {
    AppendedEntities(f, a, b);
  }

  /** A closed outline with four vertices on a parking layer is both an
      obstacle (the first pass reads every layer as geometry) and the zone. */
  lemma ParkingOutlineIsBoth(f: Frame, e: Entity)
    requires CanTransform(f, e)
    requires e.etype in {Polyline, LwPolyline} && e.shape && |e.vertices| >= 4
    requires Contains(LayerOf(e), "PARKING") && !SkippedLayer(LayerOf(e))
    ensures Ready(f, [e])
    ensures ObstaclesOf(f, [e]) == [EntityObstacle(f, e).value]
    ensures ZonesOf(f, [e]) == [ZoneRect(f, e).value]
    ensures EntityObstacle(f, e).value.box.x == ZoneRect(f, e).value.x
    ensures EntityObstacle(f, e).value.box.y == ZoneRect(f, e).value.y
  {
    PolylineWallMeaning(f, e, KindOfLayer(LayerOf(e)));
    assert [e][..0] == [];
  }

  // ---------------------------------------------------------------------------
  // The loader

  class DxfMapLoader {
    var scale: real
    var offsetX: real
    var offsetY: real
    var boundsMin: Option<Point>

    function CurrentFrame(): Frame
      reads this
    {
      Frame(scale, offsetX, offsetY, boundsMin)
    }

    constructor()
      ensures CurrentFrame() == Frame(1.0, 0.0, 0.0, None)
    {
      scale, offsetX, offsetY, boundsMin := 1.0, 0.0, 0.0, None;
    }

    /** The inner loop of `calculateBounds`: grows the box by one entity's
        points, in order. */
    static method GrowBy(b0: Option<Box>, ghost before: seq<Point>, points: seq<Point>) returns (b: Option<Box>)
      requires b0 == BoxOf(before)
      ensures b == BoxOf(before + points)
    {
      b := b0;
      assert before + points[..0] == before;
      for j := 0 to |points|
        invariant b == BoxOf(before + points[..j])
      {
        ghost var next := before + points[..j + 1];
        assert next[..|next| - 1] == before + points[..j];
        assert next[|next| - 1] == points[j];
        b := Some(Grow(b, points[j]));
      }
      assert points[..|points|] == points;
    }

    /** `calculateBounds`: the box around every entity's points; none when
        the drawing has no points. */
    method CalculateBounds(entities: seq<Entity>) returns (b: Option<Box>)
      ensures b == BoxOf(AllPoints(entities))
    {
      b := None;
      for i := 0 to |entities|
        invariant b == BoxOf(AllPoints(entities[..i]))
      {
        assert entities[..i + 1][..i] == entities[..i];
        b := GrowBy(b, AllPoints(entities[..i]), EntityPoints(entities[i]));
      }
      assert entities[..|entities|] == entities;
    }

    /** `autoScale`, storing the minimum corner on both branches. A drawing
        without points leaves the loader as it was. */
    method AutoScale(bounds: Option<Box>, targetWidth: real, targetHeight: real)
      modifies this`scale, this`offsetX, this`offsetY, this`boundsMin
      ensures bounds.Some? ==> CurrentFrame() == Fitted(bounds.value, targetWidth, targetHeight)
      ensures bounds.None? ==> CurrentFrame() == old(CurrentFrame())
    {
      if bounds.None? {
        return;
      }
      var b := bounds.value;
      var width := b.maxX - b.minX;
      var height := b.maxY - b.minY;
      boundsMin := Some(Point(b.minX, b.minY));
      if width == 0.0 || height == 0.0 {
        scale := 1.0;
        offsetX := 50.0;
        offsetY := 50.0;
        return;
      }
      var scaleX := targetWidth / width;
      var scaleY := targetHeight / height;
      scale := Min(scaleX, scaleY);
      offsetX := (targetWidth - width * scale) / 2.0 + 50.0;
      offsetY := (targetHeight - height * scale) / 2.0 + 50.0;
    }

    /** The box scan of `polylineToWalls` and `entityToRect`. */
    static method TransformedBox(f: Frame, vs: seq<Point>) returns (b: Option<Box>)
      requires f.boundsMin.Some?
      ensures b == BoxOf(TransformAll(f, vs))
    {
      b := None;
      for i := 0 to |vs|
        invariant b == BoxOf(TransformAll(f, vs[..i]))
      {
        var p := Transform(f, vs[i]);
        ghost var next := TransformAll(f, vs[..i + 1]);
        assert next[..|next| - 1] == TransformAll(f, vs[..i]);
        b := Some(Grow(b, p));
      }
      assert vs[..|vs|] == vs;
    }

    static method PolylineToWalls(f: Frame, e: Entity, kind: ObstacleKind) returns (r: Option<Obstacle>)
      requires e.etype in {Polyline, LwPolyline} && CanTransform(f, e)
      ensures r == PolylineWall(f, e, kind)
    {
      if |e.vertices| < 2 {
        return None;
      }
      var box := TransformedBox(f, e.vertices);
      var b := box.value;
      var width := b.maxX - b.minX;
      var height := b.maxY - b.minY;
      if e.shape || (width > 10.0 && height > 10.0) {
        r := Some(Block(kind, b.minX, b.minY, Max(width, 10.0), Max(height, 10.0)));
      } else {
        r := None;
      }
    }

    static method EntityToRect(f: Frame, e: Entity) returns (r: Option<Rect>)
      requires CanTransform(f, e)
      ensures r == ZoneRect(f, e)
    {
      if e.etype in {Polyline, LwPolyline} && |e.vertices| >= 4 {
        var box := TransformedBox(f, e.vertices);
        var b := box.value;
        r := Some(Rect(b.minX, b.minY, b.maxX - b.minX, b.maxY - b.minY, 0.0));
      } else {
        r := None;
      }
    }

    static method ProcessEntity(f: Frame, e: Entity) returns (r: Option<Obstacle>)
      requires CanTransform(f, e)
      ensures r == EntityObstacle(f, e)
    {
      var layer := LayerOf(e);
      if SkippedLayer(layer) {
        return None;
      }
      var kind := KindOfLayer(layer);
      match e.etype
      case Line => r := LineToWall(f, e, kind);
      case Polyline => r := PolylineToWalls(f, e, kind);
      case LwPolyline => r := PolylineToWalls(f, e, kind);
      case Circle => r := CircleToObstacle(f, e);
      case Insert => r := Some(BlockToObstacle(f, e, kind));
      case Arc => r := None;
      case OtherType => r := None;
    }

    /** The first pass of `parse`: the obstacle of each entity, in order. */
    static method CollectObstacles(f: Frame, entities: seq<Entity>) returns (obstacles: seq<Obstacle>)
      requires Ready(f, entities)
      ensures obstacles == ObstaclesOf(f, entities)
    {
      obstacles := [];
      for i := 0 to |entities|
        invariant Ready(f, entities[..i])
        invariant obstacles == ObstaclesOf(f, entities[..i])
      {
        assert entities[..i + 1][..i] == entities[..i];
        var r := ProcessEntity(f, entities[i]);
        if r.Some? {
          obstacles := obstacles + [r.value];
        }
      }
      assert entities[..|entities|] == entities;
    }

    /** The second pass of `parse`: zones and the start, by layer name. */
    static method CollectByLayer(f: Frame, entities: seq<Entity>) returns (zones: seq<Rect>, start: Option<Pose>)
      requires Ready(f, entities)
      ensures zones == ZonesOf(f, entities) && start == StartOf(f, entities)
    {
      zones, start := [], None;
      for i := 0 to |entities|
        invariant Ready(f, entities[..i])
        invariant zones == ZonesOf(f, entities[..i])
        invariant start == StartOf(f, entities[..i])
      {
        assert entities[..i + 1][..i] == entities[..i];
        var layer := LayerOf(entities[i]);
        if ZoneLayer(layer) {
          var zone := EntityToRect(f, entities[i]);
          if zone.Some? {
            zones := zones + [zone.value];
          }
        } else if Contains(layer, "TRUCK") || Contains(layer, "START") {
          var p := EntityToPoint(f, entities[i]);
          if p.Some? {
            start := p;
          }
        }
      }
      assert entities[..|entities|] == entities;
    }

    /** `parse`, from the entity list on: fit the drawing, collect the
        obstacles, then the zones and the start by layer name. */
    method Parse(entities: seq<Entity>) returns (level: Level)
      modifies this`scale, this`offsetX, this`offsetY, this`boundsMin
      ensures BoxOf(AllPoints(entities)).Some? ==>
        CurrentFrame() == Fitted(BoxOf(AllPoints(entities)).value, 1100.0, 700.0)
      ensures BoxOf(AllPoints(entities)).None? ==> CurrentFrame() == old(CurrentFrame())
      ensures Ready(CurrentFrame(), entities)
      ensures level == Assemble(ObstaclesOf(CurrentFrame(), entities), ZonesOf(CurrentFrame(), entities),
                                StartOf(CurrentFrame(), entities))
    {
      var bounds := CalculateBounds(entities);
      AutoScale(bounds, 1100.0, 700.0);
      BoxOfMeaning(AllPoints(entities));
      NoPointsAnywhere(entities);
      var f := CurrentFrame();
      var obstacles := CollectObstacles(f, entities);
      var zones, start := CollectByLayer(f, entities);
      level := Assemble(obstacles, zones, start);
    }
  }
}

=== FILE: effects.dfy ===
/** The overlay state kept by the effects renderer: a bounded trail of recent
    points, the guide-line settings, and which jackknife warning to show. */
module Effects {
  import opened JsMath
  import opened World
  import Kinematics
  import Settings

  /** The trail after `p` is added: appended, and the oldest point dropped
      once the trail would be longer than `cap`. */
  function AddPoint(trail: seq<Point>, p: Point, cap: nat): seq<Point> {
    if |trail| + 1 > cap then (trail + [p])[1..] else trail + [p]
  }

  /** The new point is last, the trail never outgrows its capacity, and the
      points kept are the most recent ones, in their order. */
  lemma AddPointMeaning(trail: seq<Point>, p: Point, cap: nat)
    requires cap >= 1 && |trail| <= cap
    ensures var t := AddPoint(trail, p, cap);
      && |t| >= 1 && t[|t| - 1] == p
      && |t| <= cap
      && t[..|t| - 1] == trail[|trail| - (|t| - 1)..]
      && (|trail| < cap ==> t == trail + [p])
  {
  }

  /** The guide settings as `setGuideSettings` receives them: either key may be absent. */
  datatype GuidePatch = GuidePatch(truck: Option<Settings.GuideFlags>, trailer: Option<Settings.GuideFlags>)

  /** `{ ...old, ...patch }`: a key present in the patch replaces the old one whole. */
  function Merge(g: Settings.GuideLines, patch: GuidePatch): (r: Settings.GuideLines)
    ensures patch.truck.Some? ==> r.truck == patch.truck.value
    ensures patch.truck.None? ==> r.truck == g.truck
    ensures patch.trailer.Some? ==> r.trailer == patch.trailer.value
    ensures patch.trailer.None? ==> r.trailer == g.trailer
  {
    Settings.GuideLines(
      if patch.truck.Some? then patch.truck.value else g.truck,
      if patch.trailer.Some? then patch.trailer.value else g.trailer)
  }

  /** Merging twice with the same patch is the same as merging once, and an
      empty patch changes nothing. */
  lemma MergeIdempotent(g: Settings.GuideLines, patch: GuidePatch)
    ensures Merge(Merge(g, patch), patch) == Merge(g, patch)
    ensures Merge(g, GuidePatch(None, None)) == g
  {
  }

  /** The overlay `renderJacknifeWarning` draws. */
  datatype Warning = NoWarning | Caution | Locked

  /** Nothing up to 80% of `maxAngle`; the locked variant from `maxAngle` on. */
  function WarningLevel(jackknifeAngle: real, maxAngle: real): Warning {
    if Abs(jackknifeAngle) <= maxAngle * 0.8 then NoWarning
    else if Abs(jackknifeAngle) >= maxAngle then Locked
    else Caution
  }

  /** At the truck's jackknife limit, a warning shows exactly when the truck
      is near a jackknife, and a jackknifed truck shows the locked variant;
      the locked variant also shows at exactly the limit, where the truck does
      not yet count as jackknifed. */
  lemma WarningMatchesTruck(a: real)
    ensures WarningLevel(a, Kinematics.JackknifeLimit) != NoWarning <==> Kinematics.NearJackknife(a)
    ensures Kinematics.Jackknifed(a) ==> WarningLevel(a, Kinematics.JackknifeLimit) == Locked
    ensures WarningLevel(a, Kinematics.JackknifeLimit) == Locked && !Kinematics.Jackknifed(a) ==>
      Abs(a) == Kinematics.JackknifeLimit
    ensures WarningLevel(Kinematics.JackknifeLimit, Kinematics.JackknifeLimit) == Locked
    ensures !Kinematics.Jackknifed(Kinematics.JackknifeLimit)
  {
  }

  class EffectsRenderer {
    var trailPoints: seq<Point>
    const maxTrailPoints: nat := 500
    var guideSettings: Settings.GuideLines

    /** No trail, and the same guide lines as the settings' defaults. */
    constructor ()
      ensures trailPoints == [] && guideSettings == Settings.Defaults.guideLines
    {
      trailPoints := [];
      guideSettings := Settings.GuideLines(Settings.GuideFlags(true, true, true),
                                           Settings.GuideFlags(true, false, true));
    }

    /** `setGuideSettings(settings)`. */
    method SetGuideSettings(patch: GuidePatch)
      modifies this`guideSettings
      ensures guideSettings == Merge(old(guideSettings), patch)
    {
      guideSettings := Merge(guideSettings, patch);
    }

    function GetGuideSettings(): Settings.GuideLines
      reads this
    {
      guideSettings
    }

    /** `addTrailPoint(x, y)`: push, then drop the oldest past 500. */
    method AddTrailPoint(x: real, y: real)
      modifies this`trailPoints
      ensures trailPoints == AddPoint(old(trailPoints), Point(x, y), maxTrailPoints)
      ensures |old(trailPoints)| <= maxTrailPoints ==> |trailPoints| <= maxTrailPoints
      ensures trailPoints[|trailPoints| - 1] == Point(x, y)
    {
      trailPoints := trailPoints + [Point(x, y)];
      if |trailPoints| > maxTrailPoints {
        trailPoints := trailPoints[1..];
      }
    }

    /** `clearTrail()`. */
    method ClearTrail()
      modifies this`trailPoints
      ensures trailPoints == []
    {
      trailPoints := [];
    }
  }
}

=== FILE: entities.dfy ===
/** The component-based truck: a `TruckCab` that owns a `Trailer`. The cab
    drives with the shared one-tick model of `Kinematics`; the trailer servoes
    its heading towards the cab's hitch and keeps a fixed distance from it. */
module Entities {
  import opened JsMath
  import opened World
  import Vehicle
  import Collision
  import opened Kinematics

  /** The damping `followHitch` uses when no other is given. */
  const DefaultDamping: real := 0.15

  /** `Trailer.followHitch` on values. Closer than 0.1 to the hitch nothing
      happens; otherwise the heading turns `damping` of the way (the short way
      round) towards the hitch and the centre is pulled along the line to the
      hitch until it is `targetDist` away. */
  function Follow(m: MathLib, pose: Pose, hitch: Point, damping: real, targetDist: real): Pose {
    var dist := Vehicle.Distance(m, Point(pose.x, pose.y), hitch);
    if dist < 0.1 then pose
    else Pose(Vehicle.Pulled(pose.x, hitch.x, dist, targetDist),
              Vehicle.Pulled(pose.y, hitch.y, dist, targetDist),
              Vehicle.Turned(m, pose, hitch, damping))
  }

  /** Within 0.1 of the hitch the trailer stays put. Otherwise, afterwards its
      centre is exactly `targetDist` from the hitch, it has moved only along
      the line towards the hitch, and its heading is normalised; with no
      damping the heading is only normalised. */
  lemma FollowMeaning(m: MathLib, pose: Pose, hitch: Point, damping: real, targetDist: real)
    requires Lawful(m)
    ensures var q := Follow(m, pose, hitch, damping, targetDist);
      && (Vehicle.SquaredGap(Point(pose.x, pose.y), hitch) < 0.01 ==> q == pose)
      && (Vehicle.SquaredGap(Point(pose.x, pose.y), hitch) >= 0.01 ==>
            && Vehicle.SquaredGap(Point(q.x, q.y), hitch) == targetDist * targetDist
            && Vehicle.Collinear(Point(pose.x, pose.y), Point(q.x, q.y), hitch)
            && -PI <= q.angle <= PI
            && (damping == 0.0 ==> q.angle == Wrap(pose.angle)))
    ensures var q := Follow(m, pose, hitch, damping, targetDist);
      var dist := Vehicle.Distance(m, Point(pose.x, pose.y), hitch);
      Vehicle.SquaredGap(Point(pose.x, pose.y), hitch) >= 0.01 ==>
        && dist > 0.0
        && hitch.x - q.x == (hitch.x - pose.x) / dist * targetDist
        && hitch.y - q.y == (hitch.y - pose.y) / dist * targetDist
        && Vehicle.SquaredGap(Point(pose.x, pose.y), Point(q.x, q.y)) == (dist - targetDist) * (dist - targetDist)
  {
    var dist := Vehicle.Distance(m, Point(pose.x, pose.y), hitch);
    Vehicle.RootBelowTenth(dist, Vehicle.SquaredGap(Point(pose.x, pose.y), hitch));
    if dist >= 0.1 {
      Vehicle.PulledPoint(m, Point(pose.x, pose.y), hitch, targetDist);
      Vehicle.PulledTowards(Point(pose.x, pose.y), hitch, dist, targetDist);
    }
  }

  /** The configuration a trailer is built from; every key may be absent. */
  datatype TrailerConfig = TrailerConfig(
    x: Option<real>, y: Option<real>, angle: Option<real>,
    width: Option<real>, height: Option<real>, pivotDistance: Option<real>)

  class Trailer {
    var x: real
    var y: real
    var angle: real
    const width: real
    const height: real
    /** From the centre to the front pivot. */
    const pivotDistance: real

    /** 50 wide and 120 long unless configured, with the pivot 60 from the centre. */
    constructor (c: TrailerConfig)
      ensures Body() == Vehicle.FromConfig(Vehicle.Config(c.x, c.y, c.angle,
                          Some(Vehicle.Or(c.width, 50.0)), Some(Vehicle.Or(c.height, 120.0))))
      ensures width == Vehicle.Or(c.width, 50.0) && height == Vehicle.Or(c.height, 120.0)
      ensures pivotDistance == Vehicle.Or(c.pivotDistance, 60.0)
    {
      var b := Vehicle.FromConfig(Vehicle.Config(c.x, c.y, c.angle,
                 Some(Vehicle.Or(c.width, 50.0)), Some(Vehicle.Or(c.height, 120.0))));
      x, y, angle := b.x, b.y, b.angle;
      width, height := b.width, b.height;
      pivotDistance := Vehicle.Or(c.pivotDistance, 60.0);
    }

    function Pose(): Pose
      reads this
    {
      World.Pose(x, y, angle)
    }

    function Body(): Vehicle.Body
      reads this
    {
      Vehicle.Body(x, y, angle, width, height)
    }

    /** The distance `followHitch` keeps between the centre and the hitch. */
    function TargetDistance(): real
      reads this
    {
      pivotDistance + height / 2.0
    }

    /** `getFrontPoint`: the middle of the front edge. */
    function FrontPoint(m: MathLib): (p: Point)
      reads this
      ensures Lawful(m) ==>
        (p.x - x) * (p.x - x) + (p.y - y) * (p.y - y) == (height / 2.0) * (height / 2.0)
    {
      Vehicle.AheadDistance(m, Point(x, y), angle, height / 2.0);
      Vehicle.Ahead(m, Point(x, y), angle, height / 2.0)
    }

    /** `getCorners`: corners that mirror each other through the centre. */
    function Corners(m: MathLib): (c: seq<Point>)
      reads this
      ensures |c| == 4
      ensures c[0].x + c[2].x == 2.0 * x && c[0].y + c[2].y == 2.0 * y
      ensures c[1].x + c[3].x == 2.0 * x && c[1].y + c[3].y == 2.0 * y
    {
      Collision.TurnedCornersCentred(m, x, y, width, height, angle);
      Vehicle.Corners(m, Body())
    }

    /** `followHitch(hitchPoint, damping)`. */
    method FollowHitch(m: MathLib, hitch: Point, damping: real)
      modifies this
      ensures Pose() == Follow(m, old(Pose()), hitch, damping, TargetDistance())
    {
      ghost var before := Pose();
      var dx := hitch.x - x;
      var dy := hitch.y - y;
      var distToHitch := Vehicle.Distance(m, Point(x, y), hitch);
      if distToHitch < 0.1 {
        assert Follow(m, before, hitch, damping, TargetDistance()) == before;
        return;
      }
      var targetAngle := Vehicle.Bearing(m, Point(x, y), hitch);
      var angleDiff := NormalizeAngle(targetAngle - angle);
      angle := angle + angleDiff * damping;
      assert angle == before.angle + Vehicle.HeadingError(m, before, hitch) * damping;
      angle := NormalizeAngle(angle);
      assert angle == Vehicle.Turned(m, before, hitch, damping);
      var targetDist := pivotDistance + height / 2.0;
      var dirX := dx / distToHitch;
      var dirY := dy / distToHitch;
      var correction := distToHitch - targetDist;
      x := x + dirX * correction;
      y := y + dirY * correction;
      assert x == Vehicle.Pulled(before.x, hitch.x, distToHitch, TargetDistance());
      assert y == Vehicle.Pulled(before.y, hitch.y, distToHitch, TargetDistance());
    }
  }

  /** The configuration a cab is built from; every key may be absent. */
  datatype CabConfig = CabConfig(
    x: Option<real>, y: Option<real>, angle: Option<real>,
    width: Option<real>, height: Option<real>,
    maxSpeed: Option<real>, acceleration: Option<real>, deceleration: Option<real>,
    brakeForce: Option<real>, maxSteeringAngle: Option<real>,
    steeringSpeed: Option<real>, steeringReturn: Option<real>,
    hitchDistance: Option<real>,
    trailerWidth: Option<real>, trailerHeight: Option<real>, trailerPivotDistance: Option<real>)

  class TruckCab {
    var x: real
    var y: real
    var angle: real
    const width: real
    const height: real
    var speed: real
    var steeringAngle: real
    const throttle: Throttle
    const steering: Steering
    /** From the cab's centre back to the hitch. */
    const hitchDistance: real
    const trailer: Trailer

    function Pose(): Pose
      reads this
    {
      World.Pose(x, y, angle)
    }

    /** The constants the bounds below rely on: no negative rates or forces. */
    predicate SaneConstants()
      reads this
    {
      steering.rate >= 0.0 && steering.returnRate >= 0.0 && NonNegative(throttle)
    }

    /** The wheel within its lock and the speed within its band. */
    predicate WithinLimits()
      reads this
    {
      -steering.maxAngle <= steeringAngle <= steering.maxAngle && InSpeedBand(speed, throttle)
    }

    /** `getHitchPoint`: `hitchDistance` behind the cab's centre. */
    function HitchPoint(m: MathLib): (p: Point)
      reads this
      ensures Lawful(m) ==>
        (p.x - x) * (p.x - x) + (p.y - y) * (p.y - y) == hitchDistance * hitchDistance
    {
      Vehicle.BehindDistance(m, Point(x, y), angle, hitchDistance);
      Vehicle.Behind(m, Point(x, y), angle, hitchDistance)
    }

    /** The normalised angle between cab and trailer. */
    function JackknifeAngle(): (j: real)
      reads this, trailer
      ensures -PI <= j <= PI
    {
      WrapRange(angle - trailer.angle);
      Wrap(angle - trailer.angle)
    }

    /** `getTruckCorners`: corners that mirror each other through the cab's centre. */
    function CabCorners(m: MathLib): (c: seq<Point>)
      reads this
      ensures |c| == 4
      ensures c[0].x + c[2].x == 2.0 * x && c[0].y + c[2].y == 2.0 * y
      ensures c[1].x + c[3].x == 2.0 * x && c[1].y + c[3].y == 2.0 * y
    {
      Collision.TurnedCornersCentred(m, x, y, width, height, angle);
      Vehicle.Corners(m, Vehicle.Body(x, y, angle, width, height))
    }

    /** Cab 36 by 50 unless configured; trailer 44 by 160 with its pivot 8
        from its centre; the trailer starts on the cab's heading, `pivotDistance`
        behind the hitch. */
    constructor (m: MathLib, c: CabConfig)
      ensures Vehicle.Body(x, y, angle, width, height) == Vehicle.FromConfig(Vehicle.Config(c.x, c.y, c.angle,
                Some(Vehicle.Or(c.width, 36.0)), Some(Vehicle.Or(c.height, 50.0))))
      ensures speed == 0.0 && steeringAngle == 0.0
      ensures throttle == Throttle(Vehicle.Or(c.maxSpeed, 3.0), Vehicle.Or(c.acceleration, 0.08),
                                   Vehicle.Or(c.deceleration, 0.03), Vehicle.Or(c.brakeForce, 0.1))
      ensures steering == Steering(Vehicle.Or(c.maxSteeringAngle, PI / 4.0),
                                   Vehicle.Or(c.steeringSpeed, 0.02), Vehicle.Or(c.steeringReturn, 0.015))
      ensures hitchDistance == Vehicle.Or(c.hitchDistance, 20.0)
      ensures fresh(trailer)
      ensures trailer.width == Vehicle.Or(c.trailerWidth, 44.0)
      ensures trailer.height == Vehicle.Or(c.trailerHeight, 160.0)
      ensures trailer.pivotDistance == Vehicle.Or(c.trailerPivotDistance, 8.0)
      ensures trailer.angle == angle
      ensures Point(trailer.x, trailer.y) == Vehicle.Behind(m, HitchPoint(m), trailer.angle, trailer.pivotDistance)
      ensures steering.maxAngle >= 0.0 && throttle.maxSpeed >= 0.0 ==> WithinLimits()
    {
      var b := Vehicle.FromConfig(Vehicle.Config(c.x, c.y, c.angle,
                 Some(Vehicle.Or(c.width, 36.0)), Some(Vehicle.Or(c.height, 50.0))));
      x, y, angle := b.x, b.y, b.angle;
      width, height := b.width, b.height;
      speed, steeringAngle := 0.0, 0.0;
      throttle := Throttle(Vehicle.Or(c.maxSpeed, 3.0), Vehicle.Or(c.acceleration, 0.08),
                           Vehicle.Or(c.deceleration, 0.03), Vehicle.Or(c.brakeForce, 0.1));
      steering := Steering(Vehicle.Or(c.maxSteeringAngle, PI / 4.0),
                           Vehicle.Or(c.steeringSpeed, 0.02), Vehicle.Or(c.steeringReturn, 0.015));
      hitchDistance := Vehicle.Or(c.hitchDistance, 20.0);
      trailer := new Trailer(TrailerConfig(c.x, c.y, c.angle,
                   Some(Vehicle.Or(c.trailerWidth, 44.0)), Some(Vehicle.Or(c.trailerHeight, 160.0)),
                   Some(Vehicle.Or(c.trailerPivotDistance, 8.0))));
      new;
      InitTrailerPosition(m);
    }

    /** `initTrailerPosition`: the trailer's centre `pivotDistance` behind the
        hitch along the trailer's own heading. */
    method InitTrailerPosition(m: MathLib)
      modifies trailer`x, trailer`y
      ensures Point(trailer.x, trailer.y) == Vehicle.Behind(m, HitchPoint(m), trailer.angle, trailer.pivotDistance)
      ensures Lawful(m) ==>
        var h := HitchPoint(m);
        (trailer.x - h.x) * (trailer.x - h.x) + (trailer.y - h.y) * (trailer.y - h.y)
          == trailer.pivotDistance * trailer.pivotDistance
    {
      var hitch := HitchPoint(m);
      var backDir := Vehicle.Direction(m, trailer.angle + PI);
      trailer.x := hitch.x + backDir.x * trailer.pivotDistance;
      trailer.y := hitch.y + backDir.y * trailer.pivotDistance;
      Vehicle.BehindDistance(m, hitch, trailer.angle, trailer.pivotDistance);
    }

    /** `getJacknifeAngle`, with the source's normalisation loops. */
    method GetJacknifeAngle() returns (r: real)
      ensures r == JackknifeAngle()
      ensures -PI <= r <= PI
    {
      r := NormalizeAngle(angle - trailer.angle);
    }

    /** `isJackknifed`: more than 72 degrees between cab and trailer. */
    method IsJackknifed() returns (b: bool)
      ensures b <==> Abs(JackknifeAngle()) > PI / 2.5
    {
      var j := GetJacknifeAngle();
      b := Abs(j) > PI / 2.5;
    }

    /** `updateSteering`. */
    method UpdateSteering(input: ControlInput)
      modifies this`steeringAngle
      ensures steeringAngle == SteerStep(old(steeringAngle), input, steering)
    {
      if input.steerLeft {
        steeringAngle := Max(steeringAngle - steering.rate, -steering.maxAngle);
      } else if input.steerRight {
        steeringAngle := Min(steeringAngle + steering.rate, steering.maxAngle);
      } else {
        if Abs(steeringAngle) < steering.returnRate {
          steeringAngle := 0.0;
        } else if steeringAngle > 0.0 {
          steeringAngle := steeringAngle - steering.returnRate;
        } else {
          steeringAngle := steeringAngle + steering.returnRate;
        }
      }
    }

    /** `updateSpeed`, reading the jackknife angle before the cab moves. */
    method UpdateSpeed(input: ControlInput)
      modifies this`speed
      ensures speed == SpeedStep(old(speed), input, throttle, JackknifeAngle())
    {
      var j := GetJacknifeAngle();
      var jacknifeAngle := Abs(j);
      var maxJacknifeAngle := PI / 2.5;
      var isNearJacknife := jacknifeAngle > maxJacknifeAngle * 0.8;
      var isJackknifed := jacknifeAngle > maxJacknifeAngle;
      if input.accelerate {
        speed := Min(speed + throttle.acceleration, throttle.maxSpeed);
      } else if input.brake {
        if isJackknifed && speed <= 0.0 {
          speed := 0.0;
        } else if isNearJacknife && speed < 0.0 {
          speed := Max(speed - throttle.brakeForce * 0.3, -throttle.maxSpeed * 0.3);
        } else {
          speed := Max(speed - throttle.brakeForce, -throttle.maxSpeed * 0.6);
        }
      } else {
        if Abs(speed) < throttle.deceleration {
          speed := 0.0;
        } else if speed > 0.0 {
          speed := speed - throttle.deceleration;
        } else {
          speed := speed + throttle.deceleration;
        }
      }
    }

    /** `updatePosition`. */
    method UpdatePosition(m: MathLib)
      modifies this`x, this`y, this`angle
      ensures Pose() == Advance(m, old(Pose()), speed, steeringAngle)
    {
      if speed == 0.0 {
        return;
      }
      AdvanceMoving(m, Pose(), speed, steeringAngle);
      var turnFactor := steeringAngle * (if speed > 0.0 then 1.0 else -1.0);
      angle := angle + turnFactor * Abs(speed) * 0.02;
      var moved := Vehicle.Ahead(m, Point(x, y), angle, speed);
      x, y := moved.x, moved.y;
    }

    /** `update(input)`: steer, set the speed, move, then let the trailer
        follow the new hitch. With sane constants the wheel and the speed stay
        within their limits. */
    method Update(m: MathLib, input: ControlInput)
      modifies this, trailer
      ensures steeringAngle == SteerStep(old(steeringAngle), input, steering)
      ensures speed == SpeedStep(old(speed), input, throttle, Wrap(old(angle) - old(trailer.angle)))
      ensures Pose() == Advance(m, old(Pose()), speed, steeringAngle)
      ensures trailer.Pose() == Follow(m, old(trailer.Pose()), HitchPoint(m), DefaultDamping, trailer.TargetDistance())
      ensures SaneConstants() && old(WithinLimits()) ==> WithinLimits()
    {
      UpdateSteering(input);
      UpdateSpeed(input);
      UpdatePosition(m);
      var hitch := HitchPoint(m);
      trailer.FollowHitch(m, hitch, DefaultDamping);
      if SaneConstants() && old(WithinLimits()) {
        SteerStepBounded(old(steeringAngle), input, steering);
        SpeedStepInBand(old(speed), input, throttle, Wrap(old(angle) - old(trailer.angle)));
      }
    }

    /** `reset(x, y, angle)`: the cab at rest with the wheel centred, the trailer
        in line with it `pivotDistance` behind the hitch. */
    method Reset(m: MathLib, x0: real, y0: real, angle0: real)
      modifies this, trailer
      ensures Pose() == World.Pose(x0, y0, angle0)
      ensures speed == 0.0 && steeringAngle == 0.0
      ensures trailer.angle == angle0
      ensures Point(trailer.x, trailer.y) == Vehicle.Behind(m, HitchPoint(m), angle0, trailer.pivotDistance)
      ensures JackknifeAngle() == 0.0
    {
      x, y, angle := x0, y0, angle0;
      speed := 0.0;
      steeringAngle := 0.0;
      trailer.angle := angle0;
      InitTrailerPosition(m);
      WrapRange(0.0);
    }
  }
}

=== FILE: game.dfy ===
/** The game's state machine: which level is loaded, the truck on it, and
    the per-tick update that drives the truck and decides between playing,
    losing and winning. Drawing and frame scheduling are not part of the model. */
module Game {
  import opened JsMath
  import opened World
  import Collision
  import opened Kinematics
  import Levels
  import Input
  import Truck

  datatype GameState = Menu | Playing | Win | Lose

  /** The cooldown after a tick: one less while positive. */
  function CooldownStep(c: int): (r: int)
    ensures c > 0 ==> r == c - 1
    ensures c <= 0 ==> r == c
    ensures c >= 0 ==> r >= 0
  {
    if c > 0 then c - 1 else c
  }

  /** What `checkCollisions` looks for: the cab or the trailer overlapping an
      obstacle, or either leaving the canvas. */
  predicate Hit(m: MathLib, cab: seq<Point>, trailer: seq<Point>, obstacles: seq<Obstacle>,
                width: real, height: real) {
    || Collision.ObstacleCollision(m, cab, obstacles)
    || Collision.ObstacleCollision(m, trailer, obstacles)
    || Collision.BoundaryCollision(cab, width, height)
    || Collision.BoundaryCollision(trailer, width, height)
  }

  /** What `checkWinCondition` looks for in the trailer's corners: all inside
      the parking zone (with the default tolerance, which is never read). */
  predicate Parked(m: MathLib, trailer: seq<Point>, zone: Option<Rect>) {
    zone.Some? && Collision.ParkingSuccess(m, trailer, zone.value, PI / 12.0)
  }

  /** The state after the collision check: a hit loses, unless the cooldown
      is still running. */
  function AfterCollisions(s: GameState, cooldown: int, hit: bool): GameState {
    if cooldown > 0 then s else if hit then Lose else s
  }

  /** The state after the win check: parked and nearly stopped wins. */
  function AfterWinCheck(s: GameState, parked: bool, speed: real): GameState {
    if parked && Abs(speed) < 0.5 then Win else s
  }

  /** The decision of one tick, the win check running after the collision check. */
  function Outcome(s: GameState, cooldown: int, hit: bool, parked: bool, speed: real): GameState {
    AfterWinCheck(AfterCollisions(s, cooldown, hit), parked, speed)
  }

  /** A tick loses exactly when it hits something outside the cooldown (or
      had already lost) and does not also end parked and nearly stopped; it
      wins exactly when it ends parked and nearly stopped, or had already won
      and did not lose. So a tick that hits something can still win. */
  lemma OutcomeMeaning(s: GameState, cooldown: int, hit: bool, parked: bool, speed: real)
    ensures var r := Outcome(s, cooldown, hit, parked, speed);
      && (r == Lose <==> !(parked && Abs(speed) < 0.5) && ((cooldown <= 0 && hit) || s == Lose))
      && (r == Win <==> (parked && Abs(speed) < 0.5) || (s == Win && !(cooldown <= 0 && hit)))
      && (cooldown > 0 && !(parked && Abs(speed) < 0.5) ==> r == s)
      && (r != s ==> r == Win || r == Lose)
  {
  }

  class Game {
    const canvasWidth: real
    const canvasHeight: real
    const levelLoader: Levels.LevelLoader
    const input: Input.InputHandler
    var truck: Truck.Truck?
    var currentLevel: Option<Level>
    var gameState: GameState
    var collisionCooldown: int

    /** A game that is being played has a truck and a level. */
    predicate Valid()
      reads this, levelLoader
    {
      && levelLoader.Valid()
      && collisionCooldown >= 0
      && (gameState == Playing ==> truck != null && currentLevel.Some?)
    }

    /** The game starts at the menu, with no truck and no level. */
    constructor (canvasWidth: real, canvasHeight: real)
      ensures this.canvasWidth == canvasWidth && this.canvasHeight == canvasHeight
      ensures fresh(levelLoader) && fresh(input)
      ensures levelLoader.levels == Levels.Table && levelLoader.currentLevelIndex == 0
      ensures input.keys == Input.Released
      ensures truck == null && currentLevel == None
      ensures gameState == Menu && collisionCooldown == 0
      ensures Valid()
    {
      this.canvasWidth := canvasWidth;
      this.canvasHeight := canvasHeight;
      levelLoader := new Levels.LevelLoader();
      input := new Input.InputHandler();
      truck := null;
      currentLevel := None;
      gameState := Menu;
      collisionCooldown := 0;
    }

    /** `loadLevel(levelIndex)`: select the level if an index is given, then
        build a fresh truck at its start and clear the cooldown. Fails, with
        nothing else changed, only when there is no current level. */
    method LoadLevel(m: MathLib, levelIndex: Option<int>) returns (ok: bool)
      modifies this, levelLoader`currentLevelIndex
      ensures levelIndex.None? ==> levelLoader.currentLevelIndex == old(levelLoader.currentLevelIndex)
      ensures levelIndex.Some? ==>
        levelLoader.currentLevelIndex ==
          if 0 <= levelIndex.value < |levelLoader.levels| then levelIndex.value else old(levelLoader.currentLevelIndex)
      ensures currentLevel == levelLoader.GetCurrentLevel()
      ensures ok <==> currentLevel.Some?
      ensures old(levelLoader.Valid()) ==> ok && levelLoader.Valid()
      ensures ok ==> && fresh(truck) && truck.Pose() == currentLevel.value.truck
                     && truck.speed == 0.0 && truck.steeringAngle == 0.0
                     && truck.trailerAngle == currentLevel.value.truck.angle
                     && collisionCooldown == 0
      ensures !ok ==> truck == old(truck) && collisionCooldown == old(collisionCooldown)
      ensures gameState == old(gameState)
    {
      if levelIndex.Some? {
        var _ := levelLoader.SetCurrentLevel(levelIndex.value);
      }
      currentLevel := levelLoader.GetCurrentLevel();
      if currentLevel.None? {
        return false;
      }
      var start := currentLevel.value.truck;
      truck := new Truck.Truck(m, start.x, start.y, start.angle);
      collisionCooldown := 0;
      return true;
    }

    /** `start(levelIndex)`: load the level and, if that worked, play with
        every key released. */
    method Start(m: MathLib, levelIndex: Option<int>)
      modifies this, levelLoader`currentLevelIndex, input
      ensures levelIndex.None? ==> levelLoader.currentLevelIndex == old(levelLoader.currentLevelIndex)
      ensures levelIndex.Some? ==>
        levelLoader.currentLevelIndex ==
          if 0 <= levelIndex.value < |levelLoader.levels| then levelIndex.value else old(levelLoader.currentLevelIndex)
      ensures currentLevel == levelLoader.GetCurrentLevel()
      ensures currentLevel.Some? ==> gameState == Playing && input.keys == Input.Released && fresh(truck)
      ensures currentLevel.Some? ==> && fresh(truck) && truck.Pose() == currentLevel.value.truck
                                     && truck.speed == 0.0 && truck.steeringAngle == 0.0
                                     && collisionCooldown == 0
      ensures currentLevel.None? ==> gameState == old(gameState) && input.keys == old(input.keys)
      ensures old(Valid()) ==> Valid()
    {
      var ok := LoadLevel(m, levelIndex);
      if ok {
        gameState := Playing;
        input.Reset();
      }
    }

    /** `restart()`: reload the current level and play, keys released. */
    method Restart(m: MathLib)
      modifies this, levelLoader`currentLevelIndex, input
      ensures levelLoader.currentLevelIndex == old(levelLoader.currentLevelIndex)
      ensures currentLevel == levelLoader.GetCurrentLevel()
      ensures gameState == Playing && input.keys == Input.Released
      ensures levelLoader.Valid() ==> fresh(truck) && truck.Pose() == currentLevel.value.truck
      ensures old(Valid()) ==> Valid()
    {
      var _ := LoadLevel(m, None);
      gameState := Playing;
      input.Reset();
    }

    /** `nextLevel()`: at the last level nothing changes; otherwise the next
        level starts. */
    method NextLevel(m: MathLib) returns (ok: bool)
      modifies this, levelLoader`currentLevelIndex, input
      ensures ok <==> old(levelLoader.currentLevelIndex) < |levelLoader.levels| - 1
      ensures !ok ==> unchanged(this) && unchanged(input) && levelLoader.currentLevelIndex == old(levelLoader.currentLevelIndex)
      ensures ok ==> levelLoader.currentLevelIndex == old(levelLoader.currentLevelIndex) + 1
      ensures ok && old(levelLoader.Valid()) ==> gameState == Playing && fresh(truck)
      ensures old(Valid()) ==> Valid()
    {
      ok := levelLoader.NextLevel();
      if ok {
        Start(m, None);
      }
    }

    /** `handleCollision()`. */
    method HandleCollision()
      modifies this`gameState
      ensures gameState == Lose
    {
      gameState := Lose;
    }

    /** `checkCollisions()`: skipped while the cooldown runs; otherwise the
        first hit found loses the game. */
    method CheckCollisions(m: MathLib)
      requires truck != null && currentLevel.Some?
      modifies this`gameState
      ensures gameState == AfterCollisions(old(gameState), collisionCooldown,
        Hit(m, truck.TruckCorners(m), truck.TrailerCorners(m), currentLevel.value.obstacles, canvasWidth, canvasHeight))
    {
      if collisionCooldown > 0 {
        return;
      }
      var truckCorners := truck.TruckCorners(m);
      var trailerCorners := truck.TrailerCorners(m);
      if Collision.ObstacleCollision(m, truckCorners, currentLevel.value.obstacles) {
        HandleCollision();
        return;
      }
      if Collision.ObstacleCollision(m, trailerCorners, currentLevel.value.obstacles) {
        HandleCollision();
        return;
      }
      if Collision.BoundaryCollision(truckCorners, canvasWidth, canvasHeight) {
        HandleCollision();
        return;
      }
      if Collision.BoundaryCollision(trailerCorners, canvasWidth, canvasHeight) {
        HandleCollision();
        return;
      }
    }

    /** `checkWinCondition()`: the trailer inside the zone and the truck
        slower than 0.5 wins, whatever the state was. */
    method CheckWinCondition(m: MathLib)
      requires truck != null && currentLevel.Some?
      modifies this`gameState
      ensures gameState == AfterWinCheck(old(gameState),
        Parked(m, truck.TrailerCorners(m), currentLevel.value.parkingZone), truck.speed)
    {
      var trailerCorners := truck.TrailerCorners(m);
      var zone := currentLevel.value.parkingZone;
      if zone.Some? && Collision.ParkingSuccess(m, trailerCorners, zone.value, PI / 12.0) {
        if Abs(truck.speed) < 0.5 {
          gameState := Win;
        }
      }
    }

    /** `update()`: count the cooldown down, drive the truck with the keys
        held, then check for collisions and for a win. */
    method Update(m: MathLib)
      requires truck != null && currentLevel.Some?
      modifies this, truck
      ensures truck == old(truck) && currentLevel == old(currentLevel)
      ensures collisionCooldown == CooldownStep(old(collisionCooldown))
      ensures truck.steeringAngle == SteerStep(old(truck.steeringAngle), Input.Controls(input.keys), truck.steering)
      ensures truck.speed == SpeedStep(old(truck.speed), Input.Controls(input.keys), truck.throttle,
                                       Wrap(old(truck.angle) - old(truck.trailerAngle)))
      ensures truck.Pose() == Advance(m, old(truck.Pose()), truck.speed, truck.steeringAngle)
      ensures truck.TrailerPose() ==
        Truck.TrailerStep(m, old(truck.TrailerPose()), truck.HitchPoint(m), truck.hitchToTrailerCenter)
      ensures gameState == Outcome(old(gameState), collisionCooldown,
        Hit(m, truck.TruckCorners(m), truck.TrailerCorners(m), currentLevel.value.obstacles, canvasWidth, canvasHeight),
        Parked(m, truck.TrailerCorners(m), currentLevel.value.parkingZone), truck.speed)
      ensures old(Valid()) ==> Valid()
    {
      if collisionCooldown > 0 {
        collisionCooldown := collisionCooldown - 1;
      }
      var inputState := input.GetInput();
      truck.Update(m, inputState);
      CheckCollisions(m);
      CheckWinCondition(m);
    }

    /** `gameLoop`: one tick while playing (the tick of `update`), nothing otherwise. */
    method GameLoop(m: MathLib)
      requires Valid()
      modifies this, truck
      ensures old(gameState) != Playing ==> unchanged(this) && (truck != null ==> unchanged(truck))
      ensures old(gameState) == Playing ==>
        && collisionCooldown == CooldownStep(old(collisionCooldown))
        && truck == old(truck) && truck != null
        && currentLevel == old(currentLevel) && currentLevel.Some?
        && truck.steeringAngle == SteerStep(old(truck.steeringAngle), Input.Controls(input.keys), truck.steering)
        && truck.speed == SpeedStep(old(truck.speed), Input.Controls(input.keys), truck.throttle,
                                    Wrap(old(truck.angle) - old(truck.trailerAngle)))
        && truck.Pose() == Advance(m, old(truck.Pose()), truck.speed, truck.steeringAngle)
        && truck.TrailerPose() ==
             Truck.TrailerStep(m, old(truck.TrailerPose()), truck.HitchPoint(m), truck.hitchToTrailerCenter)
        && gameState == Outcome(old(gameState), collisionCooldown,
             Hit(m, truck.TruckCorners(m), truck.TrailerCorners(m), currentLevel.value.obstacles, canvasWidth, canvasHeight),
             Parked(m, truck.TrailerCorners(m), currentLevel.value.parkingZone), truck.speed)
      ensures Valid()
    {
      if gameState != Playing {
        return;
      }
      Update(m);
    }

    function GetState(): GameState
      reads this
    {
      gameState
    }

    /** `setState(state)`. */
    method SetState(state: GameState)
      modifies this`gameState
      ensures gameState == state && GetState() == state
      ensures old(Valid()) && (state == Playing ==> truck != null && currentLevel.Some?) ==> Valid()
    {
      gameState := state;
    }
  }
}

=== FILE: input.dfy ===
/** Keyboard state: four held-key flags driven by key-down and key-up events,
    read as the driving controls. */
module Input {
  import opened World
  import Kinematics

  /** The four flags the handler keeps. */
  datatype Keys = Keys(up: bool, down: bool, left: bool, right: bool)

  const Released: Keys := Keys(false, false, false, false)

  /** Which flag a key name drives: the arrow key and both cases of its
      W/S/A/D letter; any other key drives none. */
  datatype Flag = Up | Down | Left | Right

  function FlagOf(key: string): (f: Option<Flag>)
    ensures f == Some(Up) <==> key == "ArrowUp" || key == "w" || key == "W"
    ensures f == Some(Down) <==> key == "ArrowDown" || key == "s" || key == "S"
    ensures f == Some(Left) <==> key == "ArrowLeft" || key == "a" || key == "A"
    ensures f == Some(Right) <==> key == "ArrowRight" || key == "d" || key == "D"
  {
    if key == "ArrowUp" || key == "w" || key == "W" then Some(Up)
    else if key == "ArrowDown" || key == "s" || key == "S" then Some(Down)
    else if key == "ArrowLeft" || key == "a" || key == "A" then Some(Left)
    else if key == "ArrowRight" || key == "d" || key == "D" then Some(Right)
    else None
  }

  /** The flags with the one `key` drives set to `held`. */
  function Set(k: Keys, key: string, held: bool): Keys {
    match FlagOf(key)
    case None => k
    case Some(Up) => k.(up := held)
    case Some(Down) => k.(down := held)
    case Some(Left) => k.(left := held)
    case Some(Right) => k.(right := held)
  }

  /** `getInput`: up accelerates, down brakes, left and right steer. */
  function Controls(k: Keys): (c: Kinematics.ControlInput)
    ensures c.accelerate == k.up && c.brake == k.down
    ensures c.steerLeft == k.left && c.steerRight == k.right
    ensures k == Released ==> c == Kinematics.NoInput
  {
    Kinematics.ControlInput(k.up, k.down, k.left, k.right)
  }

  /** A key press sets exactly the flag its key drives and no other; a key
      outside the mapping changes nothing. */
  lemma PressMeaning(k: Keys, key: string)
    ensures FlagOf(key) == Some(Up) ==> Set(k, key, true) == k.(up := true)
    ensures FlagOf(key) == Some(Down) ==> Set(k, key, true) == k.(down := true)
    ensures FlagOf(key) == Some(Left) ==> Set(k, key, true) == k.(left := true)
    ensures FlagOf(key) == Some(Right) ==> Set(k, key, true) == k.(right := true)
    ensures FlagOf(key).None? ==> Set(k, key, true) == k && Set(k, key, false) == k
  {
  }

  /** Releasing a key clears only its own flag, so a press followed by the
      release of the same key leaves that flag clear and the others as they were. */
  lemma PressThenRelease(k: Keys, key: string)
    ensures var r := Set(Set(k, key, true), key, false);
      && r == Set(k, key, false)
      && (FlagOf(key) == Some(Up) ==> !r.up && r.(up := k.up) == k)
      && (FlagOf(key) == Some(Down) ==> !r.down && r.(down := k.down) == k)
      && (FlagOf(key) == Some(Left) ==> !r.left && r.(left := k.left) == k)
      && (FlagOf(key) == Some(Right) ==> !r.right && r.(right := k.right) == k)
  {
    match FlagOf(key)
    case None =>
    case Some(Up) => assert Set(k, key, true) == k.(up := true);
    case Some(Down) => assert Set(k, key, true) == k.(down := true);
    case Some(Left) => assert Set(k, key, true) == k.(left := true);
    case Some(Right) => assert Set(k, key, true) == k.(right := true);
  }

  /** `InputHandler`. Listener registration and `preventDefault` are not part
      of the model; the handlers take the event's key name. */
  class InputHandler {
    var keys: Keys

    constructor ()
      ensures keys == Released
    {
      keys := Released;
    }

    /** `handleKeyDown(e)`. */
    method HandleKeyDown(key: string)
      modifies this
      ensures keys == Set(old(keys), key, true)
    {
      if key == "ArrowUp" || key == "w" || key == "W" {
        keys := keys.(up := true);
      } else if key == "ArrowDown" || key == "s" || key == "S" {
        keys := keys.(down := true);
      } else if key == "ArrowLeft" || key == "a" || key == "A" {
        keys := keys.(left := true);
      } else if key == "ArrowRight" || key == "d" || key == "D" {
        keys := keys.(right := true);
      }
    }

    /** `handleKeyUp(e)`. */
    method HandleKeyUp(key: string)
      modifies this
      ensures keys == Set(old(keys), key, false)
    {
      if key == "ArrowUp" || key == "w" || key == "W" {
        keys := keys.(up := false);
      } else if key == "ArrowDown" || key == "s" || key == "S" {
        keys := keys.(down := false);
      } else if key == "ArrowLeft" || key == "a" || key == "A" {
        keys := keys.(left := false);
      } else if key == "ArrowRight" || key == "d" || key == "D" {
        keys := keys.(right := false);
      }
    }

    /** `getInput()`: reads the flags and changes nothing. */
    function GetInput(): Kinematics.ControlInput
      reads this
    {
      Controls(keys)
    }

    /** `reset()`: every flag clear. */
    method Reset()
      modifies this
      ensures keys == Released
    {
      keys := Released;
    }
  }
}

=== FILE: jsmath.dfy ===
/** The arithmetic the game borrows from JavaScript's global `Math` object.

    Numbers are reals: there is no IEEE rounding, NaN or infinity in the model.
    `Math.sin`, `Math.cos`, `Math.atan2` and `Math.sqrt` are foreign code, so they
    are a parameter of type `MathLib`; `Lawful` lists the only facts about them
    that any proof uses. `Math.PI`, `Math.min`, `Math.max`, `Math.abs` and
    `Math.round` are defined here outright. */
module JsMath {

  /** `Math.PI`. */
  const PI: real := 3.141592653589793

  /** The transcendental functions of `Math`, supplied by the host. */
  datatype MathLib = MathLib(
    sin: real -> real,
    cos: real -> real,
    atan2: (real, real) -> real,
    sqrt: real -> real)

  /** What the proofs may assume about the host's `Math`. */
  ghost predicate Lawful(m: MathLib) {
    && m.sin(0.0) == 0.0
    && m.cos(0.0) == 1.0
    && (forall a: real :: m.sin(a) * m.sin(a) + m.cos(a) * m.cos(a) == 1.0)
    && (forall x: real :: x >= 0.0 ==> m.sqrt(x) >= 0.0 && m.sqrt(x) * m.sqrt(x) == x)
  }

  function Min(a: real, b: real): (r: real)
    ensures r <= a && r <= b && (r == a || r == b)
  {
    if a <= b then a else b
  }

  function Max(a: real, b: real): (r: real)
    ensures r >= a && r >= b && (r == a || r == b)
  {
    if a >= b then a else b
  }

  function Abs(a: real): (r: real)
    ensures r >= 0.0 && (r == a || r == -a)
  {
    if a < 0.0 then -a else a
  }

  /** A product of non-negative numbers is non-negative. */
  lemma MulNonNegative(a: real, b: real)
    requires a >= 0.0 && b >= 0.0
    ensures a * b >= 0.0
  {
  }

  lemma MulPositive(a: real, b: real)
    requires a > 0.0 && b > 0.0
    ensures a * b > 0.0
  {
  }

  /** A product with a positive factor is zero only when the other factor is. */
  lemma ZeroFactor(x: real, s: real)
    requires s > 0.0 && x * s == 0.0
    ensures x == 0.0
  {
    if x > 0.0 {
      MulPositive(x, s);
    } else if x < 0.0 {
      MulPositive(-x, s);
    }
  }

  /** `Math.round`: the nearest integer, halves rounded up. */
  function Round(a: real): (r: int)
    ensures a - 0.5 < r as real <= a + 0.5
  {
    (a + 0.5).Floor
  }

  /** The square root of a non-negative square is the non-negative base. */
  lemma SqrtOfSquare(m: MathLib, t: real)
    requires Lawful(m)
    requires t >= 0.0
    ensures m.sqrt(t * t) == t
  {
    var s := m.sqrt(t * t);
    assert s >= 0.0 && s * s == t * t;
    assert (s - t) * (s + t) == 0.0;
    if s + t != 0.0 {
      assert s - t == 0.0;
    }
  }

  // ---------------------------------------------------------------------------
  // Angle normalisation: `while (a > PI) a -= 2*PI; while (a < -PI) a += 2*PI;`

  /** The first loop: subtract whole turns while above PI. */
  function WrapDown(a: real): real
    decreases ((a - PI) / (2.0 * PI)).Floor
  {
    if a > PI then WrapDown(a - 2.0 * PI) else a
  }

  /** The second loop: add whole turns while below -PI. */
  function WrapUp(a: real): real
    decreases ((-PI - a) / (2.0 * PI)).Floor
  {
    if a < -PI then WrapUp(a + 2.0 * PI) else a
  }

  /** Both loops, in the order the source runs them. */
  function Wrap(a: real): real {
    WrapUp(WrapDown(a))
  }

  /** How many turns the first loop subtracts. */
  ghost function DownTurns(a: real): nat
    decreases ((a - PI) / (2.0 * PI)).Floor
  {
    if a > PI then DownTurns(a - 2.0 * PI) + 1 else 0
  }

  /** How many turns the second loop adds. */
  ghost function UpTurns(a: real): nat
    decreases ((-PI - a) / (2.0 * PI)).Floor
  {
    if a < -PI then UpTurns(a + 2.0 * PI) + 1 else 0
  }

  lemma {:induction false} WrapDownBounds(a: real)
    ensures WrapDown(a) <= PI
    ensures a > PI ==> WrapDown(a) > -PI
    ensures WrapDown(a) == a - 2.0 * PI * DownTurns(a) as real
    decreases ((a - PI) / (2.0 * PI)).Floor
  {
    if a > PI {
      WrapDownBounds(a - 2.0 * PI);
    }
  }

  lemma {:induction false} WrapUpBounds(a: real)
    ensures WrapUp(a) >= -PI
    ensures a <= PI ==> WrapUp(a) <= PI
    ensures WrapUp(a) == a + 2.0 * PI * UpTurns(a) as real
    decreases ((-PI - a) / (2.0 * PI)).Floor
  {
    if a < -PI {
      WrapUpBounds(a + 2.0 * PI);
    }
  }

  /** The normalised angle lies in the closed range [-PI, PI], differs from the
      input by whole turns (at most one of the two loops runs), and an angle
      already in range is left alone. */
  lemma WrapRange(a: real)
    ensures -PI <= Wrap(a) <= PI
    ensures Wrap(a) == a - 2.0 * PI * DownTurns(a) as real + 2.0 * PI * UpTurns(WrapDown(a)) as real
    ensures DownTurns(a) == 0 || UpTurns(WrapDown(a)) == 0
    ensures -PI <= a <= PI ==> Wrap(a) == a
  {
    WrapDownBounds(a);
    WrapUpBounds(WrapDown(a));
  }

  /** The two normalisation loops, as the source writes them. */
  method NormalizeAngle(a: real) returns (r: real)
    ensures r == Wrap(a)
    ensures -PI <= r <= PI
  {
    r := a;
    while r > PI
      invariant WrapDown(r) == WrapDown(a)
      decreases ((r - PI) / (2.0 * PI)).Floor
    {
      r := r - 2.0 * PI;
    }
    while r < -PI
      invariant WrapUp(r) == Wrap(a)
      decreases ((-PI - r) / (2.0 * PI)).Floor
    {
      r := r + 2.0 * PI;
    }
    WrapRange(a);
  }
}

=== FILE: kinematics.dfy ===
/** One tick of the cab's driving model, shared by both truck implementations
    (`Truck.update` and `TruckCab.update`): the steering wheel, the throttle
    with its jackknife guard, and the move along the heading. Each is a pure
    function of the old value and the controls; the classes assign its result. */
module Kinematics {
  import opened JsMath
  import opened World
  import Vehicle

  /** The four driving controls, as the input handler reports them. */
  datatype ControlInput = ControlInput(accelerate: bool, brake: bool, steerLeft: bool, steerRight: bool)

  const NoInput: ControlInput := ControlInput(false, false, false, false)

  /** Moves `v` towards zero by `step`, snapping to zero once closer than `step`:
      the source's return-to-centre of the wheel and its natural deceleration. */
  function TowardZero(v: real, step: real): real {
    if Abs(v) < step then 0.0 else if v > 0.0 then v - step else v + step
  }

  /** The value never crosses zero and loses exactly `step` of magnitude, unless
      it was within `step` of zero, in which case it becomes zero. */
  lemma TowardZeroMeaning(v: real, step: real)
    ensures Abs(v) < step ==> TowardZero(v, step) == 0.0
    ensures Abs(v) >= step ==> Abs(TowardZero(v, step)) == Abs(v) - step
    ensures TowardZero(v, step) * v >= 0.0
    ensures step >= 0.0 ==> Abs(TowardZero(v, step)) <= Abs(v)
  {
    var r := TowardZero(v, step);
    if Abs(v) >= step {
      if v > 0.0 {
        assert r == v - step;
      } else {
        assert r == v + step;
        assert r * v == v * v + step * v;
      }
    }
  }

  // ---------------------------------------------------------------------------
  // Steering

  /** The steering constants of one vehicle. */
  datatype Steering = Steering(maxAngle: real, rate: real, returnRate: real)

  /** The wheel after one tick: left wins over right; with neither held the
      wheel returns towards the centre. */
  function SteerStep(s: real, input: ControlInput, p: Steering): real {
    if input.steerLeft then Max(s - p.rate, -p.maxAngle)
    else if input.steerRight then Min(s + p.rate, p.maxAngle)
    else TowardZero(s, p.returnRate)
  }

  /** A wheel within its lock stays within it, whatever is held. */
  lemma SteerStepBounded(s: real, input: ControlInput, p: Steering)
    requires p.rate >= 0.0 && p.returnRate >= 0.0
    requires -p.maxAngle <= s <= p.maxAngle
    ensures -p.maxAngle <= SteerStep(s, input, p) <= p.maxAngle
  {
    TowardZeroMeaning(s, p.returnRate);
  }

  /** Holding left makes right irrelevant; holding neither recentres the wheel
      without letting it cross the centre. */
  lemma SteerStepPrecedence(s: real, input: ControlInput, p: Steering)
    requires p.rate >= 0.0
    ensures input.steerLeft ==>
      SteerStep(s, input, p) == SteerStep(s, input.(steerRight := !input.steerRight), p)
    ensures input.steerLeft ==> SteerStep(s, input, p) <= s || SteerStep(s, input, p) == -p.maxAngle
    ensures !input.steerLeft && input.steerRight ==> SteerStep(s, input, p) >= s || SteerStep(s, input, p) == p.maxAngle
    ensures !input.steerLeft && !input.steerRight ==>
      SteerStep(s, input, p) * s >= 0.0 &&
      (Abs(s) < p.returnRate ==> SteerStep(s, input, p) == 0.0)
  {
    TowardZeroMeaning(s, p.returnRate);
  }

  /** The wheel after `n` ticks of the same controls. */
  function SteerHeld(s: real, input: ControlInput, p: Steering, n: nat): real {
    if n == 0 then s else SteerStep(SteerHeld(s, input, p, n - 1), input, p)
  }

  /** Clamping before or after adding a non-negative step gives the same result. */
  lemma ClampThenStep(a: real, step: real, lock: real)
    requires step >= 0.0
    ensures Min(Min(a, lock) + step, lock) == Min(a + step, lock)
    ensures Max(-Min(a, lock) - step, -lock) == -Min(a + step, lock)
  {
  }

  /** The induction behind `SteerFromCentre`, with the swept angle
      `n * rate` passed in as `k`. */
  lemma {:induction false} SteerSweep(input: ControlInput, p: Steering, n: nat, k: real)
    requires p.rate >= 0.0 && p.maxAngle >= 0.0
    requires k == n as real * p.rate
    ensures input.steerLeft ==> SteerHeld(0.0, input, p, n) == -Min(k, p.maxAngle)
    ensures !input.steerLeft && input.steerRight ==> SteerHeld(0.0, input, p, n) == Min(k, p.maxAngle)
  {
    if n > 0 {
      var before := k - p.rate;
      assert before == (n - 1) as real * p.rate;
      SteerSweep(input, p, n - 1, before);
      ClampThenStep(before, p.rate, p.maxAngle);
    }
  }

  /** From the centre, holding one direction turns the wheel by `rate` per tick
      until it reaches the lock, and never past it. */
  lemma SteerFromCentre(input: ControlInput, p: Steering, n: nat)
    requires p.rate >= 0.0 && p.maxAngle >= 0.0
    ensures input.steerLeft ==> SteerHeld(0.0, input, p, n) == -Min(n as real * p.rate, p.maxAngle)
    ensures !input.steerLeft && input.steerRight ==> SteerHeld(0.0, input, p, n) == Min(n as real * p.rate, p.maxAngle)
  {
    SteerSweep(input, p, n, n as real * p.rate);
  }

  // ---------------------------------------------------------------------------
  // Throttle

  /** The throttle constants of one vehicle. */
  datatype Throttle = Throttle(maxSpeed: real, acceleration: real, deceleration: real, brakeForce: real)

  predicate NonNegative(t: Throttle) {
    t.maxSpeed >= 0.0 && t.acceleration >= 0.0 && t.deceleration >= 0.0 && t.brakeForce >= 0.0
  }

  /** The cab-trailer angle beyond which the truck counts as jackknifed (72 degrees). */
  const JackknifeLimit: real := PI / 2.5

  predicate Jackknifed(jackknife: real) {
    Abs(jackknife) > JackknifeLimit
  }

  predicate NearJackknife(jackknife: real) {
    Abs(jackknife) > JackknifeLimit * 0.8
  }

  /** The speed after one tick. Accelerating wins over braking; braking is
      reversing once stopped, refused when jackknifed and limited to 30% of
      top speed near a jackknife; with no pedal the truck coasts to rest. */
  function SpeedStep(v: real, input: ControlInput, t: Throttle, jackknife: real): real {
    if input.accelerate then Min(v + t.acceleration, t.maxSpeed)
    else if input.brake then
      if Jackknifed(jackknife) && v <= 0.0 then 0.0
      else if NearJackknife(jackknife) && v < 0.0 then Max(v - t.brakeForce * 0.3, -t.maxSpeed * 0.3)
      else Max(v - t.brakeForce, -t.maxSpeed * 0.6)
    else TowardZero(v, t.deceleration)
  }

  /** Speeds between full reverse (60% of top speed) and top speed. */
  predicate InSpeedBand(v: real, t: Throttle) {
    -t.maxSpeed * 0.6 <= v <= t.maxSpeed
  }

  /** A speed in the band stays in the band, whatever the controls and angle. */
  lemma SpeedStepInBand(v: real, input: ControlInput, t: Throttle, jackknife: real)
    requires NonNegative(t)
    requires InSpeedBand(v, t)
    ensures InSpeedBand(SpeedStep(v, input, t, jackknife), t)
  {
    TowardZeroMeaning(v, t.deceleration);
  }

  /** Without the accelerator, a jackknifed truck that is stopped or reversing
      is brought to rest when braking; near a jackknife, reversing is held to
      30% of top speed; coasting never reverses the direction of travel. */
  lemma SpeedStepGuards(v: real, input: ControlInput, t: Throttle, jackknife: real)
    ensures !input.accelerate && input.brake && Jackknifed(jackknife) && v <= 0.0 ==>
      SpeedStep(v, input, t, jackknife) == 0.0
    ensures !input.accelerate && input.brake && NearJackknife(jackknife) && v < 0.0 && NonNegative(t) ==>
      -t.maxSpeed * 0.3 <= SpeedStep(v, input, t, jackknife) <= 0.0
    ensures !input.accelerate && !input.brake ==>
      SpeedStep(v, input, t, jackknife) * v >= 0.0 &&
      (Abs(v) < t.deceleration ==> SpeedStep(v, input, t, jackknife) == 0.0)
    ensures input.accelerate ==>
      SpeedStep(v, input, t, jackknife) == SpeedStep(v, NoInput.(accelerate := true), t, 0.0)
  {
    TowardZeroMeaning(v, t.deceleration);
    assert JackknifeLimit > 0.0;
  }

  // ---------------------------------------------------------------------------
  // Moving

  /** The pose after one tick at `speed` with the wheel at `steering`: the
      heading turns first, then the cab moves `speed` along the new heading. */
  function Advance(m: MathLib, pose: Pose, speed: real, steering: real): Pose {
    if speed == 0.0 then pose
    else
      var turnFactor := steering * (if speed > 0.0 then 1.0 else -1.0);
      var a := pose.angle + turnFactor * Abs(speed) * 0.02;
      var q := Vehicle.Ahead(m, Point(pose.x, pose.y), a, speed);
      Pose(q.x, q.y, a)
  }

  /** Moving, the heading turns first and the cab then moves along the new heading. */
  lemma AdvanceMoving(m: MathLib, pose: Pose, speed: real, steering: real)
    requires speed != 0.0
    ensures var a := pose.angle + steering * (if speed > 0.0 then 1.0 else -1.0) * Abs(speed) * 0.02;
      var q := Vehicle.Ahead(m, Point(pose.x, pose.y), a, speed);
      Advance(m, pose, speed, steering) == Pose(q.x, q.y, a)
  {
  }

  /** At rest nothing moves; otherwise the cab travels exactly |speed| and its
      heading turns by steering x speed x 0.02, so reversing turns the other way. */
  lemma AdvanceMeaning(m: MathLib, pose: Pose, speed: real, steering: real)
    requires Lawful(m)
    ensures speed == 0.0 ==> Advance(m, pose, speed, steering) == pose
    ensures var q := Advance(m, pose, speed, steering);
      && (q.x - pose.x) * (q.x - pose.x) + (q.y - pose.y) * (q.y - pose.y) == speed * speed
      && q.angle == pose.angle + steering * speed * 0.02
  {
    if speed != 0.0 {
      AdvanceMoving(m, pose, speed, steering);
      var a := pose.angle + steering * (if speed > 0.0 then 1.0 else -1.0) * Abs(speed) * 0.02;
      assert steering * (if speed > 0.0 then 1.0 else -1.0) * Abs(speed) == steering * speed;
      Vehicle.AheadDistance(m, Point(pose.x, pose.y), a, speed);
    }
  }

  /** Jackknifed, at rest or reversing, braking without the accelerator: the
      speed drops to 0 and the cab stays exactly where it is. */
  lemma JackknifeStop(m: MathLib, pose: Pose, v: real, input: ControlInput, t: Throttle,
                      jackknife: real, steering: real)
    requires !input.accelerate && input.brake && Jackknifed(jackknife) && v <= 0.0
    ensures SpeedStep(v, input, t, jackknife) == 0.0
    ensures Advance(m, pose, SpeedStep(v, input, t, jackknife), steering) == pose
  {
  }

  /** A truck at rest with nothing held stays exactly where it is. */
  lemma RestIsFixed(m: MathLib, pose: Pose, steering: real, t: Throttle, jackknife: real)
    requires t.deceleration >= 0.0
    ensures SpeedStep(0.0, NoInput, t, jackknife) == 0.0
    ensures Advance(m, pose, SpeedStep(0.0, NoInput, t, jackknife), steering) == pose
  {
  }
}

=== FILE: levels.dfy ===
/** The built-in level table and the loader that walks through it. */
module Levels {
  import opened JsMath
  import opened World

  /** A loading bay 56 wide and 170 deep at the top of the yard. */
  function Bay(x: real): Option<Rect> {
    Some(Rect(x, 50.0, 56.0, 170.0, 0.0))
  }

  function Wall(x: real, y: real, width: real, height: real): Obstacle {
    Block(ObstacleKind.Wall, x, y, width, height)
  }

  /** A bay divider 10 wide. */
  function Divider(x: real, height: real): Obstacle {
    Block(Barrier, x, 45.0, 10.0, height)
  }

  function ParkedAt(x: real, width: real, height: real): Obstacle {
    Block(ParkedTrailer, x, 55.0, width, height)
  }

  function CarAt(x: real, y: real): Obstacle {
    Block(Car, x, y, 50.0, 90.0)
  }

  function ConeAt(x: real, y: real): Obstacle {
    Block(Cone, x, y, 20.0, 20.0)
  }

  /** `defineLevels`: six levels on a 1200 by 800 yard. */
  const Table: seq<Level> := [
    Level(Numbered(1), "First Delivery", "Back the TRAILER into the green zone",
      Pose(600.0, 600.0, PI), Bay(572.0),
      [Wall(400.0, 30.0, 400.0, 15.0), Divider(560.0, 180.0), Divider(630.0, 180.0)]),
    Level(Numbered(2), "Loading Bay", "Park TRAILER in the empty bay",
      Pose(600.0, 600.0, PI), Bay(422.0),
      [Wall(200.0, 30.0, 600.0, 15.0),
       Divider(270.0, 180.0), Divider(340.0, 180.0), Divider(410.0, 180.0),
       Divider(480.0, 180.0), Divider(550.0, 180.0), Divider(620.0, 180.0),
       ParkedAt(283.0, 52.0, 155.0), ParkedAt(353.0, 52.0, 155.0),
       ParkedAt(493.0, 52.0, 155.0), ParkedAt(563.0, 52.0, 155.0)]),
    Level(Numbered(3), "Angled Approach", "Approach from the side",
      Pose(950.0, 500.0, PI * 0.7), Bay(272.0),
      [Wall(100.0, 30.0, 500.0, 15.0),
       Divider(180.0, 180.0), Divider(260.0, 180.0), Divider(330.0, 180.0), Divider(400.0, 180.0),
       ParkedAt(193.0, 52.0, 155.0), ParkedAt(343.0, 52.0, 155.0),
       CarAt(600.0, 300.0), ConeAt(500.0, 400.0), ConeAt(400.0, 350.0)]),
    Level(Numbered(4), "Busy Yard", "Navigate through traffic",
      Pose(1000.0, 650.0, PI), Bay(202.0),
      [Wall(50.0, 30.0, 450.0, 15.0),
       Divider(120.0, 180.0), Divider(190.0, 180.0), Divider(260.0, 180.0), Divider(330.0, 180.0),
       ParkedAt(133.0, 52.0, 155.0), ParkedAt(273.0, 52.0, 155.0),
       CarAt(500.0, 300.0), CarAt(650.0, 450.0), CarAt(400.0, 500.0),
       Wall(550.0, 550.0, 150.0, 80.0),
       ConeAt(350.0, 400.0), ConeAt(300.0, 300.0)]),
    Level(Numbered(5), "Tight Squeeze", "Only one bay open!",
      Pose(600.0, 650.0, PI), Bay(492.0),
      [Wall(200.0, 30.0, 800.0, 15.0),
       Divider(270.0, 180.0), Divider(340.0, 180.0), Divider(410.0, 180.0), Divider(480.0, 180.0),
       Divider(550.0, 180.0), Divider(620.0, 180.0), Divider(690.0, 180.0), Divider(760.0, 180.0),
       ParkedAt(283.0, 52.0, 155.0), ParkedAt(353.0, 52.0, 155.0), ParkedAt(423.0, 52.0, 155.0),
       ParkedAt(563.0, 52.0, 155.0), ParkedAt(633.0, 52.0, 155.0), ParkedAt(703.0, 52.0, 155.0),
       CarAt(350.0, 400.0), CarAt(750.0, 450.0)]),
    Level(Numbered(6), "Shipping Yard", "Navigate to the far dock!",
      Pose(300.0, 700.0, PI), Bay(1022.0),
      [Wall(900.0, 30.0, 200.0, 15.0), Divider(1010.0, 180.0), Divider(1080.0, 180.0),
       Wall(400.0, 300.0, 200.0, 150.0),
       Wall(50.0, 30.0, 300.0, 15.0),
       Divider(100.0, 150.0), Divider(170.0, 150.0), Divider(240.0, 150.0),
       ParkedAt(113.0, 50.0, 130.0), ParkedAt(183.0, 50.0, 130.0),
       Wall(500.0, 400.0, 150.0, 80.0), Wall(750.0, 550.0, 120.0, 100.0),
       CarAt(550.0, 200.0), CarAt(750.0, 350.0), CarAt(500.0, 650.0),
       ConeAt(350.0, 500.0), ConeAt(600.0, 400.0), ConeAt(850.0, 300.0), ConeAt(950.0, 250.0)])
  ]

  /** Six levels numbered from 1 in table order, each with an unturned 56 by
      170 bay at the top of the yard, and each starting the truck inside the yard. */
  lemma TableShape()
    ensures |Table| == 6
    ensures forall i :: 0 <= i < |Table| ==>
      && Table[i].id == Numbered(i + 1)
      && Table[i].parkingZone.Some?
      && Table[i].parkingZone.value.width == 56.0 && Table[i].parkingZone.value.height == 170.0
      && Table[i].parkingZone.value.angle == 0.0 && Table[i].parkingZone.value.y == 50.0
      && 0.0 < Table[i].truck.x < 1200.0 && 0.0 < Table[i].truck.y < 800.0
  {
  }

  class LevelLoader {
    const levels: seq<Level>
    var currentLevelIndex: int

    /** The current index always names a level. */
    predicate Valid()
      reads this
    {
      0 <= currentLevelIndex < |levels|
    }

    constructor ()
      ensures levels == Table && currentLevelIndex == 0
      ensures Valid()
    {
      levels := Table;
      currentLevelIndex := 0;
    }

    /** `getLevel(index)`: the level, or nothing for an index out of range. */
    function GetLevel(index: int): (r: Option<Level>)
      reads this
      ensures r.None? <==> index < 0 || index >= |levels|
      ensures r.Some? ==> r.value == levels[index] && r.value in levels
    {
      if 0 <= index < |levels| then Some(levels[index]) else None
    }

    /** `getCurrentLevel()`: always a level while the loader is valid. */
    function GetCurrentLevel(): (r: Option<Level>)
      reads this
      ensures Valid() <==> r.Some?
      ensures r.Some? ==> r.value == levels[currentLevelIndex]
    {
      GetLevel(currentLevelIndex)
    }

    function GetTotalLevels(): (n: nat)
      reads this
      ensures n == |levels|
    {
      |levels|
    }

    predicate IsLastLevel()
      reads this
    {
      currentLevelIndex >= |levels| - 1
    }

    /** `setCurrentLevel(index)`: moves only to an index in range. */
    method SetCurrentLevel(index: int) returns (ok: bool)
      modifies this`currentLevelIndex
      ensures ok <==> 0 <= index < |levels|
      ensures currentLevelIndex == if ok then index else old(currentLevelIndex)
      ensures old(Valid()) ==> Valid()
    {
      if 0 <= index < |levels| {
        currentLevelIndex := index;
        return true;
      }
      return false;
    }

    /** `nextLevel()`: advances unless already at the last level, which it
        then reports. */
    method NextLevel() returns (ok: bool)
      modifies this`currentLevelIndex
      ensures ok <==> old(currentLevelIndex) < |levels| - 1
      ensures currentLevelIndex == if ok then old(currentLevelIndex) + 1 else old(currentLevelIndex)
      ensures old(Valid()) ==> Valid()
      ensures !ok ==> IsLastLevel()
    {
      if currentLevelIndex < |levels| - 1 {
        currentLevelIndex := currentLevelIndex + 1;
        return true;
      }
      return false;
    }
  }
}

=== FILE: osm_loader.dfy ===
/** The OpenStreetMap loader: turns the nodes and ways of a map area into a
    level. Buildings become walls and barriers become barriers; the first
    large car park holds the parking bay; roads are kept for drawing only.
    The world is sized from the area's radius, and the truck starts at the
    first clear spot of a grid scan, or, in free roam, of a spiral around the
    centre. The Overpass query and its fetch are not part of this model: the
    fetched elements are a parameter. */
module OsmLoader {
  import opened JsMath
  import opened World
  import opened Boxes

  // ---------------------------------------------------------------------------
  // The area

  /** The queried area: a latitude/longitude box around a centre. */
  datatype BBox = BBox(south: real, north: real, west: real, east: real,
                       centerLat: real, centerLon: real, radiusMeters: real)

  /** Metres per degree of latitude. */
  const MetresPerDegree: real := 111320.0

  /** `getBoundingBox`: `radius` metres each way around (lat, lon); a degree
      of longitude shrinks with the cosine of the latitude. */
  function GetBoundingBox(m: MathLib, lat: real, lon: real, radius: real): (b: BBox)
    requires m.cos(lat * PI / 180.0) != 0.0
    ensures b.centerLat == lat && b.centerLon == lon && b.radiusMeters == radius
    ensures b.north - lat == lat - b.south == radius / MetresPerDegree
    ensures b.east - lon == lon - b.west
    ensures (b.east - lon) * m.cos(lat * PI / 180.0) == radius / MetresPerDegree
    ensures radius > 0.0 && m.cos(lat * PI / 180.0) > 0.0 ==> b.south < b.north && b.west < b.east
  {
    var latDelta := radius / MetresPerDegree;
    var lonDelta := radius / (MetresPerDegree * m.cos(lat * PI / 180.0));
    BBox(lat - latDelta, lat + latDelta, lon - lonDelta, lon + lonDelta, lat, lon, radius)
  }

  // ---------------------------------------------------------------------------
  // The fetched elements

  datatype LatLon = LatLon(lat: real, lon: real)

  /** A way's tags; an absent tag is the empty string, which JavaScript reads
      as false. */
  datatype Tags = Tags(amenity: string, highway: string, building: string, barrier: string, name: Option<string>)

  /** An element of the Overpass answer. A way without a node list has the
      empty list. */
  datatype Element =
    | Node(id: int, lat: real, lon: real)
    | Way(nodeIds: seq<int>, tags: Tags)
    | Relation

  /** A road kept for drawing: its points in game units, its `highway` kind
      and its name. */
  datatype Road = Road(points: seq<Point>, kind: string, name: Option<string>)

  /** The level a map area makes, with the world size and the roads. */
  datatype OsmLevel = OsmLevel(level: Level, roads: seq<Road>, freeRoam: bool, worldWidth: real, worldHeight: real)

  /** The node index: every node's position by id; a later node with the same
      id replaces an earlier one. */
  function NodeIndex(es: seq<Element>): map<int, LatLon> {
    if es == [] then map[]
    else
      var e := es[|es| - 1];
      if e.Node? then NodeIndex(es[..|es| - 1])[e.id := LatLon(e.lat, e.lon)] else NodeIndex(es[..|es| - 1])
  }

  /** Every node is indexed, and an id is indexed only with the position of a
      node carrying it. */
  lemma {:induction false} NodeIndexMeaning(es: seq<Element>)
    ensures forall i :: 0 <= i < |es| && es[i].Node? ==> es[i].id in NodeIndex(es)
    ensures forall id :: id in NodeIndex(es) ==>
      exists i :: 0 <= i < |es| && es[i].Node? && es[i].id == id && NodeIndex(es)[id] == LatLon(es[i].lat, es[i].lon)
  {
    if es != [] {
      var init := es[..|es| - 1];
      NodeIndexMeaning(init);
      forall id | id in NodeIndex(es)
        ensures exists i :: 0 <= i < |es| && es[i].Node? && es[i].id == id && NodeIndex(es)[id] == LatLon(es[i].lat, es[i].lon)
      {
        if es[|es| - 1].Node? && es[|es| - 1].id == id {
          assert es[|es| - 1].Node?;
        } else {
          var i :| 0 <= i < |init| && init[i].Node? && init[i].id == id && NodeIndex(init)[id] == LatLon(init[i].lat, init[i].lon);
          assert es[i] == init[i];
        }
      }
    }
  }

  /** The positions of a way's nodes, skipping ids with no node. */
  function Resolve(nodes: map<int, LatLon>, ids: seq<int>): (coords: seq<LatLon>)
    ensures |coords| <= |ids|
    ensures forall c :: c in coords ==> exists id :: id in nodes && nodes[id] == c
    ensures forall id :: id in ids && id in nodes ==> nodes[id] in coords
    ensures (forall id :: id in ids ==> id in nodes) ==> |coords| == |ids|
  {
    if ids == [] then []
    else
      var rest := Resolve(nodes, ids[..|ids| - 1]);
      var id := ids[|ids| - 1];
      if id in nodes then rest + [nodes[id]] else rest
  }

  // ---------------------------------------------------------------------------
  // The world

  /** The world width: 24 pixels per metre of radius in free roam, capped at
      60000, and never below 2000; outside free roam always 2000. */
  function WorldWidth(radiusMeters: real, freeRoam: bool): (w: real)
    ensures 2000.0 <= w <= 60000.0
    ensures !freeRoam ==> w == 2000.0
  {
    var metersToPixels := 12.0;
    var radius := Max(if radiusMeters != 0.0 then radiusMeters else 500.0, 200.0);
    var baseSize := if freeRoam then Min(radius * metersToPixels * 2.0, 60000.0) else 1200.0;
    Max(baseSize, 2000.0)
  }

  /** The world height: seven tenths of the width, rounded. */
  function WorldHeight(w: real): (h: real)
    ensures w * 0.7 - 0.5 < h <= w * 0.7 + 0.5
  {
    Round(w * 0.7) as real
  }

  /** The world size is known exactly outside free roam. */
  lemma FixedWorld(radiusMeters: real)
    ensures WorldWidth(radiusMeters, false) == 2000.0 && WorldHeight(WorldWidth(radiusMeters, false)) == 1400.0
  {
    assert 1400.0 - 0.5 < 2000.0 * 0.7 + 0.5;
  }

  /** `toGameCoords`: longitude runs left to right and latitude bottom to
      top, across the world plus a 50-pixel margin. */
  datatype Grid = Grid(bbox: BBox, width: real, height: real)

  predicate Proper(b: BBox) {
    b.north != b.south && b.east != b.west
  }

  function ToGame(g: Grid, c: LatLon): (p: Point)
    requires Proper(g.bbox)
  {
    Point((c.lon - g.bbox.west) / (g.bbox.east - g.bbox.west) * g.width + 50.0,
          (g.bbox.north - c.lat) / (g.bbox.north - g.bbox.south) * g.height + 50.0)
  }

  /** The area's corners land on the world's corners, shifted by the margin. */
  lemma ToGameCorners(g: Grid)
    requires Proper(g.bbox)
    ensures ToGame(g, LatLon(g.bbox.north, g.bbox.west)) == Point(50.0, 50.0)
    ensures ToGame(g, LatLon(g.bbox.south, g.bbox.east)) == Point(g.width + 50.0, g.height + 50.0)
  {
    var lonRange, latRange := g.bbox.east - g.bbox.west, g.bbox.north - g.bbox.south;
    assert (g.bbox.west - g.bbox.west) / lonRange == 0.0;
    assert (g.bbox.north - g.bbox.north) / latRange == 0.0;
    assert lonRange / lonRange == 1.0 && latRange / latRange == 1.0;
  }

  function ToGameAll(g: Grid, cs: seq<LatLon>): (ps: seq<Point>)
    requires Proper(g.bbox)
    ensures |ps| == |cs| && forall i :: 0 <= i < |cs| ==> ps[i] == ToGame(g, cs[i])
  {
    seq(|cs|, i requires 0 <= i < |cs| => ToGame(g, cs[i]))
  }

  // ---------------------------------------------------------------------------
  // Ways

  /** What the ways have made so far. */
  datatype Ways = Ways(obstacles: seq<Obstacle>, roads: seq<Road>, zone: Option<Rect>)

  /** A bay inside a car park: 56 x 170, centred across it, 10 below its top. */
  function BayIn(b: Box): (r: Rect)
    ensures r.width == 56.0 && r.height == 170.0 && r.angle == 0.0
    ensures r.x + r.width / 2.0 == (b.minX + b.maxX) / 2.0 && r.y == b.minY + 10.0
  {
    Rect(b.minX + (b.maxX - b.minX) / 2.0 - 28.0, b.minY + 10.0, 56.0, 170.0, 0.0)
  }

  /** One way of the second pass. */
  function WayStep(acc: Ways, nodes: map<int, LatLon>, g: Grid, e: Element): Ways
    requires Proper(g.bbox)
  {
    if !e.Way? then acc
    else
      var coords := Resolve(nodes, e.nodeIds);
      if |coords| < 2 then acc
      else
        var points := ToGameAll(g, coords);
        BoxOfMeaning(points);
        var b := BoxOf(points).value;
        var width, height := b.maxX - b.minX, b.maxY - b.minY;
        if width < 5.0 || height < 5.0 then acc
        else if width > 800.0 || height > 600.0 then acc
        else if e.tags.amenity == "parking" then
          if acc.zone.None? && width > 40.0 && height > 40.0 then acc.(zone := Some(BayIn(b))) else acc
        else if e.tags.highway != "" then
          acc.(roads := acc.roads + [Road(points, e.tags.highway, e.tags.name)])
        else if e.tags.building != "" then
          acc.(obstacles := acc.obstacles + [Block(Wall, b.minX, b.minY, Max(width, 15.0), Max(height, 15.0))])
        else if e.tags.barrier != "" then
          acc.(obstacles := acc.obstacles + [Block(Barrier, b.minX, b.minY, Max(width, 10.0), Max(height, 10.0))])
        else acc
  }

  /** Ways that resolve to fewer than two nodes, or whose box is under 5 or
      over 800 x 600, change nothing. Car parks and roads never make
      obstacles, and the first bay is kept. A way adds at most one obstacle: a
      wall at least 15 x 15 for a building, else a barrier at least 10 x 10. */
  lemma WayStepMeaning(acc: Ways, nodes: map<int, LatLon>, g: Grid, e: Element)
    requires Proper(g.bbox)
    ensures var r := WayStep(acc, nodes, g, e);
      && (e.Way? && |Resolve(nodes, e.nodeIds)| < 2 ==> r == acc)
      && (e.Way? && |Resolve(nodes, e.nodeIds)| >= 2 ==>
           var b := BoxOf(ToGameAll(g, Resolve(nodes, e.nodeIds))).value;
           (b.maxX - b.minX < 5.0 || b.maxY - b.minY < 5.0 || b.maxX - b.minX > 800.0 || b.maxY - b.minY > 600.0) ==> r == acc)
      && (e.Way? && (e.tags.amenity == "parking" || e.tags.highway != "") ==> r.obstacles == acc.obstacles)
      && (e.Way? && e.tags.amenity != "parking" ==> r.zone == acc.zone)
      && (acc.zone.Some? ==> r.zone == acc.zone)
      && (acc.zone.None? && r.zone.Some? ==> r.zone.value.width == 56.0 && r.zone.value.height == 170.0)
      && (r.obstacles == acc.obstacles ||
           (&& |r.obstacles| == |acc.obstacles| + 1
            && r.obstacles[..|acc.obstacles|] == acc.obstacles
            && var o := r.obstacles[|acc.obstacles|];
               && e.Way? && o.box.angle == 0.0
               && (e.tags.building != "" ==> o.kind == Wall && o.box.width >= 15.0 && o.box.height >= 15.0)
               && (e.tags.building == "" ==> o.kind == Barrier && o.box.width >= 10.0 && o.box.height >= 10.0)))
  {
  }

  /** A way's box that the size filters keep: at least 5 both ways, at most
      800 wide and 600 high. */
  predicate KeptSize(b: Box) {
    5.0 <= b.maxX - b.minX <= 800.0 && 5.0 <= b.maxY - b.minY <= 600.0
  }

  /** What a way makes, by its tags, once its box passes the size filters.
      Tags are tried in the order car park, road, building, barrier: a car
      park over 40 x 40 makes the bay when there is none yet, a road keeps
      its points, kind and name, a building becomes a wall and a barrier a
      barrier, each over the way's box and never thinner than 15 and 10.
      Only a road adds a road, whatever its size. */
  lemma WayStepByTag(acc: Ways, nodes: map<int, LatLon>, g: Grid, e: Element)
    requires Proper(g.bbox)
    ensures (!e.Way? || e.tags.amenity == "parking" || e.tags.highway == "") ==> WayStep(acc, nodes, g, e).roads == acc.roads
    ensures e.Way? && |Resolve(nodes, e.nodeIds)| >= 2 ==>
      var points := ToGameAll(g, Resolve(nodes, e.nodeIds));
      var b := BoxOf(points).value;
      var width, height := b.maxX - b.minX, b.maxY - b.minY;
      var r := WayStep(acc, nodes, g, e);
      var t := e.tags;
      KeptSize(b) ==>
        && (t.amenity == "parking" ==>
              && r.obstacles == acc.obstacles && r.roads == acc.roads
              && r.zone == (if acc.zone.None? && width > 40.0 && height > 40.0 then Some(BayIn(b)) else acc.zone))
        && (t.amenity != "parking" && t.highway != "" ==>
              r == acc.(roads := acc.roads + [Road(points, t.highway, t.name)]))
        && (t.amenity != "parking" && t.highway == "" && t.building != "" ==>
              r == acc.(obstacles := acc.obstacles + [Block(Wall, b.minX, b.minY, Max(width, 15.0), Max(height, 15.0))]))
        && (t.amenity != "parking" && t.highway == "" && t.building == "" && t.barrier != "" ==>
              r == acc.(obstacles := acc.obstacles + [Block(Barrier, b.minX, b.minY, Max(width, 10.0), Max(height, 10.0))]))
        && (t.amenity != "parking" && t.highway == "" && t.building == "" && t.barrier == "" ==> r == acc)
  {
  }

  /** Obstacles the ways make are walls at least 15 x 15 or barriers at least
      10 x 10, unturned, and a bay is 56 x 170. */
  predicate Sound(acc: Ways) {
    && (forall o :: o in acc.obstacles ==>
          && o.box.angle == 0.0
          && ((o.kind == Wall && o.box.width >= 15.0 && o.box.height >= 15.0) ||
              (o.kind == Barrier && o.box.width >= 10.0 && o.box.height >= 10.0)))
    && (acc.zone.Some? ==> acc.zone.value.width == 56.0 && acc.zone.value.height == 170.0)
  }

  /** The second pass over the elements, in order. */
  function WaysOf(nodes: map<int, LatLon>, g: Grid, es: seq<Element>): Ways
    requires Proper(g.bbox)
  {
    if es == [] then Ways([], [], None)
    else WayStep(WaysOf(nodes, g, es[..|es| - 1]), nodes, g, es[|es| - 1])
  }

  /** Whatever the elements, the ways make only sound obstacles and bays;
      once a bay is found no later way replaces it. */
  lemma {:induction false} WaysOfSound(nodes: map<int, LatLon>, g: Grid, es: seq<Element>)
    requires Proper(g.bbox)
    ensures Sound(WaysOf(nodes, g, es))
  {
    if es != [] {
      var acc := WaysOf(nodes, g, es[..|es| - 1]);
      WaysOfSound(nodes, g, es[..|es| - 1]);
      WayStepMeaning(acc, nodes, g, es[|es| - 1]);
      var r := WayStep(acc, nodes, g, es[|es| - 1]);
      if r.obstacles != acc.obstacles {
        forall o | o in r.obstacles
          ensures o.box.angle == 0.0
          ensures (o.kind == Wall && o.box.width >= 15.0 && o.box.height >= 15.0) ||
                  (o.kind == Barrier && o.box.width >= 10.0 && o.box.height >= 10.0)
        {
          var i :| 0 <= i < |r.obstacles| && r.obstacles[i] == o;
          if i < |acc.obstacles| {
            assert o == r.obstacles[..|acc.obstacles|][i];
          }
        }
      }
    }
  }

  /** A later way never replaces the bay of an earlier one. */
  lemma {:induction false} FirstBayKept(nodes: map<int, LatLon>, g: Grid, a: seq<Element>, b: seq<Element>)
    requires Proper(g.bbox)
    requires WaysOf(nodes, g, a).zone.Some?
    ensures WaysOf(nodes, g, a + b).zone == WaysOf(nodes, g, a).zone
  {
    if b == [] {
      assert a + b == a;
    } else {
      var init := b[..|b| - 1];
      assert (a + b)[..|a + b| - 1] == a + init;
      FirstBayKept(nodes, g, a, init);
      WayStepMeaning(WaysOf(nodes, g, a + init), nodes, g, b[|b| - 1]);
    }
  }

  // ---------------------------------------------------------------------------
  // Clear positions

  /** `width || 30`: a missing or zero size counts as 30. */
  function Extent(v: real): real {
    if v != 0.0 then v else 30.0
  }

  /** The obstacle's box, grown by `margin` on every side, strictly contains
      the point. */
  predicate Inside(o: Obstacle, x: real, y: real, margin: real) {
    && o.box.x - margin < x < o.box.x + Extent(o.box.width) + margin
    && o.box.y - margin < y < o.box.y + Extent(o.box.height) + margin
  }

  /** The trailer extends 200 up the screen from the cab. */
  const TrailerLength: real := 200.0

  /** `isPositionClear`: neither the cab's point nor the trailer's point 200
      above it lies within `margin` of any obstacle. */
  function IsPositionClear(x: real, y: real, obstacles: seq<Obstacle>, margin: real): (r: bool)
    ensures r <==> forall i :: 0 <= i < |obstacles| ==>
      !Inside(obstacles[i], x, y, margin) && !Inside(obstacles[i], x, y - TrailerLength, margin)
  {
    if obstacles == [] then true
    else if Inside(obstacles[0], x, y, margin) then false
    else if Inside(obstacles[0], x, y - TrailerLength, margin) then false
    else
      var rest := IsPositionClear(x, y, obstacles[1..], margin);
      assert forall i :: 1 <= i < |obstacles| ==> obstacles[i] == obstacles[1..][i - 1];
      rest
  }

  /** A distance that may be infinite: `getMinDistanceToObstacle` of no
      obstacles is `Infinity`. */
  datatype Dist = Finite(d: real) | Infinite

  /** `a > b` on such distances. */
  predicate Farther(a: Dist, b: Dist) {
    match a
    case Infinite => b.Finite?
    case Finite(x) => b.Finite? && x > b.d
  }

  function Nearer(a: Dist, b: Dist): Dist {
    if Farther(a, b) then b else a
  }

  /** The distance from (x, y) to the centre of an obstacle's box. */
  function CentreDistance(m: MathLib, x: real, y: real, o: Obstacle): real {
    var cx, cy := o.box.x + o.box.width / 2.0, o.box.y + o.box.height / 2.0;
    m.sqrt((x - cx) * (x - cx) + (y - cy) * (y - cy))
  }

  /** The distance to the nearest obstacle centre; infinite with none. */
  function MinDistance(m: MathLib, x: real, y: real, obstacles: seq<Obstacle>): (r: Dist)
    ensures r.Infinite? <==> obstacles == []
  {
    if obstacles == [] then Infinite
    else Nearer(MinDistance(m, x, y, obstacles[..|obstacles| - 1]),
                Finite(CentreDistance(m, x, y, obstacles[|obstacles| - 1])))
  }

  /** The minimum is no farther than any obstacle's centre and is the
      distance to one of them. */
  lemma {:induction false} MinDistanceMeaning(m: MathLib, x: real, y: real, obstacles: seq<Obstacle>)
    requires obstacles != []
    ensures forall i :: 0 <= i < |obstacles| ==> MinDistance(m, x, y, obstacles).d <= CentreDistance(m, x, y, obstacles[i])
    ensures exists i :: 0 <= i < |obstacles| && MinDistance(m, x, y, obstacles).d == CentreDistance(m, x, y, obstacles[i])
  {
    var init := obstacles[..|obstacles| - 1];
    var last := |obstacles| - 1;
    if init != [] {
      MinDistanceMeaning(m, x, y, init);
      assert forall i :: 0 <= i < |init| ==> obstacles[i] == init[i];
      var j :| 0 <= j < |init| && MinDistance(m, x, y, init).d == CentreDistance(m, x, y, init[j]);
      if MinDistance(m, x, y, obstacles).d == CentreDistance(m, x, y, obstacles[last]) {
      } else {
        assert MinDistance(m, x, y, obstacles).d == CentreDistance(m, x, y, obstacles[j]);
      }
    } else {
      assert MinDistance(m, x, y, obstacles).d == CentreDistance(m, x, y, obstacles[0]);
    }
  }

  // ---------------------------------------------------------------------------
  // Finding a start: the grid scan

  /** Scan positions: `x0 + step * k`. */
  function Col(x0: real, k: nat, step: real): real {
    x0 + step * k as real
  }

  /** The first clear point of one row, scanning right in steps of 80 while
      `x < width - 200`, with a 250 margin. */
  function FirstClearInRow(obstacles: seq<Obstacle>, width: real, y: real, x: real): Option<Pose>
    decreases (width - 200.0 - x).Floor
  {
    if x < width - 200.0 then
      if IsPositionClear(x, y, obstacles, 250.0) then Some(Pose(x, y, PI))
      else FirstClearInRow(obstacles, width, y, x + 80.0)
    else None
  }

  /** The first clear point of the rows scanned upwards from `y` in steps of
      80 while `y > 300`. */
  function FirstClear(obstacles: seq<Obstacle>, width: real, y: real): Option<Pose>
    decreases (y - 300.0).Floor
  {
    if y > 300.0 then
      var r := FirstClearInRow(obstacles, width, y, 200.0);
      if r.Some? then r else FirstClear(obstacles, width, y - 80.0)
    else None
  }

  /** A row's result is the first clear scan point: every point before it
      is blocked; with no result, every scan point of the row is. */
  lemma {:induction false} FirstClearInRowMeaning(obstacles: seq<Obstacle>, width: real, y: real, x: real)
    decreases (width - 200.0 - x).Floor
    ensures var r := FirstClearInRow(obstacles, width, y, x);
      && (r.Some? ==>
           && r.value.y == y && r.value.angle == PI && x <= r.value.x < width - 200.0
           && IsPositionClear(r.value.x, y, obstacles, 250.0)
           && (exists k: nat :: r.value.x == Col(x, k, 80.0))
           && forall k: nat :: Col(x, k, 80.0) < r.value.x ==> !IsPositionClear(Col(x, k, 80.0), y, obstacles, 250.0))
      && (r.None? ==>
           forall k: nat :: Col(x, k, 80.0) < width - 200.0 ==> !IsPositionClear(Col(x, k, 80.0), y, obstacles, 250.0))
  {
    var r := FirstClearInRow(obstacles, width, y, x);
    assert Col(x, 0, 80.0) == x;
    if x < width - 200.0 && !IsPositionClear(x, y, obstacles, 250.0) {
      FirstClearInRowMeaning(obstacles, width, y, x + 80.0);
      assert forall k: nat :: k > 0 ==> Col(x, k, 80.0) == Col(x + 80.0, k - 1, 80.0);
      if r.Some? {
        var k0: nat :| r.value.x == Col(x + 80.0, k0, 80.0);
        assert r.value.x == Col(x, k0 + 1, 80.0);
      }
    } else if x >= width - 200.0 {
      assert forall k: nat :: Col(x, k, 80.0) >= x;
    }
  }

  /** The phase-two candidate: a position and its distance. */
  datatype Best = Best(pos: Pose, dist: Dist)

  /** Keep the farthest-from-obstacles point of one row, scanning right in
      steps of 50 while `x < width - 100`; ties keep the earlier point. */
  function BestInRow(m: MathLib, obstacles: seq<Obstacle>, width: real, y: real, x: real, best: Best): Best
    decreases (width - 100.0 - x).Floor
  {
    if x < width - 100.0 then
      var d := MinDistance(m, x, y, obstacles);
      BestInRow(m, obstacles, width, y, x + 50.0, if Farther(d, best.dist) then Best(Pose(x, y, PI), d) else best)
    else best
  }

  /** The same over the rows scanned downwards from `y` in steps of 50 while
      `y < height - 100`. */
  function BestInGrid(m: MathLib, obstacles: seq<Obstacle>, width: real, height: real, y: real, best: Best): Best
    decreases (height - 100.0 - y).Floor
  {
    if y < height - 100.0 then
      BestInGrid(m, obstacles, width, height, y + 50.0, BestInRow(m, obstacles, width, y, 150.0, best))
    else best
  }

  /** `a` is at least as far as `b`. */
  predicate AtLeast(a: Dist, b: Dist) {
    !Farther(b, a)
  }

  lemma AtLeastTransitive(a: Dist, b: Dist, c: Dist)
    requires AtLeast(a, b) && AtLeast(b, c)
    ensures AtLeast(a, c)
  {
  }

  /** The row's result is at least as far from the obstacles as the
      candidate it started with and as every scan point of the row, and it
      is either that candidate or a scan point at its own distance. */
  lemma {:induction false} BestInRowMeaning(m: MathLib, obstacles: seq<Obstacle>, width: real, y: real, x: real, best: Best)
    decreases (width - 100.0 - x).Floor
    ensures var r := BestInRow(m, obstacles, width, y, x, best);
      && AtLeast(r.dist, best.dist)
      && (r == best || (r.dist == MinDistance(m, r.pos.x, r.pos.y, obstacles) && r.pos.y == y && r.pos.angle == PI))
      && forall k: nat :: Col(x, k, 50.0) < width - 100.0 ==> AtLeast(r.dist, MinDistance(m, Col(x, k, 50.0), y, obstacles))
  {
    if x < width - 100.0 {
      var d := MinDistance(m, x, y, obstacles);
      var next := if Farther(d, best.dist) then Best(Pose(x, y, PI), d) else best;
      BestInRowMeaning(m, obstacles, width, y, x + 50.0, next);
      var r := BestInRow(m, obstacles, width, y, x, best);
      AtLeastTransitive(r.dist, next.dist, best.dist);
      AtLeastTransitive(r.dist, next.dist, d);
      assert Col(x, 0, 50.0) == x;
      assert forall k: nat :: k > 0 ==> Col(x, k, 50.0) == Col(x + 50.0, k - 1, 50.0);
    } else {
      assert forall k: nat :: Col(x, k, 50.0) >= x;
    }
  }

  /** The grid's result is at least as far from the obstacles as every scan
      point of every row, and is the starting candidate or a point at its
      own distance. */
  lemma {:induction false} BestInGridMeaning(m: MathLib, obstacles: seq<Obstacle>, width: real, height: real, y: real, best: Best)
    decreases (height - 100.0 - y).Floor
    ensures var r := BestInGrid(m, obstacles, width, height, y, best);
      && AtLeast(r.dist, best.dist)
      && (r == best || (r.dist == MinDistance(m, r.pos.x, r.pos.y, obstacles) && r.pos.angle == PI))
      && forall j: nat, k: nat :: Col(y, j, 50.0) < height - 100.0 && Col(150.0, k, 50.0) < width - 100.0 ==>
           AtLeast(r.dist, MinDistance(m, Col(150.0, k, 50.0), Col(y, j, 50.0), obstacles))
  {
    if y < height - 100.0 {
      var row := BestInRow(m, obstacles, width, y, 150.0, best);
      BestInRowMeaning(m, obstacles, width, y, 150.0, best);
      BestInGridMeaning(m, obstacles, width, height, y + 50.0, row);
      var r := BestInGrid(m, obstacles, width, height, y, best);
      AtLeastTransitive(r.dist, row.dist, best.dist);
      assert Col(y, 0, 50.0) == y;
      forall j: nat, k: nat | Col(y, j, 50.0) < height - 100.0 && Col(150.0, k, 50.0) < width - 100.0
        ensures AtLeast(r.dist, MinDistance(m, Col(150.0, k, 50.0), Col(y, j, 50.0), obstacles))
      {
        if j == 0 {
          AtLeastTransitive(r.dist, row.dist, MinDistance(m, Col(150.0, k, 50.0), y, obstacles));
        } else {
          assert Col(y, j, 50.0) == Col(y + 50.0, j - 1, 50.0);
        }
      }
    } else {
      assert forall j: nat :: Col(y, j, 50.0) >= y;
    }
  }

  /** `findStartPosition`: the first clear grid point, scanning rows upwards
      from 200 above the bottom; failing that, the point of a finer grid
      farthest from every obstacle centre, starting from the bottom middle. */
  function FindStart(m: MathLib, obstacles: seq<Obstacle>, width: real, height: real): Pose {
    var first := FirstClear(obstacles, width, height - 200.0);
    if first.Some? then first.value
    else BestInGrid(m, obstacles, width, height, 200.0, Best(Pose(width / 2.0, height - 100.0, PI), Finite(0.0))).pos
  }

  // ---------------------------------------------------------------------------
  // Finding a start: the spiral

  /** The point `radius` from (cx, cy) at `angle`, measured from the x axis. */
  function Around(m: MathLib, cx: real, cy: real, radius: real, angle: real): Point {
    Point(cx + m.cos(angle) * radius, cy + m.sin(angle) * radius)
  }

  /** The `k`-th half-radian step of the ring of radius `50 n` around the
      world's centre. */
  function SpiralPoint(m: MathLib, width: real, height: real, n: int, k: nat): Point {
    Around(m, width / 2.0, height / 2.0, 50.0 * n as real, k as real * 0.5)
  }

  /** A spiral point is taken when it is more than 100 inside the world and
      clear by 200. */
  predicate Acceptable(p: Point, width: real, height: real, obstacles: seq<Obstacle>) {
    100.0 < p.x < width - 100.0 && 100.0 < p.y < height - 100.0 && IsPositionClear(p.x, p.y, obstacles, 200.0)
  }

  /** The spiral around the centre: rings of radius 50, 100, ... below 1000,
      each walked in half-radian steps from angle 0 up to 2 PI; the first
      acceptable point wins. */
  function SpiralFrom(m: MathLib, obstacles: seq<Obstacle>, width: real, height: real, n: int, k: nat): Option<Pose>
    decreases 20 - n, 13 - k
  {
    if 50.0 * n as real >= 1000.0 then None
    else
      var p := SpiralPoint(m, width, height, n, k);
      if Acceptable(p, width, height, obstacles) then Some(Pose(p.x, p.y, PI))
      else if k as real * 0.5 + 0.5 > PI * 2.0 then SpiralFrom(m, obstacles, width, height, n + 1, 0)
      else SpiralFrom(m, obstacles, width, height, n, k + 1)
  }

  /** `findCenterStartPosition`: the centre when it is clear by 200, else the
      first spiral point, else the centre anyway. */
  function FindCenterStart(m: MathLib, obstacles: seq<Obstacle>, width: real, height: real): Pose {
    if IsPositionClear(width / 2.0, height / 2.0, obstacles, 200.0) then Pose(width / 2.0, height / 2.0, PI)
    else
      var s := SpiralFrom(m, obstacles, width, height, 1, 0);
      if s.Some? then s.value else Pose(width / 2.0, height / 2.0, PI)
  }

  /** The point the spiral loop computes from its running radius and angle
      is the ring's `k`-th point. */
  lemma SpiralPointAt(m: MathLib, width: real, height: real, n: int, k: nat, radius: real, angle: real)
    requires radius == 50.0 * n as real && angle == k as real * 0.5
    ensures Around(m, width / 2.0, height / 2.0, radius, angle) == SpiralPoint(m, width, height, n, k)
  {
  }

  /** One step of the spiral: an unacceptable point inside the last ring
      passes the search on to the next angle, or to the next ring once the
      angle would pass 2 PI. */
  lemma SpiralStep(m: MathLib, obstacles: seq<Obstacle>, width: real, height: real, n: int, k: nat)
    requires 50.0 * n as real < 1000.0 && !Acceptable(SpiralPoint(m, width, height, n, k), width, height, obstacles)
    ensures k as real * 0.5 + 0.5 > PI * 2.0 ==>
      SpiralFrom(m, obstacles, width, height, n, k) == SpiralFrom(m, obstacles, width, height, n + 1, 0)
    ensures k as real * 0.5 + 0.5 <= PI * 2.0 ==>
      SpiralFrom(m, obstacles, width, height, n, k) == SpiralFrom(m, obstacles, width, height, n, k + 1)
  {
  }

  lemma {:induction false} SpiralFromMeaning(m: MathLib, obstacles: seq<Obstacle>, width: real, height: real, n: int, k: nat)
    decreases 20 - n, 13 - k
    ensures var s := SpiralFrom(m, obstacles, width, height, n, k);
      s.Some? ==> s.value.angle == PI && Acceptable(Point(s.value.x, s.value.y), width, height, obstacles)
  {
    if 50.0 * n as real < 1000.0 && !Acceptable(SpiralPoint(m, width, height, n, k), width, height, obstacles) {
      if k as real * 0.5 + 0.5 > PI * 2.0 {
        SpiralFromMeaning(m, obstacles, width, height, n + 1, 0);
      } else {
        SpiralFromMeaning(m, obstacles, width, height, n, k + 1);
      }
    }
  }

  /** Both searches face the truck down the screen. The centre search
      returns a point clear by 200 and more than 100 inside the world, or the
      centre; a clear centre is always taken. The grid search returns a
      point clear by 250 whenever its first phase finds one. */
  lemma StartMeaning(m: MathLib, obstacles: seq<Obstacle>, width: real, height: real)
    ensures var p := FindCenterStart(m, obstacles, width, height);
      && p.angle == PI
      && (p == Pose(width / 2.0, height / 2.0, PI) ||
          (IsPositionClear(p.x, p.y, obstacles, 200.0) && 100.0 < p.x < width - 100.0 && 100.0 < p.y < height - 100.0))
      && (IsPositionClear(width / 2.0, height / 2.0, obstacles, 200.0) ==> p == Pose(width / 2.0, height / 2.0, PI))
    ensures var p := FindStart(m, obstacles, width, height);
      && p.angle == PI
      && (FirstClear(obstacles, width, height - 200.0).Some? ==> IsPositionClear(p.x, p.y, obstacles, 250.0))
  {
    SpiralFromMeaning(m, obstacles, width, height, 1, 0);
    FirstClearMeaning(obstacles, width, height - 200.0);
    BestInGridMeaning(m, obstacles, width, height, 200.0, Best(Pose(width / 2.0, height - 100.0, PI), Finite(0.0)));
  }

  /** The first phase's result is a point of its scan that faces down and is
      clear by 250, at or above `y`, and every earlier point of its row is
      blocked. */
  lemma {:induction false} FirstClearFound(obstacles: seq<Obstacle>, width: real, y: real)
    decreases (y - 300.0).Floor
    ensures var r := FirstClear(obstacles, width, y);
      r.Some? ==>
        && r.value.angle == PI && IsPositionClear(r.value.x, r.value.y, obstacles, 250.0)
        && 300.0 < r.value.y <= y && (exists j: nat :: r.value.y == Col(y, j, -80.0))
        && 200.0 <= r.value.x < width - 200.0 && (exists k: nat :: r.value.x == Col(200.0, k, 80.0))
        && (forall k: nat :: Col(200.0, k, 80.0) < r.value.x ==>
              !IsPositionClear(Col(200.0, k, 80.0), r.value.y, obstacles, 250.0))
  {
    var r := FirstClear(obstacles, width, y);
    if y > 300.0 && r.Some? {
      FirstClearInRowMeaning(obstacles, width, y, 200.0);
      assert Col(y, 0, -80.0) == y;
      if FirstClearInRow(obstacles, width, y, 200.0).None? {
        FirstClearFound(obstacles, width, y - 80.0);
        var j0: nat :| r.value.y == Col(y - 80.0, j0, -80.0);
        assert r.value.y == Col(y, j0 + 1, -80.0);
      }
    }
  }

  /** Before the first phase's result, every scan point of an earlier row is
      blocked. */
  lemma {:induction false} FirstClearEarlierRows(obstacles: seq<Obstacle>, width: real, y: real)
    decreases (y - 300.0).Floor
    ensures var r := FirstClear(obstacles, width, y);
      r.Some? ==>
        forall j: nat, k: nat :: Col(y, j, -80.0) > r.value.y && Col(200.0, k, 80.0) < width - 200.0 ==>
          !IsPositionClear(Col(200.0, k, 80.0), Col(y, j, -80.0), obstacles, 250.0)
  {
    var r := FirstClear(obstacles, width, y);
    if y > 300.0 && r.Some? {
      FirstClearInRowMeaning(obstacles, width, y, 200.0);
      if FirstClearInRow(obstacles, width, y, 200.0).Some? {
        forall j: nat ensures Col(y, j, -80.0) <= y { }
      } else {
        FirstClearEarlierRows(obstacles, width, y - 80.0);
        FirstClearFound(obstacles, width, y - 80.0);
        forall j: nat, k: nat | Col(y, j, -80.0) > r.value.y && Col(200.0, k, 80.0) < width - 200.0
          ensures !IsPositionClear(Col(200.0, k, 80.0), Col(y, j, -80.0), obstacles, 250.0)
        {
          if j > 0 {
            assert Col(y, j, -80.0) == Col(y - 80.0, j - 1, -80.0);
          } else {
            assert Col(y, j, -80.0) == y;
          }
        }
      }
    }
  }

  /** The first phase's result is the first clear point of the scan, rows
      from `y` upwards in steps of 80 while above 300, each row from 200
      rightwards in steps of 80: every point of an earlier row, and every
      earlier point of its own row, is blocked. */
  lemma FirstClearMeaning(obstacles: seq<Obstacle>, width: real, y: real)
    ensures var r := FirstClear(obstacles, width, y);
      r.Some? ==>
        && r.value.angle == PI && IsPositionClear(r.value.x, r.value.y, obstacles, 250.0)
        && r.value.y > 300.0 && (exists j: nat :: r.value.y == Col(y, j, -80.0))
        && 200.0 <= r.value.x < width - 200.0 && (exists k: nat :: r.value.x == Col(200.0, k, 80.0))
        && (forall j: nat, k: nat :: Col(y, j, -80.0) > r.value.y && Col(200.0, k, 80.0) < width - 200.0 ==>
              !IsPositionClear(Col(200.0, k, 80.0), Col(y, j, -80.0), obstacles, 250.0))
        && (forall k: nat :: Col(200.0, k, 80.0) < r.value.x ==>
              !IsPositionClear(Col(200.0, k, 80.0), r.value.y, obstacles, 250.0))
  {
    FirstClearFound(obstacles, width, y);
    FirstClearEarlierRows(obstacles, width, y);
  }

  /** When the first phase finds nothing, every point of its scan is
      blocked. */
  lemma {:induction false} FirstClearExhausted(obstacles: seq<Obstacle>, width: real, y: real)
    decreases (y - 300.0).Floor
    ensures FirstClear(obstacles, width, y).None? ==>
      forall j: nat, k: nat :: Col(y, j, -80.0) > 300.0 && Col(200.0, k, 80.0) < width - 200.0 ==>
        !IsPositionClear(Col(200.0, k, 80.0), Col(y, j, -80.0), obstacles, 250.0)
  {
    if FirstClear(obstacles, width, y).None? {
      if y > 300.0 {
        FirstClearInRowMeaning(obstacles, width, y, 200.0);
        FirstClearExhausted(obstacles, width, y - 80.0);
        forall j: nat, k: nat | Col(y, j, -80.0) > 300.0 && Col(200.0, k, 80.0) < width - 200.0
          ensures !IsPositionClear(Col(200.0, k, 80.0), Col(y, j, -80.0), obstacles, 250.0)
        {
          if j > 0 {
            assert Col(y, j, -80.0) == Col(y - 80.0, j - 1, -80.0);
          } else {
            assert Col(y, j, -80.0) == y;
          }
        }
      } else {
        forall j: nat ensures Col(y, j, -80.0) <= y { }
      }
    }
  }

  /** What the second phase of the grid search promises of its result `p`:
      `p` is at least as far from the nearest obstacle centre as every grid
      point, or it is the bottom-middle fallback and no grid point is more
      than 0 from its nearest obstacle centre. */
  ghost predicate GridFallback(m: MathLib, obstacles: seq<Obstacle>, width: real, height: real, p: Pose) {
    || (forall j: nat, k: nat :: Col(200.0, j, 50.0) < height - 100.0 && Col(150.0, k, 50.0) < width - 100.0 ==>
          AtLeast(MinDistance(m, p.x, p.y, obstacles), MinDistance(m, Col(150.0, k, 50.0), Col(200.0, j, 50.0), obstacles)))
    || (&& p == Pose(width / 2.0, height - 100.0, PI)
        && forall j: nat, k: nat :: Col(200.0, j, 50.0) < height - 100.0 && Col(150.0, k, 50.0) < width - 100.0 ==>
             AtLeast(Finite(0.0), MinDistance(m, Col(150.0, k, 50.0), Col(200.0, j, 50.0), obstacles)))
  }

  /** The grid search returns the first clear point of its first phase when
      there is one. Otherwise it returns a point at least as far from the
      nearest obstacle centre as every point of the finer grid (rows from 200
      and columns from 150 in steps of 50, more than 100 inside the world),
      or the bottom-middle fallback, which is kept only when no grid point is
      more than 0 from its nearest obstacle centre. */
  lemma FindStartMeaning(m: MathLib, obstacles: seq<Obstacle>, width: real, height: real)
    ensures var p, first := FindStart(m, obstacles, width, height), FirstClear(obstacles, width, height - 200.0);
      && (first.Some? ==> p == first.value)
      && (first.None? ==> GridFallback(m, obstacles, width, height, p))
  {
    BestInGridMeaning(m, obstacles, width, height, 200.0, Best(Pose(width / 2.0, height - 100.0, PI), Finite(0.0)));
  }

  // ---------------------------------------------------------------------------
  // The level

  /** Three dock obstacles around a bay: a barrier either side and a wall
      across the top. */
  function Docks(zone: Rect): (d: seq<Obstacle>)
    ensures |d| == 3 && d[0].kind == Barrier && d[1].kind == Barrier && d[2].kind == Wall
    ensures d[0].box.x + d[0].box.width < zone.x && zone.x + zone.width < d[1].box.x
    ensures d[2].box.x < zone.x && zone.x + zone.width < d[2].box.x + d[2].box.width
  {
    [Block(Barrier, zone.x - 15.0, zone.y, 10.0, zone.height),
     Block(Barrier, zone.x + zone.width + 5.0, zone.y, 10.0, zone.height),
     Block(Wall, zone.x - 100.0, 40.0, zone.width + 200.0, 15.0)]
  }

  /** The bay used when no car park qualifies: top centre of the world. */
  function DefaultBay(width: real): Rect {
    Rect(width / 2.0 - 28.0 + 50.0, 60.0, 56.0, 170.0, 0.0)
  }

  /** `convertToLevel`. */
  function Converted(m: MathLib, elements: seq<Element>, bbox: BBox, freeRoam: bool): OsmLevel
    requires Proper(bbox)
  {
    var width := WorldWidth(bbox.radiusMeters, freeRoam);
    var height := WorldHeight(width);
    var ways := WaysOf(NodeIndex(elements), Grid(bbox, width, height), elements);
    var zone := if ways.zone.Some? then ways.zone.value else DefaultBay(width);
    var start := if freeRoam then FindCenterStart(m, ways.obstacles, width, height)
                 else FindStart(m, ways.obstacles, width, height);
    var obstacles := if |ways.obstacles| < 3 && !freeRoam then ways.obstacles + Docks(zone) else ways.obstacles;
    OsmLevel(Level(Named("osm-custom"), if freeRoam then "Free Roam" else "Real World Map", "",
                   start, if freeRoam then None else Some(zone), obstacles),
             ways.roads, freeRoam, width, height)
  }

  /** The level of a map area: the world is 2000 to 60000 wide and seven
      tenths as high (exactly 2000 x 1400 outside free roam); free roam has
      no bay, otherwise the bay is 56 x 170; fewer than three obstacles
      outside free roam get exactly the three docks appended; the truck faces
      down the screen. */
  lemma ConvertedMeaning(m: MathLib, elements: seq<Element>, bbox: BBox, freeRoam: bool)
    requires Proper(bbox)
    ensures var r := Converted(m, elements, bbox, freeRoam);
      var ways := WaysOf(NodeIndex(elements), Grid(bbox, r.worldWidth, r.worldHeight), elements);
      && 2000.0 <= r.worldWidth <= 60000.0
      && r.worldWidth * 0.7 - 0.5 < r.worldHeight <= r.worldWidth * 0.7 + 0.5
      && (!freeRoam ==> r.worldWidth == 2000.0 && r.worldHeight == 1400.0)
      && (r.level.parkingZone.None? <==> freeRoam)
      && (r.level.parkingZone.Some? ==> r.level.parkingZone.value.width == 56.0 && r.level.parkingZone.value.height == 170.0)
      && (!freeRoam && |ways.obstacles| < 3 ==>
            |r.level.obstacles| == |ways.obstacles| + 3 && r.level.obstacles[..|ways.obstacles|] == ways.obstacles)
      && (freeRoam || |ways.obstacles| >= 3 ==> r.level.obstacles == ways.obstacles)
      && r.roads == ways.roads
      && Sound(ways)
      && r.level.truck.angle == PI
  {
    var width := WorldWidth(bbox.radiusMeters, freeRoam);
    var height := WorldHeight(width);
    FixedWorld(bbox.radiusMeters);
    WaysOfSound(NodeIndex(elements), Grid(bbox, width, height), elements);
    StartMeaning(m, WaysOf(NodeIndex(elements), Grid(bbox, width, height), elements).obstacles, width, height);
  }

  // ---------------------------------------------------------------------------
  // The loader

  class OsmMapLoader {
    const overpassUrl: string
    /** Whether the last area was loaded for free roam. */
    var freeRoam: bool

    constructor()
      ensures overpassUrl == "https://overpass-api.de/api/interpreter" && !freeRoam
    {
      overpassUrl := "https://overpass-api.de/api/interpreter";
      freeRoam := false;
    }

    /** `loadArea`, with the Overpass answer for the area passed in. */
    method LoadArea(m: MathLib, lat: real, lon: real, radius: real, freeRoam: bool, fetched: seq<Element>)
      returns (r: OsmLevel)
      requires radius != 0.0 && m.cos(lat * PI / 180.0) != 0.0
      modifies this`freeRoam
      ensures Proper(GetBoundingBox(m, lat, lon, radius))
      ensures this.freeRoam == freeRoam
      ensures r == Converted(m, fetched, GetBoundingBox(m, lat, lon, radius), freeRoam)
    {
      this.freeRoam := freeRoam;
      var bbox := GetBoundingBox(m, lat, lon, radius);
      r := ConvertToLevel(m, fetched, bbox);
    }

    /** `convertToLevel`: index the nodes, turn the ways into obstacles,
        roads and a bay, then place the truck and, when the map is nearly
        empty, the docks. */
    method ConvertToLevel(m: MathLib, elements: seq<Element>, bbox: BBox) returns (r: OsmLevel)
      requires Proper(bbox)
      ensures r == Converted(m, elements, bbox, freeRoam)
    {
      var nodes: map<int, LatLon> := map[];
      for i := 0 to |elements|
        invariant nodes == NodeIndex(elements[..i])
      {
        assert elements[..i + 1][..i] == elements[..i];
        var e := elements[i];
        if e.Node? {
          nodes := nodes[e.id := LatLon(e.lat, e.lon)];
        }
      }
      assert elements[..|elements|] == elements;
      var gameWidth := WorldWidth(bbox.radiusMeters, freeRoam);
      var gameHeight := WorldHeight(gameWidth);
      var g := Grid(bbox, gameWidth, gameHeight);
      var ways := CollectWays(nodes, g, elements);
      var obstacles, roads, parkingZone := ways.obstacles, ways.roads, ways.zone;
      var zone := if parkingZone.Some? then parkingZone.value else DefaultBay(gameWidth);
      var truckStart: Pose;
      if freeRoam {
        truckStart := FindCenterStartPosition(m, obstacles, gameWidth, gameHeight);
      } else {
        truckStart := FindStartPosition(m, obstacles, gameWidth, gameHeight);
      }
      if |obstacles| < 3 && !freeRoam {
        obstacles := obstacles + Docks(zone);
      }
      r := OsmLevel(Level(Named("osm-custom"), if freeRoam then "Free Roam" else "Real World Map", "",
                          truckStart, if freeRoam then None else Some(zone), obstacles),
                    roads, freeRoam, gameWidth, gameHeight);
    }

    /** The way loop of `convertToLevel`: obstacles, roads and the bay, way
        by way. */
    static method CollectWays(nodes: map<int, LatLon>, g: Grid, elements: seq<Element>) returns (w: Ways)
      requires Proper(g.bbox)
      ensures w == WaysOf(nodes, g, elements)
    {
      var obstacles: seq<Obstacle> := [];
      var roads: seq<Road> := [];
      var parkingZone: Option<Rect> := None;
      for i := 0 to |elements|
        invariant Ways(obstacles, roads, parkingZone) == WaysOf(nodes, g, elements[..i])
      {
        assert elements[..i + 1][..i] == elements[..i];
        var e := elements[i];
        if e.Way? {
          var coords := Resolve(nodes, e.nodeIds);
          if |coords| >= 2 {
            var gameCoords := ToGameAll(g, coords);
            BoxOfMeaning(gameCoords);
            var b := BoxOf(gameCoords).value;
            var width := b.maxX - b.minX;
            var height := b.maxY - b.minY;
            if width < 5.0 || height < 5.0 || width > 800.0 || height > 600.0 {
            } else if e.tags.amenity == "parking" {
              if parkingZone.None? && width > 40.0 && height > 40.0 {
                parkingZone := Some(BayIn(b));
              }
            } else if e.tags.highway != "" {
              roads := roads + [Road(gameCoords, e.tags.highway, e.tags.name)];
            } else if e.tags.building != "" {
              obstacles := obstacles + [Block(Wall, b.minX, b.minY, Max(width, 15.0), Max(height, 15.0))];
            } else if e.tags.barrier != "" {
              obstacles := obstacles + [Block(Barrier, b.minX, b.minY, Max(width, 10.0), Max(height, 10.0))];
            }
          }
        }
      }
      assert elements[..|elements|] == elements;
      w := Ways(obstacles, roads, parkingZone);
    }

    /** `getMinDistanceToObstacle`. */
    static method GetMinDistanceToObstacle(m: MathLib, x: real, y: real, obstacles: seq<Obstacle>) returns (d: Dist)
      ensures d == MinDistance(m, x, y, obstacles)
    {
      d := Infinite;
      for i := 0 to |obstacles|
        invariant d == MinDistance(m, x, y, obstacles[..i])
      {
        assert obstacles[..i + 1][..i] == obstacles[..i];
        d := Nearer(d, Finite(CentreDistance(m, x, y, obstacles[i])));
      }
      assert obstacles[..|obstacles|] == obstacles;
    }

    /** `findStartPosition`. */
    static method FindStartPosition(m: MathLib, obstacles: seq<Obstacle>, width: real, height: real) returns (p: Pose)
      ensures p == FindStart(m, obstacles, width, height)
      ensures FirstClear(obstacles, width, height - 200.0).Some? ==> p == FirstClear(obstacles, width, height - 200.0).value
      ensures FirstClear(obstacles, width, height - 200.0).None? ==> GridFallback(m, obstacles, width, height, p)
    {
      FindStartMeaning(m, obstacles, width, height);
      var margin := 250.0;
      var y := height - 200.0;
      while y > 300.0
        invariant FirstClear(obstacles, width, y) == FirstClear(obstacles, width, height - 200.0)
        decreases (y - 300.0).Floor
      {
        var x := 200.0;
        while x < width - 200.0
          invariant FirstClearInRow(obstacles, width, y, x) == FirstClearInRow(obstacles, width, y, 200.0)
          decreases (width - 200.0 - x).Floor
        {
          if IsPositionClear(x, y, obstacles, margin) {
            return Pose(x, y, PI);
          }
          x := x + 80.0;
        }
        y := y - 80.0;
      }
      var bestPos := Pose(width / 2.0, height - 100.0, PI);
      var bestDist := Finite(0.0);
      y := 200.0;
      while y < height - 100.0
        invariant BestInGrid(m, obstacles, width, height, y, Best(bestPos, bestDist))
               == BestInGrid(m, obstacles, width, height, 200.0, Best(Pose(width / 2.0, height - 100.0, PI), Finite(0.0)))
        decreases (height - 100.0 - y).Floor
      {
        ghost var rowStart := Best(bestPos, bestDist);
        var x := 150.0;
        while x < width - 100.0
          invariant BestInRow(m, obstacles, width, y, x, Best(bestPos, bestDist))
                 == BestInRow(m, obstacles, width, y, 150.0, rowStart)
          decreases (width - 100.0 - x).Floor
        {
          var dist := GetMinDistanceToObstacle(m, x, y, obstacles);
          if Farther(dist, bestDist) {
            bestDist := dist;
            bestPos := Pose(x, y, PI);
          }
          x := x + 50.0;
        }
        y := y + 50.0;
      }
      p := bestPos;
    }

    /** `findCenterStartPosition`. */
    static method FindCenterStartPosition(m: MathLib, obstacles: seq<Obstacle>, width: real, height: real) returns (p: Pose)
      ensures p == FindCenterStart(m, obstacles, width, height)
    {
      var centerX := width / 2.0;
      var centerY := height / 2.0;
      var margin := 200.0;
      if IsPositionClear(centerX, centerY, obstacles, margin) {
        return Pose(centerX, centerY, PI);
      }
      var radius := 50.0;
      var angle := 0.0;
      ghost var n: int, k: nat := 1, 0;
      while radius < 1000.0
        invariant radius == 50.0 * n as real && angle == k as real * 0.5 && k <= 12
        invariant SpiralFrom(m, obstacles, width, height, n, k) == SpiralFrom(m, obstacles, width, height, 1, 0)
        decreases 20 - n, 13 - k
      {
        var point := Around(m, centerX, centerY, radius, angle);
        SpiralPointAt(m, width, height, n, k, radius, angle);
        var x, y := point.x, point.y;
        if x > 100.0 && x < width - 100.0 && y > 100.0 && y < height - 100.0 {
          if IsPositionClear(x, y, obstacles, margin) {
            return Pose(x, y, PI);
          }
        }
        SpiralStep(m, obstacles, width, height, n, k);
        angle := angle + 0.5;
        if angle > PI * 2.0 {
          angle := 0.0;
          radius := radius + 50.0;
          n, k := n + 1, 0;
        } else {
          k := k + 1;
        }
      }
      p := Pose(centerX, centerY, PI);
    }
  }
}

=== FILE: settings.dfy ===
/** Player settings: which guide lines to draw for the cab and the trailer,
    restored from storage over the defaults, and a list of subscribers told
    about every change. Storage is a value the manager is given and writes;
    listeners are identified by name and a notification is recorded as a
    delivery. */
module Settings {
  import opened World

  /** Guide lines of one vehicle part: drawn at all, ahead, behind. */
  datatype GuideFlags = GuideFlags(enabled: bool, front: bool, back: bool)

  datatype GuideLines = GuideLines(truck: GuideFlags, trailer: GuideFlags)

  datatype Settings = Settings(guideLines: GuideLines)

  /** Guide lines for the cab both ways; for the trailer only behind. */
  const Defaults: Settings :=
    Settings(GuideLines(GuideFlags(true, true, true), GuideFlags(true, false, true)))

  /** Settings as read back from storage: any key may be missing. */
  datatype SavedFlags = SavedFlags(enabled: Option<bool>, front: Option<bool>, back: Option<bool>)

  datatype SavedGuideLines = SavedGuideLines(truck: Option<SavedFlags>, trailer: Option<SavedFlags>)

  datatype SavedSettings = SavedSettings(guideLines: Option<SavedGuideLines>)

  function Pick(saved: Option<bool>, default: bool): (b: bool)
    ensures saved.Some? ==> b == saved.value
    ensures saved.None? ==> b == default
  {
    if saved.Some? then saved.value else default
  }

  /** `{ ...defaults, ...saved }` on one group of flags. */
  function Overlay(defaults: GuideFlags, saved: Option<SavedFlags>): GuideFlags {
    if saved.None? then defaults
    else GuideFlags(Pick(saved.value.enabled, defaults.enabled),
                    Pick(saved.value.front, defaults.front),
                    Pick(saved.value.back, defaults.back))
  }

  /** `mergeDefaults(saved)`. */
  function MergeDefaults(saved: SavedSettings): Settings {
    var g := if saved.guideLines.Some? then saved.guideLines.value else SavedGuideLines(None, None);
    Settings(GuideLines(Overlay(Defaults.guideLines.truck, g.truck),
                        Overlay(Defaults.guideLines.trailer, g.trailer)))
  }

  /** Every flag is the saved one where saved and the default otherwise. */
  lemma MergeDefaultsMeaning(saved: SavedSettings, t: SavedFlags, r: SavedFlags)
    ensures saved.guideLines.None? ==> MergeDefaults(saved) == Defaults
    ensures saved.guideLines == Some(SavedGuideLines(Some(t), Some(r))) ==>
      var s := MergeDefaults(saved).guideLines;
      && s.truck.enabled == Pick(t.enabled, true) && s.truck.front == Pick(t.front, true)
      && s.truck.back == Pick(t.back, true)
      && s.trailer.enabled == Pick(r.enabled, true) && s.trailer.front == Pick(r.front, false)
      && s.trailer.back == Pick(r.back, true)
    ensures saved.guideLines.Some? && saved.guideLines.value.truck.None? ==>
      MergeDefaults(saved).guideLines.truck == Defaults.guideLines.truck
    ensures saved.guideLines.Some? && saved.guideLines.value.trailer.None? ==>
      MergeDefaults(saved).guideLines.trailer == Defaults.guideLines.trailer
  {
  }

  /** What `save()` writes, as it reads back: every key present. */
  function Stored(s: Settings): SavedSettings {
    var f := (g: GuideFlags) => SavedFlags(Some(g.enabled), Some(g.front), Some(g.back));
    SavedSettings(Some(SavedGuideLines(Some(f(s.guideLines.truck)), Some(f(s.guideLines.trailer)))))
  }

  /** Loading what was saved gives back exactly the settings that were saved. */
  lemma SaveThenLoad(s: Settings)
    ensures MergeDefaults(Stored(s)) == s
  {
  }

  /** `load()`: the saved settings over the defaults, or the defaults when
      nothing is stored or what is stored does not parse. */
  function Load(stored: Option<SavedSettings>): (s: Settings)
    ensures stored.None? ==> s == Defaults
    ensures stored.Some? ==> s == MergeDefaults(stored.value)
  {
    if stored.Some? then MergeDefaults(stored.value) else Defaults
  }

  /** A subscriber, by name. */
  type Listener = string

  /** What a notification carries: the new guide lines, or all settings after a reset. */
  datatype Change = GuideLinesChanged(guideLines: GuideLines) | WasReset(settings: Settings)

  function Key(c: Change): string {
    match c
    case GuideLinesChanged(_) => "guideLines"
    case WasReset(_) => "reset"
  }

  /** One call of a listener with a key and a value. */
  datatype Delivery = Delivery(to: Listener, key: string, change: Change)

  /** The calls `notifyListeners` makes: each listener once, in order. */
  function Deliveries(listeners: seq<Listener>, c: Change): (d: seq<Delivery>)
    ensures |d| == |listeners|
    ensures forall i :: 0 <= i < |d| ==> d[i] == Delivery(listeners[i], Key(c), c)
  {
    seq(|listeners|, i requires 0 <= i < |listeners| => Delivery(listeners[i], Key(c), c))
  }

  /** `listeners.filter(l => l !== callback)`. */
  function Without(listeners: seq<Listener>, callback: Listener): (r: seq<Listener>)
    ensures forall l :: l in r <==> l in listeners && l != callback
    ensures |r| <= |listeners|
  {
    if listeners == [] then []
    else if listeners[0] == callback then Without(listeners[1..], callback)
    else [listeners[0]] + Without(listeners[1..], callback)
  }

  /** Removing a callback keeps the others in their order: it works piece by
      piece along the list, and drops exactly the callback's registrations. */
  lemma {:induction false} WithoutKeepsOrder(a: seq<Listener>, b: seq<Listener>, callback: Listener)
    ensures Without(a + b, callback) == Without(a, callback) + Without(b, callback)
    ensures multiset(Without(a, callback)) == multiset(a)[callback := 0]
  {
    if a == [] {
      assert a + b == b;
    } else {
      assert (a + b)[1..] == a[1..] + b;
      WithoutKeepsOrder(a[1..], b, callback);
      assert a == [a[0]] + a[1..];
    }
  }

  class SettingsManager {
    var settings: Settings
    var listeners: seq<Listener>
    /** What the storage holds; written by every `save()`. */
    var storage: Option<SavedSettings>
    /** Every listener call made so far, oldest first. */
    var deliveries: seq<Delivery>

    /** Starts from storage, with no listeners. */
    constructor (stored: Option<SavedSettings>)
      ensures settings == Load(stored) && storage == stored
      ensures listeners == [] && deliveries == []
    {
      settings := Load(stored);
      storage := stored;
      listeners := [];
      deliveries := [];
    }

    /** `save()`. */
    method Save()
      modifies this`storage
      ensures storage == Some(Stored(settings))
    {
      storage := Some(Stored(settings));
    }

    function GetGuideLineSettings(): GuideLines
      reads this
    {
      settings.guideLines
    }

    /** `notifyListeners(key, value)`: each listener called once, in the
        order they subscribed. */
    method NotifyListeners(c: Change)
      modifies this`deliveries
      ensures deliveries == old(deliveries) + Deliveries(listeners, c)
    {
      var i := 0;
      while i < |listeners|
        invariant 0 <= i <= |listeners|
        invariant deliveries == old(deliveries) + Deliveries(listeners[..i], c)
      {
        assert listeners[..i + 1] == listeners[..i] + [listeners[i]];
        deliveries := deliveries + [Delivery(listeners[i], Key(c), c)];
        i := i + 1;
      }
      assert listeners[..i] == listeners;
    }

    /** `setGuideLineSettings(g)`: replaced, saved and announced; reading the
        guide lines back gives `g`. */
    method SetGuideLineSettings(g: GuideLines)
      modifies this`settings, this`storage, this`deliveries
      ensures settings == old(settings).(guideLines := g) && GetGuideLineSettings() == g
      ensures storage == Some(Stored(settings))
      ensures deliveries == old(deliveries) + Deliveries(listeners, GuideLinesChanged(g))
    {
      settings := settings.(guideLines := g);
      Save();
      NotifyListeners(GuideLinesChanged(g));
    }

    /** `subscribe(callback)`. */
    method Subscribe(callback: Listener)
      modifies this`listeners
      ensures listeners == old(listeners) + [callback]
    {
      listeners := listeners + [callback];
    }

    /** The function `subscribe` returns: drops every registration of the
        callback and keeps the rest in order. */
    method Unsubscribe(callback: Listener)
      modifies this`listeners
      ensures listeners == Without(old(listeners), callback)
      ensures callback !in listeners
    {
      listeners := Without(listeners, callback);
    }

    /** `reset()`: the defaults, saved and announced with the key "reset". */
    method Reset()
      modifies this`settings, this`storage, this`deliveries
      ensures settings == Defaults && storage == Some(Stored(Defaults))
      ensures deliveries == old(deliveries) + Deliveries(listeners, WasReset(Defaults))
    {
      settings := Defaults;
      Save();
      NotifyListeners(WasReset(settings));
    }
  }
}

=== FILE: truck.dfy ===
/** The original single-class truck: cab and trailer in one object, with the
    trailer kept as a centre, a heading and fixed link lengths (45 from the
    cab's centre to the hitch, 70 from the hitch to the trailer's centre). */
module Truck {
  import opened JsMath
  import opened World
  import Vehicle
  import Collision
  import opened Kinematics

  /** `updateTrailerPhysics` on values. Further than 0.1 from the hitch the
      trailer turns 15% of the way towards it, and its centre is pulled back to
      `link` from the hitch when it is off by more than 0.1; the heading is
      normalised in every case. */
  function TrailerStep(m: MathLib, t: Pose, hitch: Point, link: real): Pose {
    var dist := Vehicle.Distance(m, Point(t.x, t.y), hitch);
    if dist > 0.1 then
      if Abs(dist - link) > 0.1 then
        Pose(Vehicle.Pulled(t.x, hitch.x, dist, link), Vehicle.Pulled(t.y, hitch.y, dist, link),
             Vehicle.Turned(m, t, hitch, 0.15))
      else Pose(t.x, t.y, Vehicle.Turned(m, t, hitch, 0.15))
    else Pose(t.x, t.y, Wrap(t.angle))
  }

  /** Squaring keeps the order of non-negative numbers. */
  lemma SquareBetween(lo: real, d: real, hi: real)
    requires 0.0 <= lo <= d <= hi
    ensures lo * lo <= d * d <= hi * hi
  {
    assert lo * lo <= lo * d <= d * d;
    assert d * d <= d * hi <= hi * hi;
  }

  /** Off by more than 0.1, the trailer is pulled back to exactly `link`
      from the hitch, along the line to it. */
  lemma TrailerStepSnaps(m: MathLib, t: Pose, hitch: Point, link: real)
    requires Lawful(m)
    requires Vehicle.Distance(m, Point(t.x, t.y), hitch) > 0.1
    requires Abs(Vehicle.Distance(m, Point(t.x, t.y), hitch) - link) > 0.1
    ensures var q := TrailerStep(m, t, hitch, link);
      && Vehicle.SquaredGap(Point(q.x, q.y), hitch) == link * link
      && Vehicle.Collinear(Point(t.x, t.y), Point(q.x, q.y), hitch)
  {
    var dist := Vehicle.Distance(m, Point(t.x, t.y), hitch);
    var qx, qy := Vehicle.Pulled(t.x, hitch.x, dist, link), Vehicle.Pulled(t.y, hitch.y, dist, link);
    assert TrailerStep(m, t, hitch, link) == Pose(qx, qy, Vehicle.Turned(m, t, hitch, 0.15));
    Vehicle.PulledPoint(m, Point(t.x, t.y), hitch, link);
  }

  /** Off by more than 0.1, the correction moves the trailer towards the
      hitch and keeps it on its own side: its offset from the hitch is the old
      offset scaled by `link / dist`, and it moves by exactly `dist - link`. */
  lemma TrailerStepTowards(m: MathLib, t: Pose, hitch: Point, link: real)
    requires Lawful(m)
    requires Vehicle.Distance(m, Point(t.x, t.y), hitch) > 0.1
    requires Abs(Vehicle.Distance(m, Point(t.x, t.y), hitch) - link) > 0.1
    ensures var q := TrailerStep(m, t, hitch, link);
      Vehicle.PulledBy(Point(t.x, t.y), hitch, Point(q.x, q.y), Vehicle.Distance(m, Point(t.x, t.y), hitch), link)
  {
    var dist := Vehicle.Distance(m, Point(t.x, t.y), hitch);
    var qx, qy := Vehicle.Pulled(t.x, hitch.x, dist, link), Vehicle.Pulled(t.y, hitch.y, dist, link);
    assert TrailerStep(m, t, hitch, link) == Pose(qx, qy, Vehicle.Turned(m, t, hitch, 0.15));
    Vehicle.PulledTowardsHitch(m, Point(t.x, t.y), hitch, link);
  }

  /** The heading always ends normalised. Within 0.1 of the hitch the trailer
      does not move. Otherwise it moves only along the line to the hitch and
      ends within 0.1 of the link length from it: exactly on it after a
      correction, and already within 0.1 when no correction was made. */
  lemma TrailerStepMeaning(m: MathLib, t: Pose, hitch: Point, link: real)
    requires Lawful(m)
    requires link >= 0.1
    ensures var q := TrailerStep(m, t, hitch, link);
      && -PI <= q.angle <= PI
      && (Vehicle.SquaredGap(Point(t.x, t.y), hitch) <= 0.01 ==> q == Pose(t.x, t.y, Wrap(t.angle)))
      && (Vehicle.SquaredGap(Point(t.x, t.y), hitch) > 0.01 ==>
            && (link - 0.1) * (link - 0.1) <= Vehicle.SquaredGap(Point(q.x, q.y), hitch) <= (link + 0.1) * (link + 0.1)
            && Vehicle.Collinear(Point(t.x, t.y), Point(q.x, q.y), hitch)
            && q.angle == Vehicle.Turned(m, t, hitch, 0.15))
      && (var dist := Vehicle.Distance(m, Point(t.x, t.y), hitch);
          dist > 0.1 ==>
            && (Abs(dist - link) <= 0.1 ==> q.x == t.x && q.y == t.y)
            && (Abs(dist - link) > 0.1 ==> Vehicle.PulledBy(Point(t.x, t.y), hitch, Point(q.x, q.y), dist, link)))
  {
    var dist := Vehicle.Distance(m, Point(t.x, t.y), hitch);
    Vehicle.RootBelowTenth(dist, Vehicle.SquaredGap(Point(t.x, t.y), hitch));
    WrapRange(t.angle);
    if dist > 0.1 {
      if Abs(dist - link) > 0.1 {
        TrailerStepSnaps(m, t, hitch, link);
        TrailerStepTowards(m, t, hitch, link);
        SquareBetween(link - 0.1, link, link + 0.1);
      } else {
        assert TrailerStep(m, t, hitch, link) == Pose(t.x, t.y, Vehicle.Turned(m, t, hitch, 0.15));
        SquareBetween(link - 0.1, dist, link + 0.1);
      }
    }
  }

  class Truck {
    var x: real
    var y: real
    var angle: real
    const width: real := 40.0
    const height: real := 60.0
    var speed: real
    var steeringAngle: real
    /** Top speed 3, acceleration 0.08, coasting 0.03, brake 0.1. */
    const throttle: Throttle := Throttle(3.0, 0.08, 0.03, 0.1)
    /** A 30 degree lock, turned 0.05 per tick and returned 0.08 per tick. */
    const steering: Steering := Steering(PI / 6.0, 0.05, 0.08)
    var trailerAngle: real
    const trailerWidth: real := 50.0
    const trailerHeight: real := 120.0
    const cabToHitch: real := 45.0
    const hitchToTrailerCenter: real := 70.0
    var trailerCenterX: real
    var trailerCenterY: real

    function Pose(): Pose
      reads this
    {
      World.Pose(x, y, angle)
    }

    function TrailerPose(): Pose
      reads this
    {
      World.Pose(trailerCenterX, trailerCenterY, trailerAngle)
    }

    /** The wheel within its lock and the speed between full reverse and top speed. */
    predicate WithinLimits()
      reads this
    {
      -steering.maxAngle <= steeringAngle <= steering.maxAngle && InSpeedBand(speed, throttle)
    }

    /** `getHitchPoint`: 45 behind the cab's centre. */
    function HitchPoint(m: MathLib): (p: Point)
      reads this
      ensures Lawful(m) ==> (p.x - x) * (p.x - x) + (p.y - y) * (p.y - y) == cabToHitch * cabToHitch
    {
      Vehicle.BehindDistance(m, Point(x, y), angle, cabToHitch);
      Vehicle.Behind(m, Point(x, y), angle, cabToHitch)
    }

    /** `getTrailerFrontPoint`: half the trailer's length ahead of its centre. */
    function TrailerFrontPoint(m: MathLib): (p: Point)
      reads this
      ensures Lawful(m) ==>
        var dx, dy := p.x - trailerCenterX, p.y - trailerCenterY;
        dx * dx + dy * dy == (trailerHeight / 2.0) * (trailerHeight / 2.0)
    {
      Vehicle.AheadDistance(m, Point(trailerCenterX, trailerCenterY), trailerAngle, trailerHeight / 2.0);
      Vehicle.Ahead(m, Point(trailerCenterX, trailerCenterY), trailerAngle, trailerHeight / 2.0)
    }

    /** The normalised angle between cab and trailer. */
    function JackknifeAngle(): (j: real)
      reads this
      ensures -PI <= j <= PI
      ensures angle == trailerAngle ==> j == 0.0
    {
      WrapRange(angle - trailerAngle);
      Wrap(angle - trailerAngle)
    }

    /** `getTruckCorners`: corners that mirror each other through the cab's centre. */
    function TruckCorners(m: MathLib): (c: seq<Point>)
      reads this
      ensures |c| == 4
      ensures c[0].x + c[2].x == 2.0 * x && c[0].y + c[2].y == 2.0 * y
      ensures c[1].x + c[3].x == 2.0 * x && c[1].y + c[3].y == 2.0 * y
    {
      Collision.TurnedCornersCentred(m, x, y, width, height, angle);
      Vehicle.Corners(m, Vehicle.Body(x, y, angle, width, height))
    }

    /** `getTrailerCorners`: corners that mirror each other through the trailer's centre. */
    function TrailerCorners(m: MathLib): (c: seq<Point>)
      reads this
      ensures |c| == 4
      ensures c[0].x + c[2].x == 2.0 * trailerCenterX && c[0].y + c[2].y == 2.0 * trailerCenterY
      ensures c[1].x + c[3].x == 2.0 * trailerCenterX && c[1].y + c[3].y == 2.0 * trailerCenterY
    {
      var b := Vehicle.Body(trailerCenterX, trailerCenterY, trailerAngle, trailerWidth, trailerHeight);
      Collision.TurnedCornersCentred(m, trailerCenterX, trailerCenterY, trailerWidth, trailerHeight, trailerAngle);
      Vehicle.Corners(m, b)
    }

    /** At rest, wheel centred, the trailer in line 70 behind the hitch. */
    constructor (m: MathLib, x0: real, y0: real, angle0: real)
      ensures Pose() == World.Pose(x0, y0, angle0)
      ensures speed == 0.0 && steeringAngle == 0.0 && trailerAngle == angle0
      ensures Point(trailerCenterX, trailerCenterY) == Vehicle.Behind(m, HitchPoint(m), angle0, hitchToTrailerCenter)
      ensures WithinLimits()
    {
      x, y, angle := x0, y0, angle0;
      speed, steeringAngle := 0.0, 0.0;
      trailerAngle := angle0;
      trailerCenterX, trailerCenterY := 0.0, 0.0;
      new;
      InitTrailerPosition(m);
    }

    /** `initTrailerPosition`: the trailer's centre 70 behind the hitch along
        the trailer's own heading. */
    method InitTrailerPosition(m: MathLib)
      modifies this`trailerCenterX, this`trailerCenterY
      ensures Point(trailerCenterX, trailerCenterY) == Vehicle.Behind(m, HitchPoint(m), trailerAngle, hitchToTrailerCenter)
      ensures Lawful(m) ==>
        var h := HitchPoint(m);
        (trailerCenterX - h.x) * (trailerCenterX - h.x) + (trailerCenterY - h.y) * (trailerCenterY - h.y)
          == hitchToTrailerCenter * hitchToTrailerCenter
    {
      var hitch := HitchPoint(m);
      var backDir := Vehicle.Direction(m, trailerAngle + PI);
      trailerCenterX := hitch.x + backDir.x * hitchToTrailerCenter;
      trailerCenterY := hitch.y + backDir.y * hitchToTrailerCenter;
      Vehicle.BehindDistance(m, hitch, trailerAngle, hitchToTrailerCenter);
    }

    /** `getJacknifeAngle`, with the source's normalisation loops. */
    method GetJacknifeAngle() returns (r: real)
      ensures r == JackknifeAngle()
    {
      r := NormalizeAngle(angle - trailerAngle);
    }

    /** `isJackknifed`: more than 72 degrees between cab and trailer. */
    method IsJackknifed() returns (b: bool)
      ensures b <==> Jackknifed(JackknifeAngle())
    {
      var j := GetJacknifeAngle();
      b := Abs(j) > PI / 2.5;
    }

    /** `update(input)`: steer, set the speed with the jackknife guard read
        before moving, move, then let the trailer follow the new hitch. The
        wheel and the speed never leave their limits. */
    method Update(m: MathLib, input: ControlInput)
      modifies this
      ensures steeringAngle == SteerStep(old(steeringAngle), input, steering)
      ensures speed == SpeedStep(old(speed), input, throttle, Wrap(old(angle) - old(trailerAngle)))
      ensures Pose() == Advance(m, old(Pose()), speed, steeringAngle)
      ensures TrailerPose() == TrailerStep(m, old(TrailerPose()), HitchPoint(m), hitchToTrailerCenter)
      ensures old(WithinLimits()) ==> WithinLimits()
    {
      var jacknifeAngle := GetJacknifeAngle();
      Steer(input);
      Accelerate(input, jacknifeAngle);
      Move(m);
      UpdateTrailerPhysics(m);
      if old(WithinLimits()) {
        SteerStepBounded(old(steeringAngle), input, steering);
        SpeedStepInBand(old(speed), input, throttle, jacknifeAngle);
      }
    }

    /** The steering block of `update`: left wins over right; with neither
        held the wheel returns towards the centre. */
    method Steer(input: ControlInput)
      modifies this`steeringAngle
      ensures steeringAngle == SteerStep(old(steeringAngle), input, steering)
    {
      if input.steerLeft {
        steeringAngle := Max(steeringAngle - steering.rate, -steering.maxAngle);
      } else if input.steerRight {
        steeringAngle := Min(steeringAngle + steering.rate, steering.maxAngle);
      } else {
        if Abs(steeringAngle) < steering.returnRate {
          steeringAngle := 0.0;
        } else if steeringAngle > 0.0 {
          steeringAngle := steeringAngle - steering.returnRate;
        } else {
          steeringAngle := steeringAngle + steering.returnRate;
        }
      }
    }

    /** The acceleration and braking block of `update`, given the jackknife
        angle read at the start of the tick. */
    method Accelerate(input: ControlInput, jacknifeAngle: real)
      modifies this`speed
      ensures speed == SpeedStep(old(speed), input, throttle, jacknifeAngle)
    {
      var maxJacknifeAngle := PI / 2.5;
      var isNearJacknife := Abs(jacknifeAngle) > maxJacknifeAngle * 0.8;
      var isJackknifed := Abs(jacknifeAngle) > maxJacknifeAngle;
      if input.accelerate {
        speed := Min(speed + throttle.acceleration, throttle.maxSpeed);
      } else if input.brake {
        if isJackknifed && speed <= 0.0 {
          speed := 0.0;
        } else if isNearJacknife && speed < 0.0 {
          speed := Max(speed - throttle.brakeForce * 0.3, -throttle.maxSpeed * 0.3);
        } else {
          speed := Max(speed - throttle.brakeForce, -throttle.maxSpeed * 0.6);
        }
      } else {
        if Abs(speed) < throttle.deceleration {
          speed := 0.0;
        } else if speed > 0.0 {
          speed := speed - throttle.deceleration;
        } else {
          speed := speed + throttle.deceleration;
        }
      }
    }

    /** The movement block of `update`: turn, then move along the new heading. */
    method Move(m: MathLib)
      modifies this`x, this`y, this`angle
      ensures Pose() == Advance(m, old(Pose()), speed, steeringAngle)
    {
      if speed != 0.0 {
        AdvanceMoving(m, Pose(), speed, steeringAngle);
        var turnFactor := steeringAngle * (if speed > 0.0 then 1.0 else -1.0);
        angle := angle + turnFactor * Abs(speed) * 0.02;
        var moved := Vehicle.Ahead(m, Point(x, y), angle, speed);
        x, y := moved.x, moved.y;
      }
    }

    /** `updateTrailerPhysics`. */
    method UpdateTrailerPhysics(m: MathLib)
      modifies this`trailerAngle, this`trailerCenterX, this`trailerCenterY
      ensures TrailerPose() == TrailerStep(m, old(TrailerPose()), HitchPoint(m), hitchToTrailerCenter)
    {
      ghost var before := TrailerPose();
      var hitch := HitchPoint(m);
      var dx := hitch.x - trailerCenterX;
      var dy := hitch.y - trailerCenterY;
      var distToHitch := Vehicle.Distance(m, Point(trailerCenterX, trailerCenterY), hitch);
      if distToHitch > 0.1 {
        var targetAngle := Vehicle.Bearing(m, Point(trailerCenterX, trailerCenterY), hitch);
        var angleDiff := NormalizeAngle(targetAngle - trailerAngle);
        trailerAngle := trailerAngle + angleDiff * 0.15;
        assert trailerAngle == before.angle + Vehicle.HeadingError(m, before, hitch) * 0.15;
        var targetDist := hitchToTrailerCenter;
        var currentDist := distToHitch;
        if Abs(currentDist - targetDist) > 0.1 {
          var dirX := dx / distToHitch;
          var dirY := dy / distToHitch;
          var correction := currentDist - targetDist;
          trailerCenterX := trailerCenterX + dirX * correction;
          trailerCenterY := trailerCenterY + dirY * correction;
          assert trailerCenterX == Vehicle.Pulled(before.x, hitch.x, distToHitch, hitchToTrailerCenter);
          assert trailerCenterY == Vehicle.Pulled(before.y, hitch.y, distToHitch, hitchToTrailerCenter);
        }
      }
      trailerAngle := NormalizeAngle(trailerAngle);
    }

    /** `reset(x, y, angle)`: at rest, wheel centred, the trailer in line 70
        behind the hitch, so the jackknife angle is zero. */
    method Reset(m: MathLib, x0: real, y0: real, angle0: real)
      modifies this
      ensures Pose() == World.Pose(x0, y0, angle0)
      ensures speed == 0.0 && steeringAngle == 0.0 && trailerAngle == angle0
      ensures Point(trailerCenterX, trailerCenterY) == Vehicle.Behind(m, HitchPoint(m), angle0, hitchToTrailerCenter)
      ensures JackknifeAngle() == 0.0 && WithinLimits()
    {
      x, y, angle := x0, y0, angle0;
      speed := 0.0;
      steeringAngle := 0.0;
      trailerAngle := angle0;
      InitTrailerPosition(m);
    }
  }
}

=== FILE: vehicle.dfy ===
/** What every vehicle shares: a centre, a heading, a size, the forward unit
    vector of a heading and the four corners of the turned body. */
module Vehicle {
  import opened JsMath
  import opened World
  import Collision

  /** JavaScript's `value || fallback` on an optional number: a missing value
      and the falsy number 0 both give the fallback. */
  function Or(v: Option<real>, fallback: real): (r: real)
    ensures v.Some? && v.value != 0.0 ==> r == v.value
    ensures v.None? || v.value == 0.0 ==> r == fallback
  {
    if v.Some? && v.value != 0.0 then v.value else fallback
  }

  /** The configuration object a vehicle is built from; every key may be absent. */
  datatype Config = Config(
    x: Option<real>, y: Option<real>, angle: Option<real>,
    width: Option<real>, height: Option<real>)

  /** Centre, heading and size of a vehicle body. */
  datatype Body = Body(x: real, y: real, angle: real, width: real, height: real)

  /** The base constructor: position and heading default to 0, the size to 40
      by 60; a size given as 0 counts as missing. */
  function FromConfig(c: Config): (b: Body)
    ensures b.width != 0.0 && b.height != 0.0
    ensures c.x.Some? ==> b.x == c.x.value
    ensures c.y.Some? ==> b.y == c.y.value
    ensures c.angle.Some? ==> b.angle == c.angle.value
    ensures c.x.None? ==> b.x == 0.0
    ensures c.y.None? ==> b.y == 0.0
    ensures c.angle.None? ==> b.angle == 0.0
    ensures c.width.Some? && c.width.value != 0.0 ==> b.width == c.width.value
    ensures c.width.None? || c.width.value == 0.0 ==> b.width == 40.0
    ensures c.height.Some? && c.height.value != 0.0 ==> b.height == c.height.value
    ensures c.height.None? || c.height.value == 0.0 ==> b.height == 60.0
  {
    Body(Or(c.x, 0.0), Or(c.y, 0.0), Or(c.angle, 0.0), Or(c.width, 40.0), Or(c.height, 60.0))
  }

  /** `getDirection`: the unit vector a heading faces, (sin a, -cos a). */
  function Direction(m: MathLib, a: real): Point {
    Point(m.sin(a), -m.cos(a))
  }

  lemma DirectionUnit(m: MathLib, a: real)
    requires Lawful(m)
    ensures var d := Direction(m, a); d.x * d.x + d.y * d.y == 1.0
    ensures Direction(m, 0.0) == Point(0.0, -1.0)
  {
  }

  /** `Math.sqrt(dx * dx + dy * dy)` for the offset from `a` to `b`. */
  function Distance(m: MathLib, a: Point, b: Point): (d: real)
    ensures Lawful(m) ==> d >= 0.0 && d * d == (b.x - a.x) * (b.x - a.x) + (b.y - a.y) * (b.y - a.y)
  {
    var dx, dy := b.x - a.x, b.y - a.y;
    assert dx * dx + dy * dy >= 0.0;
    m.sqrt(dx * dx + dy * dy)
  }

  /** The squared distance from `a` to `b`. */
  function SquaredGap(a: Point, b: Point): (s: real)
    ensures s >= 0.0
  {
    (b.x - a.x) * (b.x - a.x) + (b.y - a.y) * (b.y - a.y)
  }

  /** `b` lies on the line through `a` and `c`: the offsets from `a` are
      parallel (their cross product is zero). */
  predicate Collinear(a: Point, b: Point, c: Point) {
    (b.x - a.x) * (c.y - a.y) == (b.y - a.y) * (c.x - a.x)
  }

  /** `Math.atan2(dx, -dy)`: the heading that faces from `a` towards `b`. */
  function Bearing(m: MathLib, a: Point, b: Point): real {
    m.atan2(b.x - a.x, -(b.y - a.y))
  }

  /** The point `dist` along heading `angle` from `p`. */
  function Ahead(m: MathLib, p: Point, angle: real, dist: real): Point {
    var d := Direction(m, angle);
    Point(p.x + d.x * dist, p.y + d.y * dist)
  }

  /** The point `dist` behind `p` for a body facing `angle`: along `angle + PI`. */
  function Behind(m: MathLib, p: Point, angle: real, dist: real): Point {
    Ahead(m, p, angle + PI, dist)
  }

  /** With a lawful `Math`, a point moved `dist` along any heading is exactly
      `dist` away from where it started. */
  lemma AheadDistance(m: MathLib, p: Point, angle: real, dist: real)
    ensures Lawful(m) ==>
      var q := Ahead(m, p, angle, dist);
      (q.x - p.x) * (q.x - p.x) + (q.y - p.y) * (q.y - p.y) == dist * dist
  {
    if Lawful(m) {
      var s, c := m.sin(angle), m.cos(angle);
      assert s * s + c * c == 1.0;
      calc {
        (s * dist) * (s * dist) + (-c * dist) * (-c * dist);
        (s * s + c * c) * (dist * dist);
        dist * dist;
      }
    }
  }

  lemma BehindDistance(m: MathLib, p: Point, angle: real, dist: real)
    ensures Lawful(m) ==>
      var q := Behind(m, p, angle, dist);
      (q.x - p.x) * (q.x - p.x) + (q.y - p.y) * (q.y - p.y) == dist * dist
  {
    AheadDistance(m, p, angle + PI, dist);
  }

  /** Moving a point along the line to a target by `d - target`, where `d` is
      its distance to the target, leaves it exactly `target` away, on the same
      line as before. */
  lemma PullToDistance(dx: real, dy: real, d: real, target: real)
    requires d > 0.0 && d * d == dx * dx + dy * dy
    ensures var ex, ey := dx - dx / d * (d - target), dy - dy / d * (d - target);
      && ex * ex + ey * ey == target * target
      && ex * dy == ey * dx
  {
    var u, v, r := dx / d, dy / d, target / d;
    assert u * d == dx && v * d == dy && r * d == target;
    assert dx - u * (d - target) == u * target;
    assert dy - v * (d - target) == v * target;
    assert u * target == dx * r by { assert u * target * d == dx * r * d; }
    assert v * target == dy * r by { assert v * target * d == dy * r * d; }
    assert (dx * r) * (dx * r) + (dy * r) * (dy * r) == (dx * dx + dy * dy) * (r * r);
    assert (d * d) * (r * r) == (r * d) * (r * d);
  }

  // ---------------------------------------------------------------------------
  // Towing: a trailer servoes towards a hitch point

  /** One coordinate moved `dist - targetDist` along the unit direction
      `(toward - a) / dist`. */
  function Pulled(a: real, toward: real, dist: real, targetDist: real): real
    requires dist != 0.0
  {
    a + (toward - a) / dist * (dist - targetDist)
  }

  /** How far a heading is from facing the hitch, the short way round. */
  function HeadingError(m: MathLib, pose: Pose, hitch: Point): (e: real)
    ensures -PI <= e <= PI
  {
    WrapRange(Bearing(m, Point(pose.x, pose.y), hitch) - pose.angle);
    Wrap(Bearing(m, Point(pose.x, pose.y), hitch) - pose.angle)
  }

  /** The heading after turning `damping` of the heading error, normalised. */
  function Turned(m: MathLib, pose: Pose, hitch: Point, damping: real): (a: real)
    ensures -PI <= a <= PI
    ensures damping == 0.0 ==> a == Wrap(pose.angle)
  {
    var raw := pose.angle + HeadingError(m, pose, hitch) * damping;
    WrapRange(raw);
    assert damping == 0.0 ==> raw == pose.angle;
    Wrap(raw)
  }

  /** A square root below 0.1 is the root of a number below 0.01. */
  lemma RootBelowTenth(d: real, s: real)
    requires d >= 0.0 && d * d == s
    ensures d < 0.1 <==> s < 0.01
    ensures d > 0.1 <==> s > 0.01
  {
    if d < 0.1 {
      assert d * d <= d * 0.1;
    } else {
      assert d * d >= d * 0.1;
    }
  }

  /** Pulling both coordinates leaves the point `targetDist` from the hitch,
      on the line through its old position and the hitch. */
  lemma PulledPoint(m: MathLib, p: Point, hitch: Point, targetDist: real)
    requires Lawful(m)
    requires Distance(m, p, hitch) >= 0.1
    ensures var dist := Distance(m, p, hitch);
      var qx, qy := Pulled(p.x, hitch.x, dist, targetDist), Pulled(p.y, hitch.y, dist, targetDist);
      && SquaredGap(Point(qx, qy), hitch) == targetDist * targetDist
      && Collinear(p, Point(qx, qy), hitch)
  {
    PullAlongLine(p, hitch, Distance(m, p, hitch), targetDist);
  }

  /** `q` is `p` pulled towards `hitch` from `dist` to `targetDist`: its
      offset from the hitch is `p`'s scaled by `targetDist / dist`, and it
      lies `dist - targetDist` from `p`. */
  predicate PulledBy(p: Point, hitch: Point, q: Point, dist: real, targetDist: real)
    requires dist != 0.0
  {
    && hitch.x - q.x == (hitch.x - p.x) / dist * targetDist
    && hitch.y - q.y == (hitch.y - p.y) / dist * targetDist
    && SquaredGap(p, q) == (dist - targetDist) * (dist - targetDist)
  }

  /** `PulledTowards` at the measured distance to the hitch. */
  lemma PulledTowardsHitch(m: MathLib, p: Point, hitch: Point, targetDist: real)
    requires Lawful(m)
    requires Distance(m, p, hitch) >= 0.1
    ensures var dist := Distance(m, p, hitch);
      PulledBy(p, hitch, Point(Pulled(p.x, hitch.x, dist, targetDist), Pulled(p.y, hitch.y, dist, targetDist)), dist, targetDist)
  {
    PulledTowards(p, hitch, Distance(m, p, hitch), targetDist);
  }

  /** `PulledPoint` for any positive `dist` that is the distance from `p` to
      the hitch. */
  lemma PullAlongLine(p: Point, hitch: Point, dist: real, targetDist: real)
    requires dist > 0.0 && dist * dist == SquaredGap(p, hitch)
    ensures var qx, qy := Pulled(p.x, hitch.x, dist, targetDist), Pulled(p.y, hitch.y, dist, targetDist);
      && SquaredGap(Point(qx, qy), hitch) == targetDist * targetDist
      && Collinear(p, Point(qx, qy), hitch)
  {
    PullOffsets(p.x, p.y, hitch.x, hitch.y, dist, targetDist,
                Pulled(p.x, hitch.x, dist, targetDist), Pulled(p.y, hitch.y, dist, targetDist));
  }

  /** `PullToDistance` in the coordinates of the point, the hitch and the
      pulled point `(qx, qy)`. */
  lemma PullOffsets(px: real, py: real, hx: real, hy: real, d: real, target: real, qx: real, qy: real)
    requires d > 0.0 && d * d == (hx - px) * (hx - px) + (hy - py) * (hy - py)
    requires qx == px + (hx - px) / d * (d - target) && qy == py + (hy - py) / d * (d - target)
    ensures (hx - qx) * (hx - qx) + (hy - qy) * (hy - qy) == target * target
    ensures (qx - px) * (hy - py) == (qy - py) * (hx - px)
  {
    var dx, dy := hx - px, hy - py;
    PullToDistance(dx, dy, d, target);
    var ex, ey := dx - dx / d * (d - target), dy - dy / d * (d - target);
    assert hx - qx == ex && hy - qy == ey;
    assert qx - px == dx - ex && qy - py == dy - ey;
    assert (dx - ex) * dy == dx * dy - ex * dy;
    assert (dy - ey) * dx == dy * dx - ey * dx;
  }

  /** Pulling scales the offset from the hitch by `targetDist / dist`, so a
      non-negative target keeps the point on its own side of the hitch, and
      the point moves exactly `|dist - targetDist|`. */
  lemma PulledTowards(p: Point, hitch: Point, dist: real, targetDist: real)
    requires dist > 0.0 && dist * dist == SquaredGap(p, hitch)
    ensures var qx, qy := Pulled(p.x, hitch.x, dist, targetDist), Pulled(p.y, hitch.y, dist, targetDist);
      && hitch.x - qx == (hitch.x - p.x) / dist * targetDist
      && hitch.y - qy == (hitch.y - p.y) / dist * targetDist
      && SquaredGap(p, Point(qx, qy)) == (dist - targetDist) * (dist - targetDist)
  {
    PullScales(p.x, p.y, hitch.x, hitch.y, dist, targetDist,
               Pulled(p.x, hitch.x, dist, targetDist), Pulled(p.y, hitch.y, dist, targetDist));
  }

  /** `PulledTowards` in the coordinates of the point, the hitch and the
      pulled point `(qx, qy)`. */
  lemma PullScales(px: real, py: real, hx: real, hy: real, d: real, target: real, qx: real, qy: real)
    requires d > 0.0 && d * d == (hx - px) * (hx - px) + (hy - py) * (hy - py)
    requires qx == px + (hx - px) / d * (d - target) && qy == py + (hy - py) / d * (d - target)
    ensures hx - qx == (hx - px) / d * target && hy - qy == (hy - py) / d * target
    ensures (qx - px) * (qx - px) + (qy - py) * (qy - py) == (d - target) * (d - target)
  {
    var u, v := (hx - px) / d, (hy - py) / d;
    assert u * d == hx - px && v * d == hy - py;
    assert u * (d - target) == u * d - u * target;
    assert v * (d - target) == v * d - v * target;
    UnitDirection(u, v, d, hx - px, hy - py);
    ScaledUnitLength(u, v, d - target, qx - px, qy - py);
  }

  /** A vector of length `d > 0` divided by `d` has length 1. */
  lemma UnitDirection(u: real, v: real, d: real, dx: real, dy: real)
    requires d > 0.0 && u * d == dx && v * d == dy && d * d == dx * dx + dy * dy
    ensures u * u + v * v == 1.0
  {
    SquareOfProduct(u, d, dx);
    SquareOfProduct(v, d, dy);
    CancelSquare(u * u, v * v, d, dx * dx, dy * dy);
  }

  lemma SquareOfProduct(u: real, d: real, e: real)
    requires u * d == e
    ensures e * e == (u * u) * (d * d)
  { }

  lemma CancelSquare(a: real, b: real, d: real, e: real, f: real)
    requires d > 0.0 && e == a * (d * d) && f == b * (d * d) && d * d == e + f
    ensures a + b == 1.0
  {
    var x := a + b - 1.0;
    assert (x * d) * d == e + f - d * d;
    ZeroFactor(x * d, d);
    ZeroFactor(x, d);
  }

  /** A unit vector scaled by `k` has squared length `k * k`. */
  lemma ScaledUnitLength(u: real, v: real, k: real, ex: real, ey: real)
    requires u * u + v * v == 1.0 && ex == u * k && ey == v * k
    ensures ex * ex + ey * ey == k * k
  {
    assert ex * ex + ey * ey == (u * u + v * v) * (k * k);
  }

  /** `getCorners`: the body's rectangle turned about its centre. */
  function Corners(m: MathLib, b: Body): (c: seq<Point>)
    ensures |c| == 4
  {
    Collision.TurnedCorners(m, b.x, b.y, b.width, b.height, b.angle)
  }

  /** The corners of a body are centred on it, and an unturned body has its
      corners at the centre plus and minus half its size. */
  lemma CornersAroundCentre(m: MathLib, b: Body)
    requires Lawful(m)
    ensures var c := Corners(m, b);
      && (c[0].x + c[2].x) / 2.0 == b.x && (c[0].y + c[2].y) / 2.0 == b.y
      && (c[1].x + c[3].x) / 2.0 == b.x && (c[1].y + c[3].y) / 2.0 == b.y
    ensures b.angle == 0.0 ==>
      Corners(m, b) == [Point(b.x - b.width / 2.0, b.y - b.height / 2.0),
                        Point(b.x + b.width / 2.0, b.y - b.height / 2.0),
                        Point(b.x + b.width / 2.0, b.y + b.height / 2.0),
                        Point(b.x - b.width / 2.0, b.y + b.height / 2.0)]
  {
    Collision.TurnedCornersCentred(m, b.x, b.y, b.width, b.height, b.angle);
    Collision.TurnedCornersAtZero(m, b.x, b.y, b.width, b.height);
  }
}

=== FILE: view.dfy ===
/** The game renderer's camera: with follow mode on it eases towards the
    truck, kept inside the world; otherwise it stays at the origin. */
module View {
  import opened JsMath

  /** The camera target on one axis: centred on `p`, and clamped so the view
      stays inside a world of size `world` seen through a canvas of size `canvas`. */
  function Target(p: real, world: real, canvas: real): real {
    Max(0.0, Min(p - canvas / 2.0, world - canvas))
  }

  /** The target lies in [0, max(0, world - canvas)], and is the centred
      position itself whenever that already lies in the world. */
  lemma TargetRange(p: real, world: real, canvas: real)
    ensures 0.0 <= Target(p, world, canvas) <= Max(0.0, world - canvas)
    ensures 0.0 <= p - canvas / 2.0 <= world - canvas ==> Target(p, world, canvas) == p - canvas / 2.0
  {
  }

  /** One easing step: `x` moves the fraction `s` of the way to `t`. */
  function Ease(x: real, t: real, s: real): real {
    x + (t - x) * s
  }

  /** With a fraction between 0 and 1 the camera lands between where it was
      and its target, and what is left of the gap is the fraction `1 - s` of it. */
  lemma EaseBetween(x: real, t: real, s: real)
    requires 0.0 <= s <= 1.0
    ensures Min(x, t) <= Ease(x, t, s) <= Max(x, t)
    ensures t - Ease(x, t, s) == (1.0 - s) * (t - x)
  {
    var d := t - x;
    assert Ease(x, t, s) == x + d * s;
    if x <= t {
      assert 0.0 <= d * s by { MulNonNegative(d, s); }
      assert 0.0 <= d * (1.0 - s) by { MulNonNegative(d, 1.0 - s); }
    } else {
      assert 0.0 <= -d * s by { MulNonNegative(-d, s); }
      assert 0.0 <= -d * (1.0 - s) by { MulNonNegative(-d, 1.0 - s); }
    }
  }

  function Power(b: real, n: nat): real {
    if n == 0 then 1.0 else b * Power(b, n - 1)
  }

  /** `n` easing steps towards a fixed target. */
  function EaseTimes(x: real, t: real, s: real, n: nat): real {
    if n == 0 then x else Ease(EaseTimes(x, t, s, n - 1), t, s)
  }

  /** Following a still truck, the gap shrinks geometrically: after `n` ticks
      it is `(1 - s)^n` of the first one. */
  lemma {:induction false} EaseTimesGap(x: real, t: real, s: real, n: nat)
    ensures t - EaseTimes(x, t, s, n) == Power(1.0 - s, n) * (t - x)
  {
    if n > 0 {
      EaseTimesGap(x, t, s, n - 1);
      var y := EaseTimes(x, t, s, n - 1);
      assert t - Ease(y, t, s) == (1.0 - s) * (t - y);
      assert (1.0 - s) * (Power(1.0 - s, n - 1) * (t - x)) == Power(1.0 - s, n) * (t - x);
    }
  }

  /** `this.camera`. */
  class Camera {
    var x: real
    var y: real
    var targetX: real
    var targetY: real
    const smoothing: real := 0.08

    constructor ()
      ensures x == 0.0 && y == 0.0 && targetX == 0.0 && targetY == 0.0
    {
      x, y, targetX, targetY := 0.0, 0.0, 0.0, 0.0;
    }
  }

  class GameRenderer {
    const camera: Camera
    var worldWidth: real
    var worldHeight: real
    var followMode: bool
    var canvasWidth: real
    var canvasHeight: real

    /** A 1200 by 800 world and canvas, the camera at the origin, not following. */
    constructor ()
      ensures fresh(camera) && camera.x == 0.0 && camera.y == 0.0
      ensures camera.targetX == 0.0 && camera.targetY == 0.0
      ensures worldWidth == 1200.0 && worldHeight == 800.0 && !followMode
      ensures canvasWidth == 1200.0 && canvasHeight == 800.0
    {
      camera := new Camera();
      worldWidth, worldHeight := 1200.0, 800.0;
      followMode := false;
      new;
      Resize();
    }

    /** `resize()`: the canvas is always 1200 by 800. */
    method Resize()
      modifies this`canvasWidth, this`canvasHeight
      ensures canvasWidth == 1200.0 && canvasHeight == 800.0
    {
      canvasWidth := 1200.0;
      canvasHeight := 800.0;
    }

    method SetWorldSize(width: real, height: real)
      modifies this`worldWidth, this`worldHeight
      ensures worldWidth == width && worldHeight == height
    {
      worldWidth := width;
      worldHeight := height;
    }

    method SetFollowMode(enabled: bool)
      modifies this`followMode
      ensures followMode == enabled
    {
      followMode := enabled;
    }

    /** `updateCamera(targetX, targetY)`. Not following: back to the origin.
        Following: a clamped target, and one easing step towards it. */
    method UpdateCamera(tx: real, ty: real)
      modifies camera
      ensures !followMode ==>
        && camera.x == 0.0 && camera.y == 0.0
        && camera.targetX == old(camera.targetX) && camera.targetY == old(camera.targetY)
      ensures followMode ==>
        && camera.targetX == Target(tx, worldWidth, canvasWidth)
        && camera.targetY == Target(ty, worldHeight, canvasHeight)
        && camera.x == Ease(old(camera.x), camera.targetX, camera.smoothing)
        && camera.y == Ease(old(camera.y), camera.targetY, camera.smoothing)
      ensures followMode ==>
        && 0.0 <= camera.targetX <= Max(0.0, worldWidth - canvasWidth)
        && 0.0 <= camera.targetY <= Max(0.0, worldHeight - canvasHeight)
        && Min(old(camera.x), camera.targetX) <= camera.x <= Max(old(camera.x), camera.targetX)
        && Min(old(camera.y), camera.targetY) <= camera.y <= Max(old(camera.y), camera.targetY)
    {
      if !followMode {
        camera.x := 0.0;
        camera.y := 0.0;
        return;
      }
      camera.targetX := tx - canvasWidth / 2.0;
      camera.targetY := ty - canvasHeight / 2.0;
      camera.targetX := Max(0.0, Min(camera.targetX, worldWidth - canvasWidth));
      camera.targetY := Max(0.0, Min(camera.targetY, worldHeight - canvasHeight));
      TargetRange(tx, worldWidth, canvasWidth);
      TargetRange(ty, worldHeight, canvasHeight);
      EaseBetween(camera.x, camera.targetX, camera.smoothing);
      EaseBetween(camera.y, camera.targetY, camera.smoothing);
      camera.x := camera.x + (camera.targetX - camera.x) * camera.smoothing;
      camera.y := camera.y + (camera.targetY - camera.y) * camera.smoothing;
    }
  }
}

=== FILE: world.dfy ===
/** The plain data the game passes around: points, poses, rectangles and
    obstacles, as the level table and the map loaders write them. */
module World {

  datatype Option<T> = None | Some(value: T)

  datatype Point = Point(x: real, y: real)

  /** A position with a heading in radians; heading 0 faces up the screen (-y). */
  datatype Pose = Pose(x: real, y: real, angle: real)

  /** A rectangle given by its top-left corner and size, turned by `angle`
      about its centre. A record without an `angle` reads as angle 0, since
      the source only ever uses `angle || 0`. */
  datatype Rect = Rect(x: real, y: real, width: real, height: real, angle: real)

  /** The `type` tag of an obstacle. */
  datatype ObstacleKind = Wall | Barrier | Car | Cone | ParkedTrailer

  datatype Obstacle = Obstacle(kind: ObstacleKind, box: Rect)

  /** The built-in levels are numbered; loaded maps carry a tag. */
  datatype LevelId = Numbered(n: int) | Named(tag: string)

  /** A level: where the truck starts, where the trailer must be parked (none
      in free roam) and what is in the way. Every level parks the trailer. */
  datatype Level = Level(
    id: LevelId, name: string, description: string,
    truck: Pose, parkingZone: Option<Rect>, obstacles: seq<Obstacle>)

  /** An unrotated obstacle, as the level table and the loaders build them. */
  function Block(kind: ObstacleKind, x: real, y: real, width: real, height: real): (o: Obstacle)
    ensures o.kind == kind && o.box.angle == 0.0
    ensures o.box.x == x && o.box.y == y && o.box.width == width && o.box.height == height
  {
    Obstacle(kind, Rect(x, y, width, height, 0.0))
  }
}
